=== FILE: README.md ===
# tmdb-to-imdb identity resolution, modelled in Dafny

This project models the identity-resolution core of tmdb-to-imdb. That core
maps catalog (TMDB) movies and episodes to title-graph (IMDb) identifiers and
keeps the mapping in a document cache.

- **Match engine.** It reads an episode's season and episode off the graph's
  displayed numbers (`getSeasonAndEpisode`). It scores text-search
  candidates: title normalisation, a title bonus, a runtime bonus, and the
  winner by score, then votes, then search order. It computes an episode's
  absolute number and the positional match against the series' episode
  list. It runs the fallback chain of `getEpisodeFromTmdb`: air-date
  cut-off, positional or id match, lookup by external id, text search.
- **Seasons and series.** `getSeasonFromTmdb` resolves a season slot by slot:
  cache first, then the resolver. It applies the run correction, which
  renumbers the whole season from its first and last resolved anchors, and
  writes the season back. `getSeriesFromTmdb` flattens a series into
  position keys, looks them all up in one batch and re-resolves the seasons
  that are not fully cached. It then writes everything it resolved and puts
  the written identifiers back in place.
- **Cache protocol.** The protocol of `src/api/firestore.ts` is modelled over
  a `map` from document id to record. It covers the document-id and
  `buildId` encodings and the batched lookup with its staleness bypass. It
  also covers the batched upsert with last-write-wins and results re-read
  and aligned, the single lookup and upsert, and delete-by-title with its
  count.
- **The earlier resolver.** The copy in `src/tmdb.ts` is a second module.
  Lemmas state exactly where it agrees with the current one and where it
  differs.

Upstream calls are plain values. The catalog's detail calls and the title
graph's series, title and search queries are total functions in one
`Catalog.Services` record; a failed call yields nothing. The Unicode letter
class and lower-casing are fields of that record too. The clock is a `now`
parameter. Dates are abstract integers, with nothing for a missing or
unparseable date.

Modules, one per file:

| file | module | models |
|---|---|---|
| wrappers.dfy | `Wrappers` | the `Option` type |
| strings.dfy | `Strings` | decimal rendering, `includes`, `join`/`split` on one character |
| jsnumbers.dfy | `JsNumbers` | `parseInt` with no radix, and integral `toString` |
| ids.dfy | `Ids` | document ids, `buildId`, graph identifiers, `DbResult` |
| batching.dfy | `Batching` | fixed-size batching and concatenation of rows |
| cache.dfy | `Cache` | `src/api/firestore.ts` |
| graph.dfy | `Graph` | `getSeasonAndEpisode` and the result shaping of `getTitleFromId` |
| normalize.dfy | `Normalize` | `cleanRegex`, lower-casing, the " (n)" rewrite |
| scoring.dfy | `Scoring` | the confidence score and winner choice of `getTitleFromTmdbData` |
| catalog.dfy | `Catalog` | catalog records, the service record, `getSeriesTitle` |
| episodes.dfy | `Episodes` | `getEpisodeFromTmdb` |
| runs.dfy | `Runs` | the season run correction |
| seasons.dfy | `Seasons` | `getSeasonFromTmdb` |
| series.dfy | `Series` | `getSeriesFromTmdb` |
| movies.dfy | `Movies` | `getMovieFromTmdb` |
| legacy.dfy | `Legacy` | the operations of `src/tmdb.ts` |

A season slot is an `Entry`:
- `Tuple`: an identifier resolved in this call, the only kind `Array.isArray` accepts;
- `Hit`: a cache result object;
- `Unresolved`: nothing.

Two rules are parameters, one for each of the first two defects listed under Findings:
- the extraction of a positional match (`how`: `AgainstWrapper` as the source passes the episodes wrapper, `AgainstList` corrected);
- the write-back rule (`stored`: `StoredIdentifierAsWritten` as the source writes hits, `StoredIdentifier` corrected).

Each season and series operation therefore exists in two forms:
- the source's form, with both of the source's rules, named `…AsWritten`;
- the corrected form, with both corrected rules, which the rest of the model uses.

The earlier resolver (`Legacy`) has both defects too, and is modelled with the source's rules.

The third defect is the read-back of a record's write time. It is modelled only at the lookup (`Cache.LookupManyAsWritten`). The season and series operations, in both forms, use the corrected lookup.

## Model

| member | source | states |
|---|---|---|
| `Strings.NatToString` | src/api/firestore.ts:44 | a number prints as a non-empty run of decimal digits |
| `Strings.DigitsValueOfNatToString` | src/api/firestore.ts:44 | reading the printed digits back gives the number |
| `Strings.NatToStringInjective` | src/api/firestore.ts:44 | distinct numbers print differently |
| `Strings.ContainsAt` | src/imdb.ts:393 | `includes` holds exactly when the needle occurs at some position |
| `Strings.Split` | src/imdb.ts:380 | splitting always yields at least one piece |
| `Strings.SplitJoin` | src/api/firestore.ts:81-83 | splitting a colon join gives back the parts when no part holds the separator |
| `JsNumbers.TrimStart` | src/imdb.ts:45 | `parseInt` skips a suffix-preserving run of leading white space and stops at the first other character |
| `JsNumbers.DigitPrefix` | src/imdb.ts:45 | the digits `parseInt` reads are the longest digit prefix |
| `JsNumbers.HexPrefix` | src/imdb.ts:45 | after `0x` the longest hexadecimal prefix is read |
| `JsNumbers.IntToString` | src/imdb.ts:43 | an integer prints as a non-empty string |
| `JsNumbers.ParseIntOfToString` | src/imdb.ts:43-45 | `parseInt` reads back every printed integer, so the 1-based position of an unplaced episode survives the round trip |
| `JsNumbers.ToStringHasNoSeparator` | src/api/firestore.ts:44 | no printed number holds `:` or `_`, so ids built from numbers split cleanly |
| `Ids.DocumentIdIsJoin` | src/api/firestore.ts:38-45 | a document id is the kind code and the three key numbers joined by `_` |
| `Ids.ParseDocumentIdRoundTrip` | src/api/firestore.ts:38-45 | the kind and key can be read back from any document id |
| `Ids.DocumentIdInjective` | src/api/firestore.ts:38-45 | two keys share a document only when kind, title, season and episode all agree |
| `Ids.Rendered` | src/api/firestore.ts:81-83 | `buildId` renders at most one part per segment |
| `Ids.RenderedSkipsUndefined` | src/api/firestore.ts:82 | an undefined segment anywhere contributes nothing to the id |
| `Ids.SplitBuildId` | src/api/firestore.ts:81-83 | splitting a built id at `:` gives the defined segments back, when no text holds `:` |
| `Ids.RenderImdbIdShape` | src/api/firestore.ts:149 | a stored identifier splits into the title id followed by the season and episode numbers it carries |
| `Batching.ConcatIndex` | src/api/tmdb.ts:362-368 | key `k` of season `i` sits at the season's offset plus `k` in the flattened key list |
| `Batching.ConcatLocate` | src/api/tmdb.ts:375-379 | every flattened index maps back to a season index and an episode index |
| `Batching.ChunksConcat` | src/api/firestore.ts:101-104 | batching loses, repeats and reorders nothing: the batches concatenate to the input |
| `Batching.ChunksCount` | src/api/firestore.ts:102 | there are ceil(n / size) batches |
| `Batching.ChunksSlices` | src/api/firestore.ts:103 | batch `i` is the slice from `i * size` to `min((i + 1) * size, n)`, never empty and never over the size |
| `Batching.FiftyKeysMakeThreeReadBatches` | src/api/firestore.ts:10 | 50 keys are read as 24, 24 and 2 |
| `Batching.TwelveHundredWritesMakeThreeBatches` | src/api/firestore.ts:185-189 | 1200 writes go as 500, 500 and 200 |
| `Cache.RecordToResultShape` | src/api/firestore.ts:47-60 | the catalog string of a result is the lower-case kind and title, with season and episode only for episodes |
| `Cache.LookupOne` | src/api/firestore.ts:62-79 | a single lookup finds nothing exactly when the document is absent, and otherwise returns its record with no staleness check |
| `Cache.Fresh` | src/api/firestore.ts:127-133 | with an air date, a record reads as a miss exactly when the air date is not before its write time; without one, every record is returned |
| `Cache.DocumentIds` | src/api/firestore.ts:90-96 | the lookup queries are the document ids of the keys, in input order |
| `Cache.Gather` | src/api/firestore.ts:106-118 | the matches gathered from the batches are exactly the stored documents among the requested ids |
| `Cache.ReadBatched` | src/api/firestore.ts:98-118 | reading in batches of 24 finds every requested document that exists and nothing else |
| `Cache.LookupMany` | src/api/firestore.ts:85-137 | the batched lookup returns one result per key, in input order, each the key's record filtered by its own air date |
| `Cache.LookupManyWithoutDates` | src/api/firestore.ts:127 | without air dates the batched lookup agrees with the single lookup on every key |
| `Cache.FreshAsWritten` | src/api/firestore.ts:127-133 | with `updatedAt` read back as the store returns it, the bypass returns every found record whatever the air date |
| `Cache.StaleRecordKeptAsWritten` | src/api/firestore.ts:127-133 | a record written no later than the air date is a miss when `updatedAt` is read as written, but is returned as the store hands it back |
| `Cache.LookupManyAsWritten` | src/api/firestore.ts:85-137 | the batched lookup as written keeps one result per key |
| `Cache.LookupManyAsWrittenIgnoresDates` | src/api/firestore.ts:114-133 | as written, the batched lookup with any air dates equals the date-free one |
| `Cache.LookupManyDuplicates` | src/api/firestore.ts:120-136 | equal keys with equal air dates give equal results wherever they sit |
| `Cache.UpsertOne` | src/api/firestore.ts:144-174 | a single upsert adds or replaces exactly the key's document with the written record, and returns that record without re-reading it |
| `Cache.LastWrite` | src/api/firestore.ts:195-209 | the index of the last write in a batch that targets a document |
| `Cache.WriteAllContents` | src/api/firestore.ts:191-214 | after the merge-sets every targeted document holds the record of its last write; all others are untouched |
| `Cache.WriteAllAppend` | src/api/firestore.ts:191-214 | writing one list after another is writing their concatenation |
| `Cache.CommitBatchesIsWriteAll` | src/api/firestore.ts:186-214 | committing the 500-write batches in order is writing the whole input |
| `Cache.UpsertIds` | src/api/firestore.ts:217-220 | the ids read back are those of the written keys, in input order |
| `Cache.UpsertMany` | src/api/firestore.ts:176-249 | empty input writes nothing and returns nothing; otherwise the store is the input written in order, and result `i` is what the store now holds for key `i` |
| `Cache.UniqueWriteLands` | src/api/firestore.ts:195-209 | a write whose key no other write shares leaves its own record |
| `Cache.UpsertManyResults` | src/api/firestore.ts:216-248 | each result reports the last write to its document, which may come later in the input |
| `Cache.UpsertSameKeyLastWins` | src/api/firestore.ts:195-209 | writing one key many times leaves one document holding the last value |
| `Cache.WriteAllKeepsWellKeyed` | src/api/firestore.ts:196-207 | writes keep every record under the document id its own fields produce |
| `Cache.RemoveEntriesByTitle` | src/api/firestore.ts:251-284 | exactly the records of the kind and title are removed, the rest are untouched, and the count is the number removed |
| `Graph.NodeIds` | src/imdb.ts:37-39 | the ids of an episode list, in list order |
| `Graph.IndexOf` | src/imdb.ts:37-42 | `findIndex` gives the first position holding the id, and nothing exactly when the id is absent |
| `Graph.SeasonAndEpisode` | src/imdb.ts:27-46 | outside the "unknown" season the displayed texts are parsed; inside it the result is season 0 and one plus the first list position, and nothing exactly when the list lacks the id |
| `Graph.SeasonAndEpisodeIgnoresList` | src/imdb.ts:32-45 | outside the "unknown" season neither the title id nor the list affects the result |
| `Graph.ShapeMatch` | src/imdb.ts:431-460 | a title without series information is its bare id; an episode is the series id with both numbers, or nothing exactly when extraction fails |
| `Graph.TitleFromId` | src/imdb.ts:210-252 | an unknown title gives nothing; otherwise the result is shaped as above |
| `Graph.UnknownSeasonTitle` | src/imdb.ts:35-43 | an unplaced episode resolves exactly when its series lists it, as season 0 and its 1-based position |
| `Normalize.Clean` | src/imdb.ts:351 | cleaning keeps exactly the letters, digits, `{` and `}`, in order |
| `Normalize.Lower` | src/imdb.ts:363 | lower-casing maps every character and keeps the length |
| `Normalize.CleanAppend` | src/imdb.ts:362 | cleaning distributes over concatenation |
| `Normalize.CleanFixesExactlyKept` | src/imdb.ts:362 | a string is left unchanged by cleaning exactly when all its characters are kept |
| `Normalize.CleanIdempotent` | src/imdb.ts:392 | cleaning an already cleaned title changes nothing |
| `Normalize.RewritePart` | src/imdb.ts:357-361 | a trailing " (d)" becomes ", Part d", or is dropped when the overview mentions "The crossover"; other names are kept |
| `Normalize.RewritePartSettles` | src/imdb.ts:357-361 | without a crossover, rewriting a rewritten name changes nothing |
| `Normalize.CrossoverRemovesOneSuffix` | src/imdb.ts:358-360 | with a crossover only the last suffix goes |
| `Scoring.FirstOccurrence` | src/imdb.ts:380 | the first position where the separator occurs, with none before it |
| `Scoring.AfterSeparator` | src/imdb.ts:380-381 | the extra variant is the text after the first ": ", or "" when there is none |
| `Scoring.NonEmpty` | src/imdb.ts:374 | the alternative titles with empty ones dropped |
| `Scoring.Variants` | src/imdb.ts:371-382 | the title set holds the title, the original title or "", every non-empty aka, and for unplaced episodes the text after ": ", and nothing else |
| `Scoring.NormalizedAll` | src/imdb.ts:384-386 | every variant is compared in cleaned, lower-cased form |
| `Scoring.AnyOverlap` | src/imdb.ts:391-397 | the partial test holds exactly when some variant contains or is contained in the query |
| `Scoring.TitleBonus` | src/imdb.ts:388-398 | 10 for an exact variant, else 5 for a partial one, else 0 |
| `Scoring.RoundMinutes` | src/imdb.ts:400 | the graph runtime is rounded to the nearest minute, halves up |
| `Scoring.RuntimeBonus` | src/imdb.ts:400-406 | 10 when the rounded runtime is within a minute of the catalog's, 5 within four, else 0, stated in seconds |
| `Scoring.Confidence` | src/imdb.ts:365-409 | a candidate without title text scores 0; otherwise the title bonus plus the runtime bonus; always one of 0, 5, 10, 15, 20 |
| `Scoring.ConfidenceTwenty` | src/imdb.ts:388-406 | the top score is reached exactly by an exact title match with a runtime within a minute |
| `Scoring.PartialTitleFarRuntimeScoresFive` | src/imdb.ts:390-406 | a partial title match with a far runtime scores 5 |
| `Scoring.MissingOriginalTitleEarnsPartialBonus` | src/imdb.ts:373 | a titled candidate with no original title always earns at least 5 |
| `Scoring.Titles` | src/imdb.ts:353-355 | the candidates are exactly the title entities among the hits, in order |
| `Scoring.Scores` | src/imdb.ts:365 | one confidence per candidate, aligned |
| `Scoring.Leader` | src/imdb.ts:411-425 | one pass finds the top-scoring candidate with the most votes, earliest among equals |
| `Scoring.WinnerUnique` | src/imdb.ts:421-425 | at most one candidate meets the winner rule |
| `Scoring.Winner` | src/imdb.ts:411-429 | nothing exactly when every score is 0 or there are no candidates; otherwise the rule's unique winner, with a positive score |
| `Scoring.TitleFromSearch` | src/imdb.ts:343-460 | a failed search or no winner gives nothing; otherwise the winner is shaped as a title or an episode |
| `Scoring.SearchResolvesPlacedWinner` | src/imdb.ts:431-460 | a winner that is a movie or a placed episode is the search result |
| `Catalog.SeriesTitle` | src/api/tmdb.ts:66-90 | given details are used, else fetched; a failed fetch gives neither details nor a graph series; otherwise the graph series is the one behind the external id |
| `Episodes.EarlierEpisodesAppend` | src/api/tmdb.ts:164-173 | the count of earlier episodes adds up over any split of the season list |
| `Episodes.EarlierEpisodesOrderFree` | src/api/tmdb.ts:164-173 | the count does not depend on the order of the season list |
| `Episodes.AbsoluteEpisodeNumber` | src/api/tmdb.ts:164-173 | never below the episode number, and equal to it without details or in seasons 0 and 1 |
| `Episodes.AbsoluteEpisodeExample` | src/api/tmdb.ts:164-173 | specials never count and listing order is irrelevant: episode 3 of season 2 after a 10-episode season 1 is 13 |
| `Episodes.Placed` | src/api/tmdb.ts:175-179 | the positional list is the series list without the nodes displayed in season "0" |
| `Episodes.FirstMatchFrom` | src/api/tmdb.ts:180-202 | `find` returns the first node matching by external id, or by air date at the absolute position |
| `Episodes.PositionalMatch` | src/api/tmdb.ts:174-202 | nothing for season 0 or without a list; a match is the first placed node meeting the test, and no match means no placed node meets it |
| `Episodes.ExternalIdIsMatched` | src/api/tmdb.ts:186-188 | a placed node carrying the external id guarantees a match |
| `Episodes.MatchedId` | src/api/tmdb.ts:204-214 | a positional match yields the series id with the extracted numbers; an unplaced node does so exactly when the series lists it |
| `Episodes.MatchedIdAsWritten` | src/api/tmdb.ts:204-214 | the source's extraction never resolves an unplaced node and agrees elsewhere |
| `Episodes.UnknownSeasonMatchLostAsWritten` | src/api/tmdb.ts:207 | an unplaced node that the series lists is lost by the source's extraction, though it resolves to season 0 against the list |
| `Episodes.UnknownSeasonCounterexample` | src/tmdb.ts:174 | the concrete case where the source's extraction and the corrected one differ |
| `Episodes.Extract` | src/api/tmdb.ts:204-214 | both extractions give the graph series id; they agree outside the "unknown" season; the corrected one always gives the node's own match, the source's gives nothing inside that season |
| `Episodes.FromPosition` | src/api/tmdb.ts:174-214 | nothing without a positional match; with one, the graph series id with the node's numbers outside the "unknown" season and, with the corrected extraction, inside it too; with the source's extraction nothing inside it |
| `Episodes.ResolveEpisode` | src/api/tmdb.ts:135-229 | nothing when the episode cannot be fetched or airs after now; otherwise the first of the positional stage, the external id and the text search that succeeds, so a match whose extraction fails falls through |
| `Episodes.ExtractionsAgreeWithoutUnplaced` | src/api/tmdb.ts:204-222 | the two extractions resolve every episode alike unless the series lists a node in the "unknown" season |
| `Episodes.UnplacedMatchFallsThroughAsWritten` | src/api/tmdb.ts:204-222 | as written, a match in the "unknown" season falls through to the external id and then the search; corrected, it resolves inside the series in season 0 |
| `Episodes.ListedEpisodeResolvesInSeries` | src/api/tmdb.ts:174-214 | an episode whose external id the series lists resolves inside that series |
| `Episodes.SpecialsSkipPosition` | src/api/tmdb.ts:174 | season 0 goes straight to the external id and then the search |
| `Runs.FirstTuple` | src/api/tmdb.ts:282 | the first resolved slot, with none before it |
| `Runs.LastTuple` | src/api/tmdb.ts:283 | the last resolved slot, with none after it |
| `Runs.SeriesIds` | src/api/tmdb.ts:294-296 | the series ids of exactly the resolved slots |
| `Runs.MostCommonUpTo` | src/api/tmdb.ts:297-303 | the stable count sort puts last a most frequent id, the latest among equals |
| `Runs.CommonSeries` | src/api/tmdb.ts:294-303 | the common series is a most frequent resolved series id, and exists exactly when some slot is resolved |
| `Runs.FirstOfSeries` | src/api/tmdb.ts:304-306 | the first resolved slot of the common series |
| `Runs.RunOf` | src/api/tmdb.ts:310-316 | a run of one series and season, numbered consecutively |
| `Runs.CorrectRun` | src/api/tmdb.ts:282-318 | length kept; an unanchored run is unchanged; an anchored run with a non-empty common series id becomes one consecutive run of that series |
| `Runs.CorrectedRunIsConsecutive` | src/api/tmdb.ts:308-317 | every corrected slot has the common series and season, and slot numbers differ by their distance |
| `Runs.CorrectionKeepsAnchors` | src/api/tmdb.ts:309-315 | both anchors keep their episode numbers |
| `Runs.CorrectRunOfRun` | src/api/tmdb.ts:287-317 | a consecutive run of one non-empty series is a fixed point |
| `Runs.CorrectRunIdempotent` | src/api/tmdb.ts:282-318 | correcting twice is correcting once |
| `Runs.CorrectionExample` | src/api/tmdb.ts:287-317 | anchors 10 and 14 four slots apart renumber the season, a cache hit included, as 10 to 14 of the more frequent series |
| `Runs.TieGoesToLatest` | src/api/tmdb.ts:297-303 | among equally frequent series the latest resolved wins |
| `Seasons.SeasonDetails` | src/api/tmdb.ts:239-253 | given season details are used, else fetched |
| `Seasons.EpisodeKeys` | src/api/tmdb.ts:257 | a season's keys use each episode's catalog number, in order |
| `Seasons.AirDates` | src/api/tmdb.ts:258 | the lookup gets each episode's own air date |
| `Seasons.BareId` | src/api/tmdb.ts:324 | a stored string is written back as itself |
| `Seasons.StoredIdentifier` | src/api/tmdb.ts:322-330 | the corrected write rule: a resolved identifier as is, a hit as the string it holds, nothing as "" |
| `Seasons.StoredIdentifierAsWritten` | src/api/tmdb.ts:324 | the source's write rule: a resolved identifier as is, anything else as "" |
| `Seasons.StoredIdentifierRulesDiffer` | src/api/tmdb.ts:324 | the two rules differ exactly on hits holding a non-empty identifier |
| `Seasons.SeasonSlots` | src/api/tmdb.ts:265-280 | a slot is a hit exactly when the lookup found one, and otherwise the resolver's outcome |
| `Seasons.SeasonHits` | src/api/tmdb.ts:255-259 | a season's lookup result for each episode is its key checked against its own air date |
| `Seasons.CachedSeasonIsHits` | src/api/tmdb.ts:265-293 | a fully cached season comes back as its cached results, uncorrected |
| `Seasons.Substitute` | src/api/tmdb.ts:337-341 | resolved slots become the write's results; the others stay as they were |
| `Seasons.SeasonWriteLands` | src/api/tmdb.ts:322-335 | each key of a written season holds the record of its last write |
| `Seasons.SeasonWriteConfined` | src/api/tmdb.ts:322-335 | a season write touches no document outside the season |
| `Seasons.WriteBack` | src/api/tmdb.ts:320-341 | resolved slots become what the cache now holds; other slots stay; only season documents change; each key holds its last write |
| `Seasons.Assemble` | src/api/tmdb.ts:320 | without `addToDb` the slots come back unwritten and the cache is untouched |
| `Seasons.WriteBackCaches` | src/api/tmdb.ts:320-341 | after a write every episode is cached at `now` and no slot is a bare identifier |
| `Seasons.SeasonWith` | src/api/tmdb.ts:231-342 | for any write rule and extraction: nothing and no change without a season; one slot per episode; with `addToDb`, every key written at `now` holding its last write, nothing else changed |
| `Seasons.SeasonFromTmdb` | src/api/tmdb.ts:231-342 | the season operation: no season means no result and no change; one slot per episode; with `addToDb`, every episode cached at `now`, nothing else changed, no bare identifier |
| `Seasons.SeasonFromTmdbAsWritten` | src/api/tmdb.ts:231-342 | the source's form, with the wrapper extraction and the placeholder write: the same promises as the corrected form |
| `Seasons.ResolvedSeasonExtractionsAgree` | src/api/tmdb.ts:255-293 | the two extractions give the same season slots unless the series lists a node in the "unknown" season |
| `Seasons.SeasonAsWrittenAgreesWithoutWrite` | src/api/tmdb.ts:231-320 | without a write and without unplaced nodes, the source's season operation is the corrected one |
| `Seasons.SeasonCachePolicy` | src/api/tmdb.ts:255-280 | where the correction does not fire, a slot is the cached result exactly when the key is cached and fresh, else the resolver's outcome |
| `Seasons.WrittenSeasonIsCached` | src/api/tmdb.ts:127-133 | after a write at `now`, episodes that aired before `now` read back as fresh hits |
| `Seasons.SecondPassIsHits` | src/api/tmdb.ts:255-280 | a second pass over a written, aired season finds every slot as a hit |
| `Seasons.RewriteKeepsIdentifier` | src/api/tmdb.ts:322-335 | rewriting the hits of a written season keeps each identifier |
| `Seasons.RewriteKeepsStore` | src/api/tmdb.ts:322-335 | the same documents exist afterwards, with the same identifiers |
| `Seasons.SecondRequestKeepsIdentifiers` | src/api/tmdb.ts:231-342 | with the corrected rule, requesting an aired season again keeps every identifier in the cache |
| `Seasons.SecondRequestBlanksSeasonAsWritten` | src/api/tmdb.ts:324 | with the source's rule, requesting an aired season again blanks every episode |
| `Series.RowKeys` | src/api/tmdb.ts:363-366 | a season's keys are episodes 1 to `episode_count` |
| `Series.KeyRows` | src/api/tmdb.ts:362-368 | one key row per season, in season order |
| `Series.Grid` | src/api/tmdb.ts:371-379 | the flat results laid back out with one row per season, each of the season's length |
| `Series.SeriesGrid` | src/api/tmdb.ts:370-379 | the batch lookup gives one row per season of `episode_count` slots |
| `Series.SeriesGridIsLookup` | src/api/tmdb.ts:356-379 | each slot of the grid is the single lookup of its own position key, with no air date |
| `Series.SeasonCalls` | src/api/tmdb.ts:388-410 | a fully cached season is never fetched |
| `Series.Rows` | src/api/tmdb.ts:414-417 | a season's own result replaces its grid row; other rows stay |
| `Series.WriteRows` | src/api/tmdb.ts:414-426 | one write per slot of each fetched season, keyed by position; nothing for other seasons |
| `Series.Substituted` | src/api/tmdb.ts:428-435 | the final rows keep each season's shape, with written slots replaced |
| `Series.SeriesRows` | src/api/tmdb.ts:370-435 | one row per season after the write |
| `Series.SubstitutedHasNoBareIdentifiers` | src/api/tmdb.ts:428-435 | no bare identifier survives substitution |
| `Series.SeriesGridHasNoBareIdentifiers` | src/api/tmdb.ts:375-379 | the batch lookup yields only hits and misses |
| `Series.SeriesWithShape` | src/api/tmdb.ts:344-438 | for any write rule and extraction: no details means no result and no change; one row per season; no bare identifier; only this series' episodes change |
| `Series.SeriesFromTmdb` | src/api/tmdb.ts:344-438 | the series operation: nothing without details; one row per season; no bare identifier; only episode documents of this series change |
| `Series.SeriesWritesStayInSeries` | src/api/tmdb.ts:419-428 | every write targets an episode document of this series |
| `Series.SeriesWriteKeyUnique` | src/api/tmdb.ts:419-424 | with distinct season numbers, each slot's position key is written once |
| `Series.SeriesSlotLands` | src/api/tmdb.ts:419-428 | so each fetched slot's key holds that slot's record |
| `Series.SeriesFromTmdbAsWritten` | src/api/tmdb.ts:344-438 | the source's form, with the wrapper extraction and the placeholder write: nothing without details; one row per season; no bare identifier; only this series' episodes change |
| `Series.SeriesRefetchKeepsHits` | src/api/tmdb.ts:414-428 | with the corrected rule, a refetched season's cache hits keep their identifiers |
| `Series.SeriesRefetchBlanksHitsAsWritten` | src/api/tmdb.ts:421 | with the source's rule, a refetched season's cache hits are blanked |
| `Series.CoveredSeasonIsCached` | src/api/tmdb.ts:388-396 | a fully cached season comes back as its cached results |
| `Series.SubstitutedSlot` | src/api/tmdb.ts:429-435 | one slot after the write: a resolved slot becomes its key's cached result, others stay |
| `Series.FetchedSeasonAgreesWithCache` | src/api/tmdb.ts:414-435 | a fetched season comes back as the season operation gave it, with resolved slots replaced by the cache's content |
| `Movies.MovieDetails` | src/api/tmdb.ts:97-110 | given movie details are used, else fetched |
| `Movies.MovieFromTmdb` | src/api/tmdb.ts:92-133 | a cached movie is returned with no write; a resolved miss is cached at `now` and read back; an unresolved one writes nothing; no other document changes |
| `Movies.MovieUnresolvedExactly` | src/api/tmdb.ts:92-126 | nothing exactly when uncached and either the details or every resolution fails |
| `Movies.MovieWritesItsIdentifier` | src/api/tmdb.ts:112-132 | a resolved miss is stored as the rendered identifier under the movie key |
| `Movies.MovieIdempotent` | src/api/tmdb.ts:93-96 | a second call returns the first call's result and writes nothing |
| `Legacy.MovieFromTmdb` | src/tmdb.ts:65-100 | the earlier movie path: cache first, no details handed in, a failed fetch writes nothing |
| `Legacy.MovieIsCurrentWithoutDetails` | src/tmdb.ts:65-100 | it is the current movie path called without details |
| `Legacy.SeasonHits` | src/tmdb.ts:215-218 | the earlier season lookup passes no air dates, so every cached episode is a hit |
| `Legacy.ResolvedSeason` | src/tmdb.ts:220-276 | one slot per episode before any write |
| `Legacy.SeasonFromTmdb` | src/tmdb.ts:198-300 | the earlier season operation, with the wrapper extraction and the placeholder write: nothing and no change without a season; one slot per episode; with `addToDb`, every episode cached at `now`, no bare identifier |
| `Legacy.SeasonHitsAgree` | src/tmdb.ts:215-218 | the two lookups agree when no cached episode is stale |
| `Legacy.SeasonIsCurrentWhenNothingStale` | src/tmdb.ts:198-300 | then the earlier season operation is the current one, as written, called without season details |
| `Legacy.SeasonCachePolicy` | src/tmdb.ts:215-239 | where the correction does not fire, a slot is the cached result exactly when the key is cached, whatever the air date |
| `Legacy.StaleRecordSeparatesLookups` | src/tmdb.ts:215-218 | a record not newer than the air date is a miss for the current lookup and a hit for the earlier one |
| `Legacy.SeasonCalls` | src/tmdb.ts:340-361 | a fully cached season is never fetched |
| `Legacy.SeriesFromTmdb` | src/tmdb.ts:302-389 | the earlier series operation, with the wrapper extraction and the placeholder write: nothing without details; one row per season; only this series' episodes change |
| `Legacy.SeriesIsCurrentWhenNothingStale` | src/tmdb.ts:302-389 | with no stale cached episode it is the current series operation, as written, called without details |

## Left out

- Cache.Fresh: reads `updatedAt` back as the date that was written, as the declared document type says (src/api/firestore.ts:35). The Firestore client's own read-back is outside this model. Its effect, as the third row under Findings describes it, is modelled separately by `Cache.FreshAsWritten`.
- Network and storage I/O are left out. This covers the catalog client, the graph queries, the document store's SDK and the earlier resolver's database wrapper. They become the `Services` record and the `Store` map.
- The paging loops of the graph queries are left out (src/imdb.ts:196-205, 230-240, 439-449). The model takes an episode list as given, with no bound on its length. In the source the list is in effect only the first page of at most 500 nodes. Each follow-up query (src/imdb.ts:48-85) asks for the `series.series` of a series id, and the source itself reads a null `series` as a title that is not an episode (src/imdb.ts:223-226). So nothing is appended and the loop stops after one request.
- Concurrency (`Promise.all`, `p-limit`) is left out. Episodes and batches resolve one after another in input order, and one `now` stands for every write of a call. When two write batches target the same key, the model lets the later batch win; in the source the commit order is not fixed.
- Date parsing is left out. So are `new Date()`, the UTC assembly of a graph release date from its parts and the search's date-range formatting. Dates are integers; a missing or unparseable date is nothing, which compares false like an invalid `Date`.
- The Unicode letter class and `toLowerCase` are left out. They are fields of `Services`. Lower-casing maps one character to one, whereas JavaScript can lengthen a string.
- Number rendering is integral only; no value here is fractional or of exponent size.
- Null fields whose access would throw in the source are left out: edges of a graph list, a node's display numbers. They are taken to be present.
- A null episode runtime is read as 0, as the arithmetic does.
- `Legacy.SeriesFromTmdb`: a rejected series fetch, which the source does not catch, is modelled as no details.
- The earlier resolver's database layer (src/prisma.ts) is replaced by the current cache. Its own behaviour is left out, because the earlier resolver is modelled only for how it resolves, not for how it stores. That behaviour includes:
  - keys joined with `:`;
  - inserts with `create`/`createMany`, where a repeated key is an insert rather than a replacement;
  - writes that return the data sent instead of reading it back;
  - a local-development filter that treats a record with an empty identifier as a miss.
- The earlier resolver's episode resolution and series lookup (src/tmdb.ts:44-63, 102-196) are the current ones line for line. `Episodes.ResolveEpisode` (with the wrapper extraction) and `Catalog.SeriesTitle` serve both resolvers.
- `getMeta`, `getSearch` (src/api/tmdb.ts:440-555), the HTTP routing of src/index.ts and the protocol classes are left out. They are presentation.
- The series operation keys its lookup and its writes by position plus one, while the season operation keys by catalog episode number. The model keeps this as written.

## Findings

| source | as written | input that shows it | evidently intended | confidence | as-written member | corrected member |
|---|---|---|---|---|---|---|
| src/api/tmdb.ts:204-210 | the positional match passes the episodes wrapper object, not its edge list, to the extraction (also src/tmdb.ts:171-177); the episode then falls through to the external id and the search (`Episodes.UnplacedMatchFallsThroughAsWritten`) | a series whose list holds episode tt0000002 in the "unknown" season: the match is found, but extraction reads an empty list and gives nothing | extract against the series' episode list, giving season 0 and the list position | not executed | `Episodes.UnknownSeasonMatchLostAsWritten` | `Episodes.MatchedId` |
| src/api/tmdb.ts:324 | the season write-back stores "" for every slot that is not a resolved identifier, cache hits included; the series write at line 421 does the same (also src/tmdb.ts:282, 372) | request a season whose episodes have aired, then request it again: the second call finds every episode cached and overwrites each with "" | write a cache hit back as the identifier it already holds | not executed | `Seasons.SecondRequestBlanksSeasonAsWritten` | `Seasons.SecondRequestKeepsIdentifiers` |
| src/api/firestore.ts:114-133 | the document is taken with an unchecked cast (`doc.data() as TmdbImdbDocument`) and `new Date(match.updatedAt)` is applied to it, but the Firestore client returns a stored date as a `Timestamp`, whose string `valueOf` does not parse, so the comparison is with an invalid date and never holds | any cached episode written before its own air date: it should read as a miss but is returned | read `updatedAt` as a date (`.toDate()` or a converter), so that a record is stale when its air date is not before its write time | not executed; medium (rests on the Firestore client library, which is outside this model) | `Cache.LookupManyAsWrittenIgnoresDates` | `Cache.Fresh` |

=== FILE: batching.dfy ===
/**
 * The fixed-size batching the cache protocol applies to its reads (24 keys)
 * and writes (500 operations):
 * `Array.from({ length: Math.ceil(n / size) }, (_, i) => xs.slice(i * size, (i + 1) * size))`.
 */
module Batching {

  const ReadBatchSize: nat := 24
  const WriteBatchSize: nat := 500

  function Concat<T>(batches: seq<seq<T>>): seq<T> {
    if |batches| == 0 then [] else batches[0] + Concat(batches[1..])
  }

  /** Where row `i` starts in `Concat(rows)`. */
  function Offset<T>(rows: seq<seq<T>>, i: nat): nat
    requires i <= |rows|
  {
    if i == 0 then 0 else |rows[0]| + Offset(rows[1..], i - 1)
  }

  /** Position `n` of `Concat(rows)` is element `k` of row `i`. */
  predicate At<T>(rows: seq<seq<T>>, n: nat, i: nat, k: nat) {
    i < |rows| && k < |rows[i]| && n == Offset(rows, i) + k
  }

  /** Element `k` of row `i` sits at `Offset(rows, i) + k` of the concatenation. */
  lemma {:induction false} ConcatIndex<T>(rows: seq<seq<T>>, i: nat, k: nat)
    requires i < |rows| && k < |rows[i]|
    ensures Offset(rows, i) + k < |Concat(rows)|
    ensures Concat(rows)[Offset(rows, i) + k] == rows[i][k]
    decreases i
  {
    var rest := Concat(rows[1..]);
    assert Concat(rows) == rows[0] + rest;
    if i > 0 {
      assert rows[1..][i - 1] == rows[i];
      ConcatIndex(rows[1..], i - 1, k);
      assert Offset(rows, i) + k == |rows[0]| + (Offset(rows[1..], i - 1) + k);
    }
  }

  /** Every position of the concatenation belongs to some row. */
  lemma {:induction false} ConcatLocate<T>(rows: seq<seq<T>>, n: nat)
    requires n < |Concat(rows)|
    ensures exists i, k :: At(rows, n, i, k)
    decreases |rows|
  {
    if n < |rows[0]| {
      assert At(rows, n, 0, n);
    } else {
      assert Concat(rows) == rows[0] + Concat(rows[1..]);
      ConcatLocate(rows[1..], n - |rows[0]|);
      var i: nat, k: nat :| At(rows[1..], n - |rows[0]|, i, k);
      assert rows[1..][i] == rows[i + 1];
      assert At(rows, n, i + 1, k);
    }
  }

  function Min(a: int, b: int): int {
    if a <= b then a else b
  }

  /** The batches of `xs`, in order. */
  function Chunks<T>(xs: seq<T>, size: nat): (batches: seq<seq<T>>)
    requires size > 0
    decreases |xs|
  {
    if |xs| == 0 then []
    else if |xs| <= size then [xs]
    else [xs[..size]] + Chunks(xs[size..], size)
  }

  lemma {:induction false} ConcatAppend<T>(a: seq<T>, batches: seq<seq<T>>)
    ensures Concat([a] + batches) == a + Concat(batches)
  {
    assert ([a] + batches)[1..] == batches;
  }

  /** Batching loses, duplicates and reorders nothing: the batches concatenate to the input. */
  lemma {:induction false} ChunksConcat<T>(xs: seq<T>, size: nat)
    requires size > 0
    ensures Concat(Chunks(xs, size)) == xs
    decreases |xs|
  {
    if |xs| > size {
      ChunksConcat(xs[size..], size);
      ConcatAppend(xs[..size], Chunks(xs[size..], size));
      assert xs[..size] + xs[size..] == xs;
    }
  }

  /** There are ceil(n / size) batches: the least k with n <= k * size. */
  lemma {:induction false} ChunksCount<T>(xs: seq<T>, size: nat)
    requires size > 0
    ensures (|Chunks(xs, size)| - 1) * size < |xs| <= |Chunks(xs, size)| * size
    decreases |xs|
  {
    if |xs| > size {
      var k := |Chunks(xs[size..], size)|;
      ChunksCount(xs[size..], size);
      assert (k + 1) * size == k * size + size;
      assert k * size == (k - 1) * size + size;
    }
  }

  /** Batch i is the slice [i * size, min((i + 1) * size, n)), never empty and never over `size`. */
  lemma {:induction false} ChunksSlices<T>(xs: seq<T>, size: nat)
    requires size > 0
    ensures forall i :: 0 <= i < |Chunks(xs, size)| ==>
              && 0 < |Chunks(xs, size)[i]| <= size
              && i * size <= Min((i + 1) * size, |xs|)
              && Chunks(xs, size)[i] == xs[i * size..Min((i + 1) * size, |xs|)]
  {
    forall i | 0 <= i < |Chunks(xs, size)|
      ensures && 0 < |Chunks(xs, size)[i]| <= size
              && i * size <= Min((i + 1) * size, |xs|)
              && Chunks(xs, size)[i] == xs[i * size..Min((i + 1) * size, |xs|)]
    {
      ChunkAt(xs, size, i);
    }
  }

  /** Batch `i` is the `i`-th slice of `size` elements, the last one possibly shorter. */
  lemma {:induction false} ChunkAt<T>(xs: seq<T>, size: nat, i: nat)
    requires size > 0 && i < |Chunks(xs, size)|
    ensures 0 < |Chunks(xs, size)[i]| <= size
    ensures i * size <= Min((i + 1) * size, |xs|)
    ensures Chunks(xs, size)[i] == xs[i * size..Min((i + 1) * size, |xs|)]
    decreases |xs|
  {
    if |xs| > size {
      var rest := Chunks(xs[size..], size);
      assert Chunks(xs, size) == [xs[..size]] + rest;
      if i > 0 {
        ChunkAt(xs[size..], size, i - 1);
        assert Chunks(xs, size)[i] == rest[i - 1];
        ChunkStep(xs, size, rest[i - 1], i);
      }
    }
  }

  /** Batch `i - 1` of the tail is batch `i` of the whole, shifted by one batch. */
  lemma ChunkStep<T>(xs: seq<T>, size: nat, b: seq<T>, i: nat)
    requires 0 < size < |xs| && 0 < i
    requires (i - 1) * size <= Min(i * size, |xs| - size)
    requires b == xs[size..][(i - 1) * size..Min(i * size, |xs| - size)]
    ensures i * size <= Min((i + 1) * size, |xs|)
    ensures b == xs[i * size..Min((i + 1) * size, |xs|)]
  {
    var j := i - 1;
    MulSucc(j, size);
    MulSucc(i, size);
    assert j + 1 == i;
    var lo, hi := j * size, Min(i * size, |xs| - size);
    assert size + lo == i * size;
    assert size + hi == Min((i + 1) * size, |xs|);
    SliceShift(xs, size, lo, hi);
  }

  lemma MulSucc(j: nat, size: nat)
    ensures (j + 1) * size == j * size + size
  {
  }

  lemma SliceShift<T>(xs: seq<T>, size: nat, lo: nat, hi: nat)
    requires size <= |xs| && lo <= hi <= |xs| - size
    ensures xs[size..][lo..hi] == xs[size + lo..size + hi]
  {
  }

  /** A read of n keys issues ceil(n / 24) batches: 50 keys make 24 + 24 + 2. */
  lemma FiftyKeysMakeThreeReadBatches<T>(keys: seq<T>)
    requires |keys| == 50
    ensures |Chunks(keys, ReadBatchSize)| == 3
    ensures |Chunks(keys, ReadBatchSize)[0]| == 24
    ensures |Chunks(keys, ReadBatchSize)[1]| == 24
    ensures |Chunks(keys, ReadBatchSize)[2]| == 2
  {
    ChunksCount(keys, ReadBatchSize);
    ChunksSlices(keys, ReadBatchSize);
  }

  /** A write of n entries issues ceil(n / 500) batches: 1200 entries make 500 + 500 + 200. */
  lemma TwelveHundredWritesMakeThreeBatches<T>(data: seq<T>)
    requires |data| == 1200
    ensures |Chunks(data, WriteBatchSize)| == 3
    ensures |Chunks(data, WriteBatchSize)[0]| == 500
    ensures |Chunks(data, WriteBatchSize)[1]| == 500
    ensures |Chunks(data, WriteBatchSize)[2]| == 200
  {
    ChunksCount(data, WriteBatchSize);
    ChunksSlices(data, WriteBatchSize);
  }
}

=== FILE: cache.dfy ===
/**
 * The identity cache (src/api/firestore.ts) over an abstract document store:
 * a map from document id to record. Record timestamps are abstract ordered
 * values; the store's clock reading is passed in as `now`.
 */
module Cache {
  import opened Wrappers
  import opened JsNumbers
  import opened Ids
  import opened Batching

  /** `TmdbImdbDocument`. */
  datatype Record = Record(kind: Kind, title: nat, season: nat, episode: nat, imdb: string, updatedAt: int) {
    function Key(): TmdbKey {
      TmdbKey(title, season, episode)
    }
  }

  type Store = map<string, Record>

  /** A result together with the store after the call. */
  datatype Written<T> = Written(result: T, store: Store)

  /** One requested write, `DbUpsert`. */
  datatype Upsert = Upsert(key: TmdbKey, imdb: ImdbId)

  /** Every record sits under the document id its own fields produce. */
  ghost predicate WellKeyed(store: Store) {
    forall id :: id in store ==> id == DocumentId(store[id].kind, store[id].Key())
  }

  function Get(store: Store, id: string): Option<Record> {
    if id in store then Some(store[id]) else None
  }

  /** `dbRecordToResult`: `kind:title` for movies, `kind:title:season:episode` for episodes. */
  function RecordToResult(record: Record): DbResult {
    var tail := if record.kind == Episode then [Number(Finite(record.season)), Number(Finite(record.episode))] else [];
    DbResult(BuildId([Text(KindLabel(record.kind)), Number(Finite(record.title))] + tail), record.imdb)
  }

  /** The catalog string of a result splits back into the lower-case kind and the key numbers. */
  lemma RecordToResultShape(record: Record)
    ensures Strings.Split(RecordToResult(record).tmdb, ':')
         == [KindLabel(record.kind), Strings.NatToString(record.title)]
            + (if record.kind == Episode
               then [Strings.NatToString(record.season), Strings.NatToString(record.episode)]
               else [])
  {
    var tail := if record.kind == Episode then [Number(Finite(record.season)), Number(Finite(record.episode))] else [];
    var segs := [Text(KindLabel(record.kind)), Number(Finite(record.title))] + tail;
    assert SeparatorFree(segs);
    assert segs[1..][1..] == tail;
    if record.kind == Episode {
      assert tail[1..][1..] == [];
      assert Rendered(tail) == [Strings.NatToString(record.season), Strings.NatToString(record.episode)];
    } else {
      assert Rendered(tail) == [];
    }
    assert Rendered(segs[1..]) == [Strings.NatToString(record.title)] + Rendered(tail);
    SplitBuildId(segs);
  }

  /** `getIdFromDatabase`: the stored result for the key, with no staleness check. */
  function LookupOne(store: Store, kind: Kind, key: TmdbKey): (r: Option<DbResult>)
    ensures r.None? <==> DocumentId(kind, key) !in store
    ensures r.Some? ==> r.value == RecordToResult(store[DocumentId(kind, key)])
  {
    match Get(store, DocumentId(kind, key))
    case None => None
    case Some(record) => Some(RecordToResult(record))
  }

  /**
   * The staleness bypass: with an air date supplied, a record whose
   * `updatedAt` is not after that date reads as a miss.
   */
  function Fresh(found: Option<Record>, airDate: Option<int>): (r: Option<DbResult>)
    ensures found.None? ==> r.None?
    ensures found.Some? && airDate.None? ==> r == Some(RecordToResult(found.value))
    ensures found.Some? && airDate.Some? ==>
              (r.None? <==> airDate.value >= found.value.updatedAt)
              && (r.Some? ==> r.value == RecordToResult(found.value))
  {
    match found
    case None => None
    case Some(record) =>
      if airDate.Some? && airDate.value >= record.updatedAt then None else Some(RecordToResult(record))
  }

  /**
   * A JavaScript `Date`: a time value, or the invalid date, against which
   * every comparison is false.
   */
  datatype JsDate = TimeValue(ms: int) | InvalidDate

  /** `a >= b` on two `Date` values. */
  predicate NotBefore(a: JsDate, b: JsDate) {
    a.TimeValue? && b.TimeValue? && a.ms >= b.ms
  }

  /**
   * `new Date(match.updatedAt)` on a document as the store hands it back.
   * The Firestore client returns a stored date as a `Timestamp`, and the
   * unchecked cast to the document type converts nothing; the constructor
   * then coerces the `Timestamp` through its string `valueOf`, which does
   * not parse as a date.
   */
  function UpdatedAtAsRead(record: Record): JsDate {
    InvalidDate
  }

  /** The staleness bypass as written: the comparison against the invalid date never holds. */
  function FreshAsWritten(found: Option<Record>, airDate: Option<int>): (r: Option<DbResult>)
    ensures r == Fresh(found, None)
  {
    match found
    case None => None
    case Some(record) =>
      if airDate.Some? && NotBefore(TimeValue(airDate.value), UpdatedAtAsRead(record)) then None
      else Some(RecordToResult(record))
  }

  /** A record written no later than the air date: a miss when corrected, returned as written. */
  lemma StaleRecordKeptAsWritten(record: Record, airDate: int)
    requires airDate >= record.updatedAt
    ensures Fresh(Some(record), Some(airDate)).None?
    ensures FreshAsWritten(Some(record), Some(airDate)) == Some(RecordToResult(record))
  {
  }

  /** The result one key of a batched lookup should produce. */
  function LookupAt(store: Store, kind: Kind, key: TmdbKey, airDate: Option<int>): Option<DbResult> {
    Fresh(Get(store, DocumentId(kind, key)), airDate)
  }

  /** `episodesData?.[idx]?.air_date`: missing entries supply no date. */
  function AirDateAt(airDates: seq<Option<int>>, i: nat): Option<int> {
    if i < |airDates| then airDates[i] else None
  }

  function DocumentIds(kind: Kind, keys: seq<TmdbKey>): (ids: seq<string>)
    ensures |ids| == |keys|
    ensures forall i :: 0 <= i < |keys| ==> ids[i] == DocumentId(kind, keys[i])
  {
    seq(|keys|, i requires 0 <= i < |keys| => DocumentId(kind, keys[i]))
  }

  /** The documents found by reading each batch of ids: `allMatches`. */
  function Gather(store: Store, batches: seq<seq<string>>): (found: map<string, Record>)
    ensures forall id :: id in found <==> id in store && id in Concat(batches)
    ensures forall id :: id in found ==> found[id] == store[id]
  {
    if |batches| == 0 then map[]
    else (map id | id in batches[0] && id in store :: store[id]) + Gather(store, batches[1..])
  }

  /** Reads every id in batches of 24 and returns what was found, keyed by id. */
  function ReadBatched(store: Store, ids: seq<string>): (found: map<string, Record>)
    ensures forall i :: 0 <= i < |ids| ==> Get(store, ids[i]) == (if ids[i] in found then Some(found[ids[i]]) else None)
  {
    ChunksConcat(ids, ReadBatchSize);
    Gather(store, Chunks(ids, ReadBatchSize))
  }

  /**
   * `getIdsFromDatabase`: a batched lookup whose i-th result is the stored
   * result for the i-th key, bypassed when stale against the i-th air date.
   */
  function LookupMany(store: Store, kind: Kind, keys: seq<TmdbKey>, airDates: seq<Option<int>>): (results: seq<Option<DbResult>>)
    ensures |results| == |keys|
    ensures forall i :: 0 <= i < |keys| ==> results[i] == LookupAt(store, kind, keys[i], AirDateAt(airDates, i))
  {
    var ids := DocumentIds(kind, keys);
    var found := ReadBatched(store, ids);
    seq(|keys|, i requires 0 <= i < |keys| =>
      Fresh(if ids[i] in found then Some(found[ids[i]]) else None, AirDateAt(airDates, i)))
  }

  /** `getIdsFromDatabase` with `updatedAt` read back as the store returns it. */
  function LookupManyAsWritten(store: Store, kind: Kind, keys: seq<TmdbKey>, airDates: seq<Option<int>>): (results: seq<Option<DbResult>>)
    ensures |results| == |keys|
  {
    var ids := DocumentIds(kind, keys);
    var found := ReadBatched(store, ids);
    seq(|keys|, i requires 0 <= i < |keys| =>
      FreshAsWritten(if ids[i] in found then Some(found[ids[i]]) else None, AirDateAt(airDates, i)))
  }

  /** As written, the air dates change nothing: the lookup is the date-free one. */
  lemma {:induction false} LookupManyAsWrittenIgnoresDates(store: Store, kind: Kind, keys: seq<TmdbKey>, airDates: seq<Option<int>>)
    ensures LookupManyAsWritten(store, kind, keys, airDates) == LookupMany(store, kind, keys, [])
  {
    var asWritten := LookupManyAsWritten(store, kind, keys, airDates);
    var dateFree := LookupMany(store, kind, keys, []);
    var ids := DocumentIds(kind, keys);
    var found := ReadBatched(store, ids);
    forall i | 0 <= i < |keys|
      ensures asWritten[i] == dateFree[i]
    {
      var f := if ids[i] in found then Some(found[ids[i]]) else None;
      assert asWritten[i] == FreshAsWritten(f, AirDateAt(airDates, i));
      assert f == Get(store, DocumentId(kind, keys[i]));
      assert dateFree[i] == Fresh(f, None);
    }
  }

  /** Without air dates every stored record is returned: the batched lookup agrees with `LookupOne`. */
  lemma LookupManyWithoutDates(store: Store, kind: Kind, keys: seq<TmdbKey>)
    ensures forall i :: 0 <= i < |keys| ==> LookupMany(store, kind, keys, [])[i] == LookupOne(store, kind, keys[i])
  {
  }

  /** Equal keys with equal air dates give equal results, wherever they sit in the input. */
  lemma LookupManyDuplicates(store: Store, kind: Kind, keys: seq<TmdbKey>, airDates: seq<Option<int>>, i: nat, j: nat)
    requires i < |keys| && j < |keys| && keys[i] == keys[j]
    requires AirDateAt(airDates, i) == AirDateAt(airDates, j)
    ensures LookupMany(store, kind, keys, airDates)[i] == LookupMany(store, kind, keys, airDates)[j]
  {
  }

  /** The document `buildUpsert` writes; `now` is the write time. */
  function NewRecord(kind: Kind, entry: Upsert, now: int): Record {
    Record(kind, entry.key.title, entry.key.season, entry.key.episode, RenderImdbId(entry.imdb), now)
  }

  /**
   * `addIdToDatabase`: replaces the document under the key and returns the
   * record it wrote, without reading it back.
   */
  function UpsertOne(store: Store, kind: Kind, entry: Upsert, now: int): (w: Written<DbResult>)
    ensures w.store.Keys == store.Keys + {DocumentId(kind, entry.key)}
    ensures w.store[DocumentId(kind, entry.key)] == NewRecord(kind, entry, now)
    ensures forall id :: id in store && id != DocumentId(kind, entry.key) ==> w.store[id] == store[id]
    ensures w.result == RecordToResult(NewRecord(kind, entry, now))
    ensures LookupOne(w.store, kind, entry.key) == Some(w.result)
  {
    var record := NewRecord(kind, entry, now);
    Written(RecordToResult(record), store[DocumentId(kind, entry.key) := record])
  }

  /** The index of the last write in `data` that targets `id`, if any. */
  function LastWrite(kind: Kind, data: seq<Upsert>, id: string): (j: Option<nat>)
    ensures j.Some? ==> j.value < |data| && DocumentId(kind, data[j.value].key) == id
    ensures j.Some? ==> forall k :: j.value < k < |data| ==> DocumentId(kind, data[k].key) != id
    ensures j.None? ==> forall k :: 0 <= k < |data| ==> DocumentId(kind, data[k].key) != id
  {
    if |data| == 0 then None
    else if DocumentId(kind, data[|data| - 1].key) == id then Some(|data| - 1)
    else LastWrite(kind, data[..|data| - 1], id)
  }

  /** The merge-sets of a write batch, applied in order. */
  function WriteAll(store: Store, kind: Kind, data: seq<Upsert>, now: int): Store {
    if |data| == 0 then store
    else
      var last := data[|data| - 1];
      WriteAll(store, kind, data[..|data| - 1], now)[DocumentId(kind, last.key) := NewRecord(kind, last, now)]
  }

  /** What a document holds after a sequence of writes: the last write to it, or what it held before. */
  function AfterWrites(store: Store, kind: Kind, data: seq<Upsert>, now: int, id: string): Option<Record> {
    match LastWrite(kind, data, id)
    case Some(j) => Some(NewRecord(kind, data[j], now))
    case None => Get(store, id)
  }

  /**
   * Last write wins: every targeted document ends up holding the record of
   * the last write to it, and all other documents are untouched.
   */
  lemma {:induction false} WriteAllContents(store: Store, kind: Kind, data: seq<Upsert>, now: int)
    ensures forall id :: Get(WriteAll(store, kind, data, now), id) == AfterWrites(store, kind, data, now, id)
    decreases |data|
  {
    if |data| > 0 {
      var prefix := data[..|data| - 1];
      WriteAllContents(store, kind, prefix, now);
      forall id
        ensures Get(WriteAll(store, kind, data, now), id) == AfterWrites(store, kind, data, now, id)
      {
        WriteOneMore(store, kind, data, now, id);
      }
    }
  }

  /** One more write: a document's content follows from what the writes before the last one left. */
  lemma WriteOneMore(store: Store, kind: Kind, data: seq<Upsert>, now: int, id: string)
    requires |data| > 0
    requires Get(WriteAll(store, kind, data[..|data| - 1], now), id) == AfterWrites(store, kind, data[..|data| - 1], now, id)
    ensures Get(WriteAll(store, kind, data, now), id) == AfterWrites(store, kind, data, now, id)
  {
    var prefix := data[..|data| - 1];
    if DocumentId(kind, data[|data| - 1].key) != id {
      assert LastWrite(kind, data, id) == LastWrite(kind, prefix, id);
      if LastWrite(kind, prefix, id).Some? {
        assert data[LastWrite(kind, prefix, id).value] == prefix[LastWrite(kind, prefix, id).value];
      }
    }
  }

  lemma {:induction false} WriteAllAppend(store: Store, kind: Kind, a: seq<Upsert>, b: seq<Upsert>, now: int)
    ensures WriteAll(WriteAll(store, kind, a, now), kind, b, now) == WriteAll(store, kind, a + b, now)
    decreases |b|
  {
    if |b| == 0 {
      assert a + b == a;
    } else {
      WriteAllAppend(store, kind, a, b[..|b| - 1], now);
      assert (a + b)[..|a + b| - 1] == a + b[..|b| - 1];
      assert (a + b)[|a + b| - 1] == b[|b| - 1];
    }
  }

  /** The write batches committed one after the other. */
  function CommitBatches(store: Store, kind: Kind, batches: seq<seq<Upsert>>, now: int): Store
    decreases |batches|
  {
    if |batches| == 0 then store
    else CommitBatches(WriteAll(store, kind, batches[0], now), kind, batches[1..], now)
  }

  /** Committing batch after batch is writing the concatenation in one go. */
  lemma {:induction false} CommitBatchesIsWriteAll(store: Store, kind: Kind, batches: seq<seq<Upsert>>, now: int)
    ensures CommitBatches(store, kind, batches, now) == WriteAll(store, kind, Concat(batches), now)
    decreases |batches|
  {
    if |batches| > 0 {
      CommitBatchesIsWriteAll(WriteAll(store, kind, batches[0], now), kind, batches[1..], now);
      WriteAllAppend(store, kind, batches[0], Concat(batches[1..]), now);
    }
  }

  function UpsertIds(kind: Kind, data: seq<Upsert>): (ids: seq<string>)
    ensures |ids| == |data|
    ensures forall i :: 0 <= i < |data| ==> ids[i] == DocumentId(kind, data[i].key)
  {
    seq(|data|, i requires 0 <= i < |data| => DocumentId(kind, data[i].key))
  }

  /**
   * `addIdsToDatabase`: writes in batches of 500, then reads every written
   * document back in batches of 24 and returns the results aligned with the input.
   */
  function UpsertMany(store: Store, kind: Kind, data: seq<Upsert>, now: int): (w: Written<seq<Option<DbResult>>>)
    ensures |data| == 0 ==> w.result == [] && w.store == store
    ensures w.store == WriteAll(store, kind, data, now)
    ensures forall id :: Get(w.store, id) == AfterWrites(store, kind, data, now, id)
    ensures |w.result| == |data|
    ensures forall i :: 0 <= i < |data| ==> w.result[i] == LookupOne(w.store, kind, data[i].key)
  {
    if |data| == 0 then Written([], store)
    else
      ChunksConcat(data, WriteBatchSize);
      CommitBatchesIsWriteAll(store, kind, Chunks(data, WriteBatchSize), now);
      WriteAllContents(store, kind, data, now);
      var written := CommitBatches(store, kind, Chunks(data, WriteBatchSize), now);
      Written(ReadBack(written, kind, data), written)
  }

  /** The read-back after the writes: every written id read in batches, results aligned with the input. */
  function ReadBack(store: Store, kind: Kind, data: seq<Upsert>): (results: seq<Option<DbResult>>)
    ensures |results| == |data|
    ensures forall i :: 0 <= i < |data| ==> results[i] == LookupOne(store, kind, data[i].key)
  {
    var ids := UpsertIds(kind, data);
    var found := ReadBatched(store, ids);
    seq(|data|, i requires 0 <= i < |data| =>
      if ids[i] in found then Some(RecordToResult(found[ids[i]])) else None)
  }

  /** A write whose key no other write in the batch shares leaves its own record. */
  lemma UniqueWriteLands(store: Store, kind: Kind, data: seq<Upsert>, now: int, n: nat)
    requires n < |data|
    requires forall m :: 0 <= m < |data| && m != n ==> data[m].key != data[n].key
    ensures Get(UpsertMany(store, kind, data, now).store, DocumentId(kind, data[n].key)) == Some(NewRecord(kind, data[n], now))
  {
    var id := DocumentId(kind, data[n].key);
    var j := LastWrite(kind, data, id).value;
    DocumentIdInjective(kind, data[j].key, kind, data[n].key);
  }

  /**
   * Each result is the record of the last write to the same document, so an
   * entry whose key is written again later reports the later value.
   */
  lemma UpsertManyResults(store: Store, kind: Kind, data: seq<Upsert>, now: int, i: nat)
    requires i < |data|
    ensures LastWrite(kind, data, DocumentId(kind, data[i].key)).Some?
    ensures var j := LastWrite(kind, data, DocumentId(kind, data[i].key)).value;
            i <= j && UpsertMany(store, kind, data, now).result[i] == Some(RecordToResult(NewRecord(kind, data[j], now)))
  {
  }

  /** Upsert uniqueness: writing one key N times leaves exactly one document, holding the last value. */
  lemma UpsertSameKeyLastWins(store: Store, kind: Kind, data: seq<Upsert>, now: int)
    requires |data| > 0
    requires forall i :: 0 <= i < |data| ==> data[i].key == data[0].key
    ensures var after := UpsertMany(store, kind, data, now).store;
            && after.Keys == store.Keys + {DocumentId(kind, data[0].key)}
            && after[DocumentId(kind, data[0].key)] == NewRecord(kind, data[|data| - 1], now)
  {
    var id := DocumentId(kind, data[0].key);
    var after := UpsertMany(store, kind, data, now).store;
    assert Get(after, id) == AfterWrites(store, kind, data, now, id);
    forall x | x in after
      ensures x in store || x == id
    {
      assert Get(after, x) == AfterWrites(store, kind, data, now, x);
      if LastWrite(kind, data, x).Some? {
        var j := LastWrite(kind, data, x).value;
        assert data[j].key == data[0].key;
      }
    }
    assert LastWrite(kind, data, id) == Some(|data| - 1);
    forall x | x in store
      ensures x in after
    {
      assert Get(after, x) == AfterWrites(store, kind, data, now, x);
    }
  }

  /** Writes keep every record under the document id its fields produce. */
  lemma WriteAllKeepsWellKeyed(store: Store, kind: Kind, data: seq<Upsert>, now: int)
    requires WellKeyed(store)
    ensures WellKeyed(WriteAll(store, kind, data, now))
  {
    WriteAllContents(store, kind, data, now);
    var after := WriteAll(store, kind, data, now);
    forall id | id in after
      ensures id == DocumentId(after[id].kind, after[id].Key())
    {
      assert Get(after, id) == AfterWrites(store, kind, data, now, id);
    }
  }

  predicate Matches(record: Record, kind: Kind, title: nat) {
    record.kind == kind && record.title == title
  }

  /**
   * `removeEntriesByTmdbTitle`: queries the records of one kind and title,
   * deletes them in batches of 500, and returns how many there were.
   */
  method RemoveEntriesByTitle(store: Store, kind: Kind, title: nat) returns (removed: nat, after: Store)
    ensures forall id :: id in after <==> id in store && !Matches(store[id], kind, title)
    ensures forall id :: id in after ==> after[id] == store[id]
    ensures removed == |set id | id in store && Matches(store[id], kind, title)|
    ensures removed == |store| - |after|
  {
    var matching := set id | id in store && Matches(store[id], kind, title);
    // the query snapshot, in some order
    var docs: seq<string> := [];
    var pending := matching;
    while pending != {}
      invariant pending <= matching
      invariant forall x :: x in docs <==> x in matching && x !in pending
      invariant |docs| + |pending| == |matching|
      decreases |pending|
    {
      var x :| x in pending;
      docs := docs + [x];
      pending := pending - {x};
    }
    if |docs| == 0 {
      assert matching == {};
      assert store.Keys - matching == store.Keys;
      return 0, store;
    }
    var batches := Chunks(docs, WriteBatchSize);
    ChunksConcat(docs, WriteBatchSize);
    after := store;
    var i := 0;
    while i < |batches|
      invariant 0 <= i <= |batches|
      invariant forall id :: id in after <==> id in store && id !in Concat(batches[..i])
      invariant forall id :: id in after ==> after[id] == store[id]
    {
      assert Concat(batches[..i + 1]) == Concat(batches[..i]) + batches[i] by {
        ConcatSnoc(batches[..i], batches[i]);
        assert batches[..i + 1] == batches[..i] + [batches[i]];
      }
      after := after - (set x | x in batches[i]);
      i := i + 1;
    }
    assert batches[..i] == batches;
    assert after.Keys == store.Keys - matching;
    CardinalityOfRemoval(store.Keys, matching);
    removed := |docs|;
  }

  lemma {:induction false} ConcatSnoc<T>(batches: seq<seq<T>>, last: seq<T>)
    ensures Concat(batches + [last]) == Concat(batches) + last
    decreases |batches|
  {
    if |batches| == 0 {
      assert batches + [last] == [last];
    } else {
      ConcatSnoc(batches[1..], last);
      assert (batches + [last])[1..] == batches[1..] + [last];
    }
  }

  lemma CardinalityOfRemoval<T>(all: set<T>, part: set<T>)
    requires part <= all
    ensures |all - part| == |all| - |part|
  {
    assert all == (all - part) + part;
  }
}

=== FILE: catalog.dfy ===
/**
 * The catalog side of the resolver (src/api/tmdb.ts): the records the
 * catalog returns for movies, series, seasons and episodes, and the services
 * the engine calls. Network calls are modelled as total functions from their
 * arguments to what the call yields; a failed call yields nothing.
 */
module Catalog {
  import opened Wrappers
  import opened Ids
  import opened Graph
  import opened Normalize
  import opened Scoring

  /** A season entry of a series' details: its number (0 for specials) and episode count. */
  datatype SeasonSummary = SeasonSummary(number: nat, episodeCount: nat)

  /** Series details: the season list, in catalog order, and the external graph id if any. */
  datatype TmdbSeries = TmdbSeries(seasons: seq<SeasonSummary>, imdbId: Option<string>)

  /**
   * Episode details. `airDate` is the parsed air date, or nothing when it is
   * missing or does not parse (such a date compares false with everything).
   */
  datatype TmdbEpisode = TmdbEpisode(
    number: nat,
    name: string,
    airDate: Option<int>,
    overview: Option<string>,
    runtime: Option<int>,
    imdbId: Option<string>)

  /** Season details: its episodes, in catalog order. */
  datatype TmdbSeason = TmdbSeason(episodes: seq<TmdbEpisode>)

  /** Movie details. */
  datatype TmdbMovie = TmdbMovie(
    title: string,
    releaseDate: Option<int>,
    overview: Option<string>,
    runtime: Option<int>,
    imdbId: Option<string>)

  /**
   * Everything outside the engine: the Unicode tables, the catalog's detail
   * calls, and the title graph's series, title and search queries. `search`
   * receives the search term and the release date the query is restricted to.
   */
  datatype Services = Services(
    chars: CharClass,
    movie: nat -> Option<TmdbMovie>,
    series: nat -> Option<TmdbSeries>,
    season: (nat, nat) -> Option<TmdbSeason>,
    episode: (nat, nat, nat) -> Option<TmdbEpisode>,
    graphSeries: Option<string> -> Option<ImdbSeries>,
    title: string -> Option<TitleData>,
    search: (string, Option<int>) -> Option<seq<SearchEntity>>)

  /** A JavaScript-truthy external id: present and non-empty. */
  predicate HasId(id: Option<string>) {
    id.Some? && id.value != ""
  }

  /**
   * `getSeriesTitle`: the series details (fetched unless given) and the graph
   * series behind its external id. A failed fetch yields neither.
   */
  function SeriesTitle(svc: Services, series: nat, given: Option<TmdbSeries>): (r: (Option<TmdbSeries>, Option<ImdbSeries>))
    ensures given.Some? ==> r.0 == given
    ensures given.None? ==> r.0 == svc.series(series)
    ensures r.0.None? ==> r.1.None?
    ensures r.0.Some? ==> r.1 == svc.graphSeries(r.0.value.imdbId)
  {
    var details := if given.Some? then given else svc.series(series);
    match details
    case None => (None, None)
    case Some(d) => (Some(d), svc.graphSeries(d.imdbId))
  }

  /** An episode as the text search sees it. */
  function EpisodeItem(e: TmdbEpisode): CatalogItem {
    CatalogItem(e.name, e.airDate, e.overview, e.runtime)
  }

  /** A movie as the text search sees it: its title is the name, its release date the air date. */
  function MovieItem(m: TmdbMovie): CatalogItem {
    CatalogItem(m.title, m.releaseDate, m.overview, m.runtime)
  }

  /** `getTitleFromTmdbData`: search by name and date, then pick the winner. */
  function TitleFromTmdbData(svc: Services, item: CatalogItem): Option<ImdbId> {
    TitleFromSearch(svc.chars, item, svc.search(item.name, item.airDate))
  }

  /** `getTitleFromId` through the title service. */
  function TitleById(svc: Services, id: string): Option<ImdbId> {
    TitleFromId(svc.title(id))
  }
}

=== FILE: episodes.dfy ===
/**
 * Resolution of one catalog episode to a graph identifier
 * (`getEpisodeFromTmdb`, src/api/tmdb.ts and src/tmdb.ts): the absolute
 * episode number, the positional match against the series' episode list, and
 * the fallback chain through the external id and the text search.
 */
module Episodes {
  import opened Wrappers
  import opened JsNumbers
  import opened Ids
  import opened Graph
  import opened Catalog

  /** The episodes of regular seasons (number above 0) numbered below `season`. */
  function EarlierEpisodes(seasons: seq<SeasonSummary>, season: nat): nat {
    if |seasons| == 0 then 0
    else
      (if 0 < seasons[0].number < season then seasons[0].episodeCount else 0)
      + EarlierEpisodes(seasons[1..], season)
  }

  lemma {:induction false} EarlierEpisodesAppend(a: seq<SeasonSummary>, b: seq<SeasonSummary>, season: nat)
    ensures EarlierEpisodes(a + b, season) == EarlierEpisodes(a, season) + EarlierEpisodes(b, season)
    decreases |a|
  {
    if |a| == 0 {
      assert a + b == b;
    } else {
      assert (a + b)[0] == a[0];
      assert (a + b)[1..] == a[1..] + b;
      EarlierEpisodesAppend(a[1..], b, season);
    }
  }

  /** The count does not depend on the order the catalog lists the seasons in. */
  lemma EarlierEpisodesOrderFree(a: seq<SeasonSummary>, b: seq<SeasonSummary>, season: nat)
    ensures EarlierEpisodes(a + b, season) == EarlierEpisodes(b + a, season)
  {
    EarlierEpisodesAppend(a, b, season);
    EarlierEpisodesAppend(b, a, season);
  }

  /**
   * The absolute episode number: the episode number plus the episode counts
   * of all regular seasons numbered below this one; without series details,
   * the episode number itself.
   */
  function AbsoluteEpisodeNumber(details: Option<TmdbSeries>, season: nat, episode: nat): (n: nat)
    ensures n >= episode
    ensures details.None? || season <= 1 ==> n == episode
  {
    if details.None? then episode
    else
      EarlierNoneBelowOne(details.value.seasons, season);
      episode + EarlierEpisodes(details.value.seasons, season)
  }

  lemma {:induction false} EarlierNoneBelowOne(seasons: seq<SeasonSummary>, season: nat)
    ensures season <= 1 ==> EarlierEpisodes(seasons, season) == 0
    decreases |seasons|
  {
    if |seasons| > 0 {
      EarlierNoneBelowOne(seasons[1..], season);
    }
  }

  /** Specials and out-of-order seasons: episode 3 of season 2 after a 10-episode season 1 is number 13. */
  lemma AbsoluteEpisodeExample()
    ensures AbsoluteEpisodeNumber(Some(TmdbSeries([SeasonSummary(0, 5), SeasonSummary(2, 8), SeasonSummary(1, 10)], None)), 2, 3) == 13
  {
    var seasons := [SeasonSummary(0, 5), SeasonSummary(2, 8), SeasonSummary(1, 10)];
    assert seasons[1..][1..][1..] == [];
  }

  /** The displayed season text of specials, which the positional match skips. */
  const Specials := "0"

  /** The episode list without the nodes displayed in season "0", in list order. */
  function Placed(nodes: seq<EpisodeNode>): (r: seq<EpisodeNode>)
    ensures |r| <= |nodes|
    ensures forall n :: n in r <==> n in nodes && n.display.season != Specials
  {
    if |nodes| == 0 then []
    else
      assert forall n :: n in nodes <==> n == nodes[0] || n in nodes[1..];
      (if nodes[0].display.season != Specials then [nodes[0]] else []) + Placed(nodes[1..])
  }

  /**
   * The match test for the node at position `i` of the placed list: it carries
   * the episode's external id, or it aired on the episode's air date and sits
   * at the absolute number's position.
   */
  predicate MatchesAt(node: EpisodeNode, i: int, ep: TmdbEpisode, absolute: int) {
    || ep.imdbId == Some(node.id)
    || (ep.airDate == Some(node.releaseDate) && i == absolute - 1)
  }

  /** Position `i` holds the first match of the list. */
  predicate FirstMatchAt(nodes: seq<EpisodeNode>, i: int, ep: TmdbEpisode, absolute: int) {
    && 0 <= i < |nodes|
    && MatchesAt(nodes[i], i, ep, absolute)
    && forall j :: 0 <= j < i ==> !MatchesAt(nodes[j], j, ep, absolute)
  }

  /** `find` from position `from`: the first matching position. */
  function FirstMatchFrom(nodes: seq<EpisodeNode>, ep: TmdbEpisode, absolute: int, from: nat): (r: Option<nat>)
    requires from <= |nodes|
    ensures r.Some? ==> from <= r.value < |nodes| && MatchesAt(nodes[r.value], r.value, ep, absolute)
    ensures r.Some? ==> forall j :: from <= j < r.value ==> !MatchesAt(nodes[j], j, ep, absolute)
    ensures r.None? ==> forall j :: from <= j < |nodes| ==> !MatchesAt(nodes[j], j, ep, absolute)
    decreases |nodes| - from
  {
    if from == |nodes| then None
    else if MatchesAt(nodes[from], from, ep, absolute) then Some(from)
    else FirstMatchFrom(nodes, ep, absolute, from + 1)
  }

  /**
   * The positional match: nothing for season 0 or without a graph episode
   * list; otherwise the first placed node that matches.
   */
  function PositionalMatch(season: nat, graph: Option<ImdbSeries>, ep: TmdbEpisode, absolute: int): (r: Option<EpisodeNode>)
    ensures season == 0 || graph.None? || graph.value.episodes.None? ==> r.None?
    ensures r.Some? ==>
              && graph.Some? && graph.value.episodes.Some?
              && r.value in graph.value.episodes.value
              && r.value.display.season != Specials
    ensures r.Some? ==>
              exists i :: FirstMatchAt(Placed(graph.value.episodes.value), i, ep, absolute)
                          && Placed(graph.value.episodes.value)[i] == r.value
    ensures r.None? && season != 0 && graph.Some? && graph.value.episodes.Some? ==>
              var placed := Placed(graph.value.episodes.value);
              forall j :: 0 <= j < |placed| ==> !MatchesAt(placed[j], j, ep, absolute)
  {
    if season == 0 || graph.None? || graph.value.episodes.None? then None
    else
      var placed := Placed(graph.value.episodes.value);
      match FirstMatchFrom(placed, ep, absolute, 0)
      case None =>
        assert forall j :: 0 <= j < |placed| ==> !MatchesAt(placed[j], j, ep, absolute);
        None
      case Some(i) =>
        assert placed[i] in placed;
        assert FirstMatchAt(placed, i, ep, absolute);
        Some(placed[i])
  }

  /** A placed node carrying the episode's external id guarantees a match no later than that node. */
  lemma ExternalIdIsMatched(season: nat, graph: ImdbSeries, ep: TmdbEpisode, absolute: int, k: nat)
    requires season != 0 && graph.episodes.Some?
    requires k < |Placed(graph.episodes.value)|
    requires ep.imdbId == Some(Placed(graph.episodes.value)[k].id)
    ensures PositionalMatch(season, Some(graph), ep, absolute).Some?
  {
    var placed := Placed(graph.episodes.value);
    assert MatchesAt(placed[k], k, ep, absolute);
  }

  /** The ids of the series' full episode list (not only the placed nodes). */
  function SeriesEpisodeIds(graph: ImdbSeries): seq<string> {
    NodeIds(graph.episodes.GetOr([]))
  }

  /**
   * The identifier of a positional match: the graph series id with the
   * season and episode extracted against the series' full episode list.
   */
  function MatchedId(graph: ImdbSeries, node: EpisodeNode): (r: Option<ImdbId>)
    ensures r.Some? ==> r.value.id == graph.id && r.value.season.Some? && r.value.episode.Some?
    ensures node.display.season != Unknown ==>
              r == Some(ImdbId(graph.id, Some(ParseInt(node.display.season)), Some(ParseInt(node.display.episode))))
    ensures node.display.season == Unknown ==> (r.Some? <==> node.id in SeriesEpisodeIds(graph))
  {
    match SeasonAndEpisode(node.id, SeriesEpisodeIds(graph), node.display)
    case None => None
    case Some((s, e)) => Some(ImdbId(graph.id, Some(s), Some(e)))
  }

  /**
   * The same step as the source writes it: the episodes wrapper object is
   * passed where the edge list is expected, so the list extraction reads is
   * always empty.
   */
  function MatchedIdAsWritten(graph: ImdbSeries, node: EpisodeNode): (r: Option<ImdbId>)
    ensures node.display.season == Unknown ==> r.None?
    ensures node.display.season != Unknown ==> r == MatchedId(graph, node)
  {
    match SeasonAndEpisode(node.id, [], node.display)
    case None => None
    case Some((s, e)) => Some(ImdbId(graph.id, Some(s), Some(e)))
  }

  /**
   * As written, a positional match in the "unknown" season never yields an
   * identifier, although the node is in the series list; against the full
   * list it yields season 0 and the node's 1-based list position.
   */
  lemma UnknownSeasonMatchLostAsWritten(graph: ImdbSeries, node: EpisodeNode)
    requires node.display.season == Unknown
    requires graph.episodes.Some? && node in graph.episodes.value
    ensures MatchedIdAsWritten(graph, node).None?
    ensures MatchedId(graph, node).Some?
    ensures MatchedId(graph, node).value.season == Some(Finite(0))
  {
    var nodes := graph.episodes.value;
    var i :| 0 <= i < |nodes| && nodes[i] == node;
    assert SeriesEpisodeIds(graph)[i] == node.id;
  }

  /** The concrete case: series tt0000001 lists tt0000002 in the "unknown" season. */
  lemma UnknownSeasonCounterexample()
    ensures var node := EpisodeNode("tt0000002", Display(Unknown, "unknown"), 0);
            var graph := ImdbSeries("tt0000001", Some([node]));
            && MatchedIdAsWritten(graph, node) == None
            && MatchedId(graph, node) == Some(ImdbId("tt0000001", Some(Finite(0)), Some(Finite(1))))
  {
    var node := EpisodeNode("tt0000002", Display(Unknown, "unknown"), 0);
    var graph := ImdbSeries("tt0000001", Some([node]));
    assert SeriesEpisodeIds(graph) == ["tt0000002"];
  }

  /**
   * How a positional match is turned into an identifier: against the
   * series' episode list (`MatchedId`), or against the episodes wrapper as
   * the source passes it (`MatchedIdAsWritten`).
   */
  datatype Extraction = AgainstList | AgainstWrapper

  /** The extraction step of the positional stage, by the chosen extraction. */
  function Extract(how: Extraction, graph: ImdbSeries, node: EpisodeNode): (r: Option<ImdbId>)
    ensures r.Some? ==> r.value.id == graph.id
    ensures node.display.season != Unknown ==> r == MatchedId(graph, node)
    ensures how == AgainstList ==> r == MatchedId(graph, node)
    ensures how == AgainstWrapper && node.display.season == Unknown ==> r.None?
  {
    match how
    case AgainstList => MatchedId(graph, node)
    case AgainstWrapper => MatchedIdAsWritten(graph, node)
  }

  /** The series details and graph series the episode is matched against. */
  function MatchContext(svc: Services, series: nat, details: Option<TmdbSeries>, graph: Option<ImdbSeries>): (Option<TmdbSeries>, Option<ImdbSeries>) {
    if details.None? && graph.None? then SeriesTitle(svc, series, None) else (details, graph)
  }

  /** The episode has aired: its air date, if it parses, is not after `now`. */
  predicate Aired(ep: TmdbEpisode, now: int) {
    !(ep.airDate.Some? && ep.airDate.value > now)
  }

  /**
   * The first stage: the positional match and its extraction. Nothing
   * without a match; with one, the series id with the numbers the extraction
   * gives, or nothing when the extraction fails.
   */
  function FromPosition(how: Extraction, details: Option<TmdbSeries>, graph: Option<ImdbSeries>,
                        season: nat, episode: nat, ep: TmdbEpisode): (r: Option<ImdbId>)
    ensures r.Some? ==> graph.Some? && r.value.id == graph.value.id
    ensures PositionalMatch(season, graph, ep, AbsoluteEpisodeNumber(details, season, episode)).None? ==> r.None?
    ensures PositionalMatch(season, graph, ep, AbsoluteEpisodeNumber(details, season, episode)).Some? ==>
              var node := PositionalMatch(season, graph, ep, AbsoluteEpisodeNumber(details, season, episode)).value;
              && (node.display.season != Unknown ==> r == MatchedId(graph.value, node))
              && (how == AgainstList ==> r == MatchedId(graph.value, node))
              && (how == AgainstWrapper && node.display.season == Unknown ==> r.None?)
  {
    match PositionalMatch(season, graph, ep, AbsoluteEpisodeNumber(details, season, episode))
    case None => None
    case Some(node) => Extract(how, graph.value, node)
  }

  /** The second stage: the external id, when the catalog has a non-empty one. */
  function FromExternalId(svc: Services, ep: TmdbEpisode): Option<ImdbId> {
    if HasId(ep.imdbId) then TitleById(svc, ep.imdbId.value) else None
  }

  /**
   * `getEpisodeFromTmdb`: nothing when the episode cannot be fetched or has
   * not aired; otherwise the first of the positional match, the external id
   * and the text search that yields an identifier. A positional match whose
   * extraction fails falls through to the external id. `AgainstWrapper` is
   * the source's extraction, `AgainstList` the corrected one.
   */
  function ResolveEpisode(how: Extraction, svc: Services, now: int, series: nat, season: nat, episode: nat,
                          details: Option<TmdbSeries>, graph: Option<ImdbSeries>): (r: Option<ImdbId>)
    ensures svc.episode(series, season, episode).None? ==> r.None?
    ensures svc.episode(series, season, episode).Some? && !Aired(svc.episode(series, season, episode).value, now) ==> r.None?
    ensures svc.episode(series, season, episode).Some? && Aired(svc.episode(series, season, episode).value, now) ==>
              var ep := svc.episode(series, season, episode).value;
              var ctx := MatchContext(svc, series, details, graph);
              var positional := FromPosition(how, ctx.0, ctx.1, season, episode, ep);
              var byId := FromExternalId(svc, ep);
              && (positional.Some? ==> r == positional)
              && (positional.None? && byId.Some? ==> r == byId)
              && (positional.None? && byId.None? ==> r == TitleFromTmdbData(svc, EpisodeItem(ep)))
  {
    match svc.episode(series, season, episode)
    case None => None
    case Some(ep) =>
      if !Aired(ep, now) then None
      else
        var ctx := MatchContext(svc, series, details, graph);
        var positional := FromPosition(how, ctx.0, ctx.1, season, episode, ep);
        if positional.Some? then positional
        else
          var byId := FromExternalId(svc, ep);
          if byId.Some? then byId
          else TitleFromTmdbData(svc, EpisodeItem(ep))
  }

  /**
   * When the graph series lists the episode's external id among its placed
   * nodes in numbered seasons, the episode resolves inside that series and
   * never reaches the external-id lookup or the text search.
   */
  lemma ListedEpisodeResolvesInSeries(how: Extraction, svc: Services, now: int, series: nat, season: nat, episode: nat,
                                      details: Option<TmdbSeries>, graph: ImdbSeries, k: nat)
    requires season != 0
    requires svc.episode(series, season, episode).Some? && Aired(svc.episode(series, season, episode).value, now)
    requires graph.episodes.Some?
    requires forall n :: n in graph.episodes.value ==> n.display.season != Unknown
    requires k < |Placed(graph.episodes.value)|
    requires svc.episode(series, season, episode).value.imdbId == Some(Placed(graph.episodes.value)[k].id)
    ensures var r := ResolveEpisode(how, svc, now, series, season, episode, details, Some(graph));
            r.Some? && r.value.id == graph.id && r.value.season.Some? && r.value.episode.Some?
  {
    var ep := svc.episode(series, season, episode).value;
    ExternalIdIsMatched(season, graph, ep, AbsoluteEpisodeNumber(details, season, episode), k);
  }

  /** Season 0 never matches by position: it resolves through the external id or the search. */
  lemma SpecialsSkipPosition(how: Extraction, svc: Services, now: int, series: nat, episode: nat,
                             details: Option<TmdbSeries>, graph: Option<ImdbSeries>)
    requires svc.episode(series, 0, episode).Some? && Aired(svc.episode(series, 0, episode).value, now)
    ensures var ep := svc.episode(series, 0, episode).value;
            var r := ResolveEpisode(how, svc, now, series, 0, episode, details, graph);
            r == (if FromExternalId(svc, ep).Some? then FromExternalId(svc, ep) else TitleFromTmdbData(svc, EpisodeItem(ep)))
  {
  }

  /** The graph series the episode is matched against lists no node in the "unknown" season. */
  predicate NoUnplacedNodes(graph: Option<ImdbSeries>) {
    graph.Some? && graph.value.episodes.Some? ==>
      forall n :: n in graph.value.episodes.value ==> n.display.season != Unknown
  }

  /**
   * The two extractions resolve every episode alike unless the series lists
   * a node in the "unknown" season.
   */
  lemma ExtractionsAgreeWithoutUnplaced(svc: Services, now: int, series: nat, season: nat, episode: nat,
                                        details: Option<TmdbSeries>, graph: Option<ImdbSeries>)
    requires NoUnplacedNodes(MatchContext(svc, series, details, graph).1)
    ensures ResolveEpisode(AgainstWrapper, svc, now, series, season, episode, details, graph)
         == ResolveEpisode(AgainstList, svc, now, series, season, episode, details, graph)
  {
    if svc.episode(series, season, episode).Some? {
      var ep := svc.episode(series, season, episode).value;
      var ctx := MatchContext(svc, series, details, graph);
      assert FromPosition(AgainstWrapper, ctx.0, ctx.1, season, episode, ep)
          == FromPosition(AgainstList, ctx.0, ctx.1, season, episode, ep);
    }
  }

  /**
   * As written, an aired episode whose positional match lies in the
   * "unknown" season is not resolved inside the series: it falls through to
   * the external id and then the text search. The corrected extraction
   * resolves it inside the series, in season 0.
   */
  lemma UnplacedMatchFallsThroughAsWritten(svc: Services, now: int, series: nat, season: nat, episode: nat,
                                           details: Option<TmdbSeries>, graph: Option<ImdbSeries>)
    requires svc.episode(series, season, episode).Some? && Aired(svc.episode(series, season, episode).value, now)
    requires var ep := svc.episode(series, season, episode).value;
             var ctx := MatchContext(svc, series, details, graph);
             var m := PositionalMatch(season, ctx.1, ep, AbsoluteEpisodeNumber(ctx.0, season, episode));
             m.Some? && m.value.display.season == Unknown
    ensures var ep := svc.episode(series, season, episode).value;
            var byId := FromExternalId(svc, ep);
            ResolveEpisode(AgainstWrapper, svc, now, series, season, episode, details, graph)
            == (if byId.Some? then byId else TitleFromTmdbData(svc, EpisodeItem(ep)))
    ensures var r := ResolveEpisode(AgainstList, svc, now, series, season, episode, details, graph);
            var ctx := MatchContext(svc, series, details, graph);
            r.Some? && r.value.id == ctx.1.value.id && r.value.season == Some(Finite(0))
  {
    var ep := svc.episode(series, season, episode).value;
    var ctx := MatchContext(svc, series, details, graph);
    var node := PositionalMatch(season, ctx.1, ep, AbsoluteEpisodeNumber(ctx.0, season, episode)).value;
    UnknownSeasonMatchLostAsWritten(ctx.1.value, node);
  }
}

=== FILE: graph.dfy ===
/**
 * What the engine reads from the title graph (src/imdb.ts): episode lists,
 * the displayed season/episode texts, and the season/episode extraction rule
 * with the result shaping that follows a match.
 */
module Graph {
  import opened Wrappers
  import opened Strings
  import opened JsNumbers
  import opened Ids

  /** `displayableEpisodeNumber`: the season and episode numbers as the graph displays them. */
  datatype Display = Display(season: string, episode: string)

  /** The season text of episodes the graph has not placed in any season. */
  const Unknown := "unknown"

  /**
   * One node of a series' episode list. `releaseDate` is the instant the
   * source builds from the node's year, month and day.
   */
  datatype EpisodeNode = EpisodeNode(id: string, display: Display, releaseDate: int)

  /**
   * The series part of a title: the series id, the ids of its episode list
   * (the list as the graph gives it, in list order) and the title's own
   * displayed numbers.
   */
  datatype SeriesLink = SeriesLink(seriesId: string, episodeIds: seq<string>, display: Display)

  /** A title fetched by id: a bare title, or an episode with its series link. */
  datatype TitleData = TitleData(id: string, series: Option<SeriesLink>)

  /** A series title with its full episode list, as fetched for positional matching. */
  datatype ImdbSeries = ImdbSeries(id: string, episodes: Option<seq<EpisodeNode>>)

  function NodeIds(nodes: seq<EpisodeNode>): (ids: seq<string>)
    ensures |ids| == |nodes|
    ensures forall i :: 0 <= i < |nodes| ==> ids[i] == nodes[i].id
  {
    seq(|nodes|, i requires 0 <= i < |nodes| => nodes[i].id)
  }

  /** `findIndex` for an id: the first position holding it, or none. */
  function IndexOf(ids: seq<string>, id: string): (r: Option<nat>)
    ensures r.Some? ==> r.value < |ids| && ids[r.value] == id
    ensures r.Some? ==> forall k :: 0 <= k < r.value ==> ids[k] != id
    ensures r.None? <==> id !in ids
  {
    if |ids| == 0 then None
    else if ids[0] == id then Some(0)
    else match IndexOf(ids[1..], id)
      case None => None
      case Some(k) => Some(k + 1)
  }

  /**
   * `getSeasonAndEpisode`: the displayed texts read as numbers; for an
   * episode in the "unknown" season, season 0 and one plus the episode's
   * first position in the list, or nothing when the list does not hold it.
   */
  function SeasonAndEpisode(titleId: string, episodeIds: seq<string>, display: Display): (r: Option<(JsNumber, JsNumber)>)
    ensures display.season == Unknown ==> (r.Some? <==> titleId in episodeIds)
    ensures display.season == Unknown && r.Some? ==>
              && r.value.0 == Finite(0)
              && r.value.1.Finite? && 1 <= r.value.1.value <= |episodeIds|
              && episodeIds[r.value.1.value - 1] == titleId
              && forall k :: 0 <= k < r.value.1.value - 1 ==> episodeIds[k] != titleId
    ensures display.season != Unknown ==> r == Some((ParseInt(display.season), ParseInt(display.episode)))
  {
    if display.season == Unknown then
      match IndexOf(episodeIds, titleId)
      case None => None
      case Some(i) =>
        ParseIntOfToString(0);
        ParseIntOfToString(i + 1);
        Some((ParseInt(IntToString(0)), ParseInt(IntToString(i + 1))))
    else
      Some((ParseInt(display.season), ParseInt(display.episode)))
  }

  /** Outside the "unknown" season the episode list is never consulted. */
  lemma SeasonAndEpisodeIgnoresList(titleId: string, titleId': string, ids: seq<string>, ids': seq<string>, display: Display)
    requires display.season != Unknown
    ensures SeasonAndEpisode(titleId, ids, display) == SeasonAndEpisode(titleId', ids', display)
  {
  }

  /**
   * The shared tail of `getTitleFromId` and `getTitleFromTmdbData`: a title
   * without series information is `[id]`; an episode is
   * `[seriesId, season, episode]`, or nothing when extraction fails.
   */
  function ShapeMatch(id: string, series: Option<SeriesLink>): (r: Option<ImdbId>)
    ensures series.None? ==> r == Some(ImdbId(id, None, None))
    ensures series.Some? ==>
              (r.Some? <==> SeasonAndEpisode(id, series.value.episodeIds, series.value.display).Some?)
    ensures series.Some? && r.Some? ==>
              && r.value.id == series.value.seriesId
              && r.value.season.Some? && r.value.episode.Some?
              && (r.value.season.value, r.value.episode.value)
                 == SeasonAndEpisode(id, series.value.episodeIds, series.value.display).value
  {
    match series
    case None => Some(ImdbId(id, None, None))
    case Some(link) =>
      match SeasonAndEpisode(id, link.episodeIds, link.display)
      case None => None
      case Some((season, episode)) => Some(ImdbId(link.seriesId, Some(season), Some(episode)))
  }

  /** `getTitleFromId`, given what the graph returned for the id (nothing when the title is unknown). */
  function TitleFromId(title: Option<TitleData>): (r: Option<ImdbId>)
    ensures title.None? ==> r.None?
    ensures title.Some? ==> r == ShapeMatch(title.value.id, title.value.series)
  {
    match title
    case None => None
    case Some(t) => ShapeMatch(t.id, t.series)
  }

  /**
   * An episode the graph has not placed in a season resolves to season 0 and
   * its 1-based position in the series list; one missing from the list does
   * not resolve.
   */
  lemma UnknownSeasonTitle(id: string, link: SeriesLink)
    requires link.display.season == Unknown
    ensures TitleFromId(Some(TitleData(id, Some(link)))).Some? <==> id in link.episodeIds
    ensures id in link.episodeIds ==>
              var r := TitleFromId(Some(TitleData(id, Some(link)))).value;
              && r.id == link.seriesId
              && r.season == Some(Finite(0))
              && r.episode.Some? && r.episode.value.Finite?
              && link.episodeIds[r.episode.value.value - 1] == id
  {
  }
}

=== FILE: ids.dfy ===
/**
 * The identifiers the cache protocol builds (src/api/firestore.ts): document
 * ids for catalog keys, the colon-joined `buildId` form of segment lists, and
 * the graph-side identifier triple the match engine produces.
 */
module Ids {
  import opened Wrappers
  import opened Strings
  import opened JsNumbers

  /** `MediaType`: `E` for episodes, `M` for movies. */
  datatype Kind = Episode | Movie

  function KindCode(kind: Kind): string {
    match kind
    case Episode => "E"
    case Movie => "M"
  }

  /** `mediaType.toLowerCase()`. */
  function KindLabel(kind: Kind): string {
    match kind
    case Episode => "e"
    case Movie => "m"
  }

  /** A catalog key `[title, season, episode]`; movies use season and episode 0. */
  datatype TmdbKey = TmdbKey(title: nat, season: nat, episode: nat)

  /** `buildDocumentId`: `${mediaType}_${title}_${season}_${episode}`. */
  function DocumentId(kind: Kind, key: TmdbKey): string {
    KindCode(kind) + "_" + NatToString(key.title) + "_" + NatToString(key.season) + "_" + NatToString(key.episode)
  }

  /** Reads a document id back into its kind and key. */
  function ParseDocumentId(id: string): Option<(Kind, TmdbKey)> {
    var parts := Split(id, '_');
    if |parts| != 4 || !(parts[0] == "E" || parts[0] == "M") then None
    else if !(AllDigits(parts[1]) && AllDigits(parts[2]) && AllDigits(parts[3])) then None
    else
      var kind := if parts[0] == "E" then Episode else Movie;
      Some((kind, TmdbKey(DigitsValue(parts[1]), DigitsValue(parts[2]), DigitsValue(parts[3]))))
  }

  lemma DocumentIdIsJoin(kind: Kind, key: TmdbKey)
    ensures DocumentId(kind, key)
         == Join([KindCode(kind), NatToString(key.title), NatToString(key.season), NatToString(key.episode)], '_')
  {
    var t, s, e := NatToString(key.title), NatToString(key.season), NatToString(key.episode);
    var parts := [KindCode(kind), t, s, e];
    assert parts[1..][1..][1..] == [e];
    assert Join(parts[1..][1..], '_') == s + "_" + e;
    assert Join(parts[1..], '_') == t + "_" + s + "_" + e;
  }

  lemma NoUnderscoreInDigits(s: string)
    requires AllDigits(s)
    ensures '_' !in s
  {
  }

  /** A document id determines the kind and key it was built from. */
  lemma ParseDocumentIdRoundTrip(kind: Kind, key: TmdbKey)
    ensures ParseDocumentId(DocumentId(kind, key)) == Some((kind, key))
  {
    var parts := [KindCode(kind), NatToString(key.title), NatToString(key.season), NatToString(key.episode)];
    DocumentIdIsJoin(kind, key);
    NoUnderscoreInDigits(parts[1]);
    NoUnderscoreInDigits(parts[2]);
    NoUnderscoreInDigits(parts[3]);
    SplitJoin(parts, '_');
    DigitsValueOfNatToString(key.title);
    DigitsValueOfNatToString(key.season);
    DigitsValueOfNatToString(key.episode);
  }

  /** The document-id encoding is injective over (kind, title, season, episode). */
  lemma DocumentIdInjective(k1: Kind, key1: TmdbKey, k2: Kind, key2: TmdbKey)
    requires DocumentId(k1, key1) == DocumentId(k2, key2)
    ensures k1 == k2 && key1 == key2
  {
    ParseDocumentIdRoundTrip(k1, key1);
    ParseDocumentIdRoundTrip(k2, key2);
  }

  /** One element of a `buildId` argument: `string | number | undefined`. */
  datatype Segment = Text(text: string) | Number(number: JsNumber) | Undefined

  function OptionalNumber(x: Option<JsNumber>): Segment {
    match x
    case Some(n) => Number(n)
    case None => Undefined
  }

  /** The defined segments, rendered as `join` renders them. */
  function Rendered(segments: seq<Segment>): (parts: seq<string>)
    ensures |parts| <= |segments|
  {
    if |segments| == 0 then []
    else
      var rest := Rendered(segments[1..]);
      match segments[0]
      case Undefined => rest
      case Text(t) => [t] + rest
      case Number(n) => [ToString(n)] + rest
  }

  /** `buildId`: drop undefined segments and join the rest with ":". */
  function BuildId(segments: seq<Segment>): string {
    Join(Rendered(segments), ':')
  }

  /** Undefined segments contribute nothing: removing them leaves the id unchanged. */
  lemma {:induction false} RenderedSkipsUndefined(a: seq<Segment>, b: seq<Segment>)
    ensures Rendered(a + [Undefined] + b) == Rendered(a + b)
    decreases |a|
  {
    if |a| == 0 {
      assert a + [Undefined] + b == [Undefined] + b;
      assert ([Undefined] + b)[1..] == b;
      assert a + b == b;
    } else {
      assert (a + [Undefined] + b)[1..] == a[1..] + [Undefined] + b;
      assert (a + b)[1..] == a[1..] + b;
      RenderedSkipsUndefined(a[1..], b);
    }
  }

  predicate SeparatorFree(segments: seq<Segment>) {
    forall i :: 0 <= i < |segments| && segments[i].Text? ==> ':' !in segments[i].text
  }

  lemma {:induction false} RenderedSeparatorFree(segments: seq<Segment>)
    requires SeparatorFree(segments)
    ensures forall i :: 0 <= i < |Rendered(segments)| ==> ':' !in Rendered(segments)[i]
    decreases |segments|
  {
    if |segments| > 0 {
      assert SeparatorFree(segments[1..]) by {
        forall i | 0 <= i < |segments[1..]| && segments[1..][i].Text?
          ensures ':' !in segments[1..][i].text
        {
          assert segments[1..][i] == segments[i + 1];
        }
      }
      RenderedSeparatorFree(segments[1..]);
      if segments[0].Number? {
        ToStringHasNoSeparator(segments[0].number, ':');
      }
    }
  }

  /** Splitting a built id at ":" recovers the defined segments, when the texts hold no ":". */
  lemma SplitBuildId(segments: seq<Segment>)
    requires SeparatorFree(segments)
    requires |Rendered(segments)| > 0
    ensures Split(BuildId(segments), ':') == Rendered(segments)
  {
    RenderedSeparatorFree(segments);
    SplitJoin(Rendered(segments), ':');
  }

  /**
   * The graph-side identifier `[id, season?, episode?]`: a bare title id, or a
   * series id with the season and episode numbers read off the title graph.
   */
  datatype ImdbId = ImdbId(id: string, season: Option<JsNumber>, episode: Option<JsNumber>)

  /** The `[""]` placeholder written for entries that hold no identifier. */
  const Placeholder := ImdbId("", None, None)

  function ImdbSegments(x: ImdbId): seq<Segment> {
    [Text(x.id), OptionalNumber(x.season), OptionalNumber(x.episode)]
  }

  /** `buildId(imdb)`: the stored string form of a graph identifier. */
  function RenderImdbId(x: ImdbId): string {
    BuildId(ImdbSegments(x))
  }

  /** The stored form is `id`, `id:season`, `id:episode` or `id:season:episode`. */
  lemma RenderImdbIdShape(x: ImdbId)
    requires ':' !in x.id
    ensures Split(RenderImdbId(x), ':')
         == [x.id] + (if x.season.Some? then [ToString(x.season.value)] else [])
                   + (if x.episode.Some? then [ToString(x.episode.value)] else [])
  {
    var segs := ImdbSegments(x);
    var tail := if x.episode.Some? then [ToString(x.episode.value)] else [];
    var middle := if x.season.Some? then [ToString(x.season.value)] else [];
    assert segs[1..][1..][1..] == [];
    assert Rendered(segs[1..][1..]) == tail;
    assert Rendered(segs[1..]) == middle + tail;
    assert Rendered(segs) == [x.id] + middle + tail;
    assert SeparatorFree(segs);
    SplitBuildId(segs);
  }

  /** `DbResult`: the catalog-side and graph-side strings of a cache entry. */
  datatype DbResult = DbResult(tmdb: string, imdb: string)
}

=== FILE: jsnumbers.dfy ===
/**
 * The JavaScript number conversions the engine relies on: `parseInt` on the
 * season/episode texts the title graph displays, and `toString` when numbers
 * are joined into stored identifiers. Only integral values arise, so a number
 * is an integer or the NaN that `parseInt` returns when it finds no digits.
 */
module JsNumbers {
  import opened Strings

  datatype JsNumber = Finite(value: int) | NaN

  /** The characters `parseInt` skips before the number (WhiteSpace and LineTerminator). */
  predicate IsWhitespace(c: char) {
    || c as int in {9, 10, 11, 12, 13, 32, 0xA0, 0x1680, 0x2028, 0x2029, 0x202F, 0x205F, 0x3000, 0xFEFF}
    || 0x2000 <= c as int <= 0x200A
  }

  function TrimStart(s: string): (t: string)
    ensures |t| <= |s| && t == s[|s| - |t|..]
    ensures |t| > 0 ==> !IsWhitespace(t[0])
    decreases |s|
  {
    if |s| > 0 && IsWhitespace(s[0]) then TrimStart(s[1..]) else s
  }

  /** The longest prefix of `s` made of decimal digits. */
  function DigitPrefix(s: string): (d: string)
    ensures AllDigits(d) && IsPrefix(d, s)
    ensures |d| < |s| ==> !IsDigit(s[|d|])
    decreases |s|
  {
    if |s| > 0 && IsDigit(s[0]) then [s[0]] + DigitPrefix(s[1..]) else []
  }

  predicate IsHexDigit(c: char) {
    IsDigit(c) || 'a' <= c <= 'f' || 'A' <= c <= 'F'
  }

  function HexDigitValue(c: char): (d: nat)
    requires IsHexDigit(c)
    ensures d < 16
  {
    if IsDigit(c) then DigitValue(c)
    else if 'a' <= c <= 'f' then c as int - 'a' as int + 10
    else c as int - 'A' as int + 10
  }

  /** The longest prefix of `s` made of hexadecimal digits. */
  function HexPrefix(s: string): (d: string)
    ensures IsPrefix(d, s)
    ensures forall i :: 0 <= i < |d| ==> IsHexDigit(d[i])
    decreases |s|
  {
    if |s| > 0 && IsHexDigit(s[0]) then [s[0]] + HexPrefix(s[1..]) else []
  }

  function HexValue(s: string): nat
    requires forall i :: 0 <= i < |s| ==> IsHexDigit(s[i])
  {
    if |s| == 0 then 0 else HexValue(s[..|s| - 1]) * 16 + HexDigitValue(s[|s| - 1])
  }

  predicate HasHexPrefix(s: string) {
    |s| >= 2 && s[0] == '0' && (s[1] == 'x' || s[1] == 'X')
  }

  /** The unsigned part of `parseInt`: base 16 after `0x`/`0X`, base 10 otherwise. */
  function ParseMagnitude(body: string): JsNumber {
    if HasHexPrefix(body) then
      var h := HexPrefix(body[2..]);
      if |h| == 0 then NaN else Finite(HexValue(h))
    else
      var d := DigitPrefix(body);
      if |d| == 0 then NaN else Finite(DigitsValue(d))
  }

  /**
   * `parseInt(s)` with no radix: leading white space is skipped, one sign is
   * read, and the magnitude follows; no digits at all gives NaN.
   */
  function ParseInt(s: string): JsNumber {
    var t := TrimStart(s);
    var negative := |t| > 0 && t[0] == '-';
    var body := if |t| > 0 && (t[0] == '-' || t[0] == '+') then t[1..] else t;
    match ParseMagnitude(body)
    case NaN => NaN
    case Finite(v) => if negative then Finite(-v) else Finite(v)
  }

  /** `n.toString()` for an integral value. */
  function IntToString(n: int): (s: string)
    ensures |s| > 0
  {
    if n < 0 then "-" + NatToString(-n) else NatToString(n)
  }

  /** `String(x)`, as template literals and `join` render a number. */
  function ToString(x: JsNumber): string {
    match x
    case Finite(v) => IntToString(v)
    case NaN => "NaN"
  }

  lemma {:induction false} DigitPrefixOfDigits(s: string)
    requires AllDigits(s)
    ensures DigitPrefix(s) == s
    decreases |s|
  {
    if |s| > 0 {
      DigitPrefixOfDigits(s[1..]);
      assert [s[0]] + s[1..] == s;
    }
  }

  lemma ParseMagnitudeOfNat(n: nat)
    ensures ParseMagnitude(NatToString(n)) == Finite(n)
  {
    var digits := NatToString(n);
    DigitPrefixOfDigits(digits);
    DigitsValueOfNatToString(n);
    if |digits| >= 2 {
      assert IsDigit(digits[1]);
    }
  }

  /** `parseInt` reads back what `toString` printed. */
  lemma ParseIntOfToString(n: int)
    ensures ParseInt(IntToString(n)) == Finite(n)
  {
    var m: nat := if n < 0 then -n else n;
    var digits := NatToString(m);
    ParseMagnitudeOfNat(m);
    var s := IntToString(n);
    assert !IsWhitespace(s[0]);
    assert TrimStart(s) == s;
    if n < 0 {
      assert s[1..] == digits;
    }
  }

  /** No rendered number contains a separator used in stored identifiers. */
  lemma ToStringHasNoSeparator(x: JsNumber, sep: char)
    requires sep == ':' || sep == '_'
    ensures sep !in ToString(x)
  {
    if x.Finite? {
      var digits := NatToString(if x.value < 0 then -x.value else x.value);
      assert forall i :: 0 <= i < |digits| ==> IsDigit(digits[i]);
      if x.value < 0 {
        assert ToString(x) == "-" + digits;
        assert forall i :: 0 <= i < |ToString(x)| ==> ToString(x)[i] == '-' || IsDigit(ToString(x)[i]);
      }
    }
  }
}

=== FILE: legacy.dfy ===
/**
 * The earlier resolver (src/tmdb.ts), kept beside the current one. Its
 * series lookup and its episode resolution are those of the current
 * resolver; its movie, season and series operations differ from the current
 * ones in two ways: no details can be handed in, and the season lookup
 * passes no air dates, so a cached episode is never re-resolved as stale.
 * It shares both defects of the current resolver and is modelled with them:
 * positional matches are extracted against the episodes wrapper
 * (src/tmdb.ts:171-177), and cache hits are written back as the placeholder
 * (src/tmdb.ts:282, 372). So it is compared with the as-written forms of the
 * current operations. Its store is a different database with the same
 * lookup and write contract, modelled by the same cache.
 */
module Legacy {
  import opened Wrappers
  import opened Ids
  import opened Cache
  import opened Graph
  import opened Catalog
  import opened Episodes
  import opened Runs
  import Seasons
  import Series
  import Movies

  /**
   * `getMovieFromTmdb` of the earlier resolver: cache first, then the
   * details are always fetched and resolved as in the current resolver.
   */
  function MovieFromTmdb(svc: Services, now: int, store: Store, movie: nat): (w: Written<Option<DbResult>>)
    ensures LookupOne(store, Movie, Movies.MovieKey(movie)).Some? ==>
              w.result == LookupOne(store, Movie, Movies.MovieKey(movie)) && w.store == store
    ensures svc.movie(movie).None? ==> w.store == store
    ensures w.result.Some? ==> LookupOne(w.store, Movie, Movies.MovieKey(movie)) == w.result
  {
    var key := Movies.MovieKey(movie);
    var cached := LookupOne(store, Movie, key);
    if cached.Some? then Written(cached, store)
    else
      match svc.movie(movie)
      case None => Written(None, store)
      case Some(m) =>
        var byId := if HasId(m.imdbId) then TitleById(svc, m.imdbId.value) else None;
        match if byId.Some? then byId else TitleFromTmdbData(svc, MovieItem(m))
        case None => Written(None, store)
        case Some(x) =>
          var u := UpsertOne(store, Movie, Upsert(key, x), now);
          Written(Some(u.result), u.store)
  }

  /** The earlier movie operation is the current one called without details. */
  lemma MovieIsCurrentWithoutDetails(svc: Services, now: int, store: Store, movie: nat)
    ensures MovieFromTmdb(svc, now, store, movie) == Movies.MovieFromTmdb(svc, now, store, movie, None)
  {
  }

  /** The season lookup of the earlier resolver: no air dates, so every cached episode is a hit. */
  function SeasonHits(store: Store, series: nat, season: nat, episodes: seq<TmdbEpisode>): (hits: seq<Option<DbResult>>)
    ensures |hits| == |episodes|
    ensures forall i :: 0 <= i < |episodes| ==> hits[i] == LookupOne(store, Episode, TmdbKey(series, season, episodes[i].number))
  {
    var keys := Seasons.EpisodeKeys(series, season, episodes);
    LookupManyWithoutDates(store, Episode, keys);
    LookupMany(store, Episode, keys, [])
  }

  /** The slots of a season before any write, looked up without air dates. */
  function ResolvedSeason(svc: Services, now: int, store: Store, series: nat, season: nat, episodes: seq<TmdbEpisode>,
                          details: Option<TmdbSeries>, graph: Option<ImdbSeries>): (slots: seq<Entry>)
    ensures |slots| == |episodes|
  {
    var ctx := MatchContext(svc, series, details, graph);
    CorrectRun(Seasons.SeasonSlots(AgainstWrapper, svc, now, series, season, episodes, SeasonHits(store, series, season, episodes), ctx.0, ctx.1))
  }

  /**
   * `getSeasonFromTmdb` of the earlier resolver: the season is always
   * fetched and looked up without air dates; the rest is the current
   * operation as written. A season that cannot be had yields nothing and changes
   * nothing; without `addToDb` the cache is untouched; with it, every
   * episode is cached at `now`, nothing outside the season changes and no
   * slot is left as a bare identifier.
   */
  function SeasonFromTmdb(svc: Services, now: int, store: Store, series: nat, season: nat,
                          addToDb: bool, details: Option<TmdbSeries>, graph: Option<ImdbSeries>): (w: Written<Option<seq<Entry>>>)
    ensures svc.season(series, season).None? ==> w.result.None? && w.store == store
    ensures svc.season(series, season).Some? ==>
              w.result.Some? && |w.result.value| == |svc.season(series, season).value.episodes|
    ensures !addToDb ==> w.store == store
    ensures addToDb && w.result.Some? ==>
              Seasons.SeasonCached(store, w.store, series, season, svc.season(series, season).value.episodes, w.result.value, now)
  {
    match svc.season(series, season)
    case None => Written(None, store)
    case Some(s) =>
      var slots := ResolvedSeason(svc, now, store, series, season, s.episodes, details, graph);
      Seasons.WriteBackCaches(Seasons.StoredIdentifierAsWritten, store, series, season, s.episodes, slots, now);
      var f := Seasons.Assemble(Seasons.StoredIdentifierAsWritten, store, Seasons.EpisodeKeys(series, season, s.episodes), slots, now, addToDb);
      Written(Some(f.result), f.store)
  }

  /** The staleness check of the current lookup changes nothing for these episodes. */
  predicate NoneStale(store: Store, series: nat, season: nat, episodes: seq<TmdbEpisode>) {
    forall i :: 0 <= i < |episodes| ==>
      LookupAt(store, Episode, TmdbKey(series, season, episodes[i].number), episodes[i].airDate)
      == LookupOne(store, Episode, TmdbKey(series, season, episodes[i].number))
  }

  /** The two season lookups agree on episodes none of which is stale. */
  lemma SeasonHitsAgree(store: Store, series: nat, season: nat, episodes: seq<TmdbEpisode>)
    requires NoneStale(store, series, season, episodes)
    ensures SeasonHits(store, series, season, episodes) == Seasons.SeasonHits(store, series, season, episodes)
  {
  }

  /**
   * Where no cached episode of the season is stale, the earlier season
   * operation is the current one, as written, called without season details.
   */
  lemma {:induction false} SeasonIsCurrentWhenNothingStale(svc: Services, now: int, store: Store, series: nat, season: nat,
                                        addToDb: bool, details: Option<TmdbSeries>, graph: Option<ImdbSeries>)
    requires svc.season(series, season).Some? ==> NoneStale(store, series, season, svc.season(series, season).value.episodes)
    ensures SeasonFromTmdb(svc, now, store, series, season, addToDb, details, graph)
         == Seasons.SeasonFromTmdbAsWritten(svc, now, store, series, season, addToDb, details, graph, None)
  {
    if svc.season(series, season).Some? {
      var episodes := svc.season(series, season).value.episodes;
      SeasonHitsAgree(store, series, season, episodes);
      assert ResolvedSeason(svc, now, store, series, season, episodes, details, graph)
          == Seasons.ResolvedSeason(AgainstWrapper, svc, now, store, series, season, episodes, details, graph);
    }
  }

  /**
   * Where the run correction does not fire, a slot of the earlier season
   * operation is the cached result exactly when the key is cached, however
   * the episode's air date compares with the record, and otherwise what the
   * episode resolver makes of the episode.
   */
  lemma SeasonCachePolicy(svc: Services, now: int, store: Store, series: nat, season: nat, episodes: seq<TmdbEpisode>,
                          details: Option<TmdbSeries>, graph: Option<ImdbSeries>, i: nat)
    requires i < |episodes|
    requires var ctx := MatchContext(svc, series, details, graph);
             !Fires(Seasons.SeasonSlots(AgainstWrapper, svc, now, series, season, episodes, SeasonHits(store, series, season, episodes), ctx.0, ctx.1))
    ensures var slot := ResolvedSeason(svc, now, store, series, season, episodes, details, graph)[i];
            var hit := LookupOne(store, Episode, TmdbKey(series, season, episodes[i].number));
            var ctx := MatchContext(svc, series, details, graph);
            && (slot.Hit? <==> hit.Some?)
            && (hit.Some? ==> slot == Hit(hit.value))
            && (hit.None? ==> slot == FromResolution(ResolveEpisode(AgainstWrapper, svc, now, series, season, episodes[i].number, ctx.0, ctx.1)))
  {
  }

  /**
   * A cached episode that aired on or after its record was written is a miss
   * for the current lookup and a hit for the earlier one.
   */
  lemma StaleRecordSeparatesLookups(store: Store, series: nat, season: nat, episodes: seq<TmdbEpisode>, i: nat)
    requires i < |episodes|
    requires var id := DocumentId(Episode, TmdbKey(series, season, episodes[i].number));
             id in store && episodes[i].airDate.Some? && episodes[i].airDate.value >= store[id].updatedAt
    ensures Seasons.SeasonHits(store, series, season, episodes)[i].None?
    ensures SeasonHits(store, series, season, episodes)[i].Some?
  {
  }

  /** The season calls of the earlier series operation: the earlier season operation, without writing. */
  function SeasonCalls(svc: Services, now: int, store: Store, series: nat, details: TmdbSeries,
                       graph: Option<ImdbSeries>): (calls: seq<Option<seq<Entry>>>)
    ensures |calls| == |details.seasons|
    ensures forall i :: 0 <= i < |details.seasons| && Series.Covered(Series.SeriesGrid(store, series, details.seasons)[i]) ==> calls[i].None?
  {
    var grid := Series.SeriesGrid(store, series, details.seasons);
    seq(|details.seasons|, i requires 0 <= i < |details.seasons| =>
      if Series.Covered(grid[i]) then None
      else SeasonFromTmdb(svc, now, store, series, details.seasons[i].number, false, Some(details), graph).result)
  }

  /**
   * `getSeriesFromTmdb` of the earlier resolver: the series details are
   * always fetched, and the seasons not fully cached go through the earlier
   * season operation. Without details there is nothing and the cache is
   * untouched; otherwise there is one row per season and the only documents
   * that change are episode documents of this series.
   */
  function SeriesFromTmdb(svc: Services, now: int, store: Store, series: nat): (w: Written<Option<seq<seq<Entry>>>>)
    ensures svc.series(series).None? ==> w.result.None? && w.store == store
    ensures svc.series(series).Some? ==> w.result.Some? && |w.result.value| == |svc.series(series).value.seasons|
    ensures forall id :: Get(w.store, id) != Get(store, id) ==> exists season, episode :: id == DocumentId(Episode, TmdbKey(series, season, episode))
  {
    match svc.series(series)
    case None => Written(None, store)
    case Some(details) =>
      var graph := SeriesTitle(svc, series, Some(details)).1;
      var calls := SeasonCalls(svc, now, store, series, details, graph);
      Series.SeriesWritesStayInSeries(Seasons.StoredIdentifierAsWritten, store, series, details.seasons, calls, now);
      var rows := Series.SeriesRows(Seasons.StoredIdentifierAsWritten, now, store, series, details.seasons, calls);
      Written(Some(rows.result), rows.store)
  }

  /** No season of the series that the catalog can give has a stale cached episode. */
  predicate SeasonsNoneStale(svc: Services, store: Store, series: nat, seasons: seq<SeasonSummary>) {
    forall i :: 0 <= i < |seasons| && svc.season(series, seasons[i].number).Some? ==>
      NoneStale(store, series, seasons[i].number, svc.season(series, seasons[i].number).value.episodes)
  }

  /**
   * Where no season has a stale cached episode, the earlier series operation
   * is the current one, as written, called without series or season details.
   */
  lemma {:induction false} SeriesIsCurrentWhenNothingStale(svc: Services, now: int, store: Store, series: nat)
    requires svc.series(series).Some? ==> SeasonsNoneStale(svc, store, series, svc.series(series).value.seasons)
    ensures SeriesFromTmdb(svc, now, store, series) == Series.SeriesFromTmdbAsWritten(svc, now, store, series, None, None)
  {
    if svc.series(series).Some? {
      var details := svc.series(series).value;
      var graph := SeriesTitle(svc, series, None).1;
      var calls := SeasonCalls(svc, now, store, series, details, graph);
      var current := Series.SeasonCalls(Seasons.StoredIdentifierAsWritten, AgainstWrapper, svc, now, store, series, details, graph, None);
      forall i | 0 <= i < |details.seasons|
        ensures calls[i] == current[i]
      {
        SeasonCallIsCurrent(svc, now, store, series, details, graph, i);
      }
      assert calls == current;
    }
  }

  /** One season call of the earlier series operation agrees with the current one, as written, where nothing is stale. */
  lemma SeasonCallIsCurrent(svc: Services, now: int, store: Store, series: nat, details: TmdbSeries,
                            graph: Option<ImdbSeries>, i: nat)
    requires i < |details.seasons|
    requires SeasonsNoneStale(svc, store, series, details.seasons)
    ensures SeasonCalls(svc, now, store, series, details, graph)[i]
         == Series.SeasonCalls(Seasons.StoredIdentifierAsWritten, AgainstWrapper, svc, now, store, series, details, graph, None)[i]
  {
    var number := details.seasons[i].number;
    assert Series.GivenSeason(None, i) == None;
    SeasonIsCurrentWhenNothingStale(svc, now, store, series, number, false, Some(details), graph);
  }
}

=== FILE: movies.dfy ===
/**
 * `getMovieFromTmdb` (src/api/tmdb.ts): a movie is looked up in the cache
 * first; on a miss its catalog details are resolved to a title-graph
 * identifier and the result is cached.
 */
module Movies {
  import opened Wrappers
  import opened Ids
  import opened Cache
  import opened Catalog

  /** A movie is cached under its catalog id with season and episode 0. */
  function MovieKey(movie: nat): TmdbKey {
    TmdbKey(movie, 0, 0)
  }

  /** The movie details: the ones given, or the ones fetched. */
  function MovieDetails(svc: Services, movie: nat, given: Option<TmdbMovie>): (d: Option<TmdbMovie>)
    ensures given.Some? ==> d == given
    ensures given.None? ==> d == svc.movie(movie)
  {
    if given.Some? then given else svc.movie(movie)
  }

  /**
   * The identifier a movie's details lead to: the title behind its external
   * id when it has one the title service knows, and otherwise the winner of
   * the text search on its title and release date.
   */
  function MovieIdentifier(svc: Services, m: TmdbMovie): Option<ImdbId> {
    var byId := if HasId(m.imdbId) then TitleById(svc, m.imdbId.value) else None;
    if byId.Some? then byId else TitleFromTmdbData(svc, MovieItem(m))
  }

  /**
   * `getMovieFromTmdb`. A cached movie is returned as cached and nothing is
   * written. Otherwise a resolved movie is written at `now` under its key and
   * the result is what the cache now holds for it; an unresolved one yields
   * nothing and changes nothing. No other document ever changes.
   */
  function MovieFromTmdb(svc: Services, now: int, store: Store, movie: nat, given: Option<TmdbMovie>): (w: Written<Option<DbResult>>)
    ensures LookupOne(store, Movie, MovieKey(movie)).Some? ==> w.result == LookupOne(store, Movie, MovieKey(movie)) && w.store == store
    ensures w.result.None? ==> w.store == store
    ensures w.result.Some? ==> LookupOne(w.store, Movie, MovieKey(movie)) == w.result
    ensures forall id :: id != DocumentId(Movie, MovieKey(movie)) ==> Get(w.store, id) == Get(store, id)
    ensures LookupOne(store, Movie, MovieKey(movie)).None? && w.result.Some? ==>
              DocumentId(Movie, MovieKey(movie)) in w.store && w.store[DocumentId(Movie, MovieKey(movie))].updatedAt == now
  {
    var cached := LookupOne(store, Movie, MovieKey(movie));
    if cached.Some? then Written(cached, store)
    else
      match MovieDetails(svc, movie, given)
      case None => Written(None, store)
      case Some(m) =>
        match MovieIdentifier(svc, m)
        case None => Written(None, store)
        case Some(found) =>
          var u := UpsertOne(store, Movie, Upsert(MovieKey(movie), found), now);
          Written(Some(u.result), u.store)
  }

  /**
   * A movie yields nothing exactly when it is not cached and either its
   * details cannot be had or they lead to no identifier.
   */
  lemma MovieUnresolvedExactly(svc: Services, now: int, store: Store, movie: nat, given: Option<TmdbMovie>)
    ensures MovieFromTmdb(svc, now, store, movie, given).result.None?
        <==> && LookupOne(store, Movie, MovieKey(movie)).None?
             && (MovieDetails(svc, movie, given).None? || MovieIdentifier(svc, MovieDetails(svc, movie, given).value).None?)
  {
  }

  /** A movie resolved through the catalog is cached as the identifier its details lead to. */
  lemma MovieWritesItsIdentifier(svc: Services, now: int, store: Store, movie: nat, given: Option<TmdbMovie>)
    requires LookupOne(store, Movie, MovieKey(movie)).None?
    requires MovieDetails(svc, movie, given).Some?
    requires MovieIdentifier(svc, MovieDetails(svc, movie, given).value).Some?
    ensures var w := MovieFromTmdb(svc, now, store, movie, given);
            var x := MovieIdentifier(svc, MovieDetails(svc, movie, given).value).value;
            && w.result.Some?
            && w.result.value.imdb == RenderImdbId(x)
            && Get(w.store, DocumentId(Movie, MovieKey(movie))) == Some(NewRecord(Movie, Upsert(MovieKey(movie), x), now))
  {
  }

  /**
   * Asking for a movie again returns what the first call returned and
   * writes nothing, whatever the catalog and the clock say the second time.
   */
  lemma {:induction false} MovieIdempotent(svc: Services, svc2: Services, now: int, now2: int, store: Store, movie: nat,
                                           given: Option<TmdbMovie>, given2: Option<TmdbMovie>)
    requires MovieFromTmdb(svc, now, store, movie, given).result.Some?
    ensures var first := MovieFromTmdb(svc, now, store, movie, given);
            var second := MovieFromTmdb(svc2, now2, first.store, movie, given2);
            second.result == first.result && second.store == first.store
  {
  }
}

=== FILE: normalize.dfy ===
/**
 * Title normalisation for text matching (src/imdb.ts): the search name's
 * trailing " (n)" rewrite, the `cleanRegex` filter that keeps only letters,
 * decimal digits and braces, and lower-casing.
 */
module Normalize {
  import opened Wrappers
  import opened Strings

  /**
   * The Unicode facts the engine uses: membership in the letter category
   * (`\p{L}`) and each character's lower-case form. They come from the
   * Unicode tables, so the model takes them as a parameter.
   */
  datatype CharClass = CharClass(isLetter: char -> bool, lower: char -> char)

  /** The characters `/[^{\p{L}}\d]/gu` does not match: letters, digits, `{` and `}`. */
  predicate Kept(cc: CharClass, c: char) {
    cc.isLetter(c) || IsDigit(c) || c == '{' || c == '}'
  }

  predicate AllKept(cc: CharClass, s: string) {
    forall i :: 0 <= i < |s| ==> Kept(cc, s[i])
  }

  /** `s.replace(cleanRegex, "")`: every character that is not kept is removed. */
  function Clean(cc: CharClass, s: string): (r: string)
    ensures |r| <= |s|
    ensures AllKept(cc, r)
    ensures forall c :: c in r <==> c in s && Kept(cc, c)
  {
    if |s| == 0 then []
    else
      var rest := Clean(cc, s[1..]);
      assert forall c :: c in s <==> c == s[0] || c in s[1..];
      if Kept(cc, s[0]) then [s[0]] + rest else rest
  }

  /** `s.toLowerCase()`, one character at a time. */
  function Lower(cc: CharClass, s: string): (r: string)
    ensures |r| == |s|
    ensures forall i :: 0 <= i < |s| ==> r[i] == cc.lower(s[i])
  {
    seq(|s|, i requires 0 <= i < |s| => cc.lower(s[i]))
  }

  /** `s.replace(cleanRegex, "").toLowerCase()`: the form titles are compared in. */
  function Normalized(cc: CharClass, s: string): string {
    Lower(cc, Clean(cc, s))
  }

  /** Cleaning works character by character, so it distributes over concatenation. */
  lemma {:induction false} CleanAppend(cc: CharClass, a: string, b: string)
    ensures Clean(cc, a + b) == Clean(cc, a) + Clean(cc, b)
    decreases |a|
  {
    if |a| > 0 {
      assert (a + b)[0] == a[0];
      assert (a + b)[1..] == a[1..] + b;
      CleanAppend(cc, a[1..], b);
    } else {
      assert a + b == b;
    }
  }

  /** A string is left unchanged exactly when every character in it is kept. */
  lemma {:induction false} CleanFixesExactlyKept(cc: CharClass, s: string)
    ensures Clean(cc, s) == s <==> AllKept(cc, s)
    decreases |s|
  {
    if |s| > 0 {
      CleanFixesExactlyKept(cc, s[1..]);
      if AllKept(cc, s) {
        assert AllKept(cc, s[1..]) by {
          forall i | 0 <= i < |s[1..]| ensures Kept(cc, s[1..][i]) {
            assert s[1..][i] == s[i + 1];
          }
        }
        assert [s[0]] + s[1..] == s;
      }
    }
  }

  /** Cleaning twice is cleaning once. */
  lemma CleanIdempotent(cc: CharClass, s: string)
    ensures Clean(cc, Clean(cc, s)) == Clean(cc, s)
  {
    CleanFixesExactlyKept(cc, Clean(cc, s));
  }

  /** The search name ends in a space, an opening parenthesis, one digit and a closing parenthesis. */
  predicate HasPartSuffix(name: string) {
    && |name| >= 4
    && name[|name| - 4] == ' '
    && name[|name| - 3] == '('
    && IsDigit(name[|name| - 2])
    && name[|name| - 1] == ')'
  }

  const Crossover := "The crossover"

  predicate MentionsCrossover(overview: Option<string>) {
    overview.Some? && Contains(overview.value, Crossover)
  }

  /**
   * The rewrite of `/ \((\d)\)$/`: "Name (2)" becomes "Name, Part 2", or plain
   * "Name" when the overview mentions "The crossover"; other names are kept.
   */
  function RewritePart(name: string, overview: Option<string>): (r: string)
    ensures !HasPartSuffix(name) ==> r == name
    ensures HasPartSuffix(name) ==> IsPrefix(name[..|name| - 4], r)
    ensures HasPartSuffix(name) && MentionsCrossover(overview) ==> r == name[..|name| - 4]
    ensures HasPartSuffix(name) && !MentionsCrossover(overview) ==>
              r[|name| - 4..] == ", Part " + [name[|name| - 2]]
  {
    if !HasPartSuffix(name) then name
    else
      var stem := name[..|name| - 4];
      if MentionsCrossover(overview) then stem
      else stem + ", Part " + [name[|name| - 2]]
  }

  /** Without a crossover the rewrite removes its own trigger, so a second pass changes nothing. */
  lemma RewritePartSettles(name: string, overview: Option<string>)
    requires !MentionsCrossover(overview)
    ensures RewritePart(RewritePart(name, overview), overview) == RewritePart(name, overview)
  {
    var r := RewritePart(name, overview);
    if HasPartSuffix(name) {
      assert r[|r| - 1] == name[|name| - 2];
      assert !HasPartSuffix(r);
    }
  }

  /** With a crossover only one suffix goes: "Finale (1) (2)" becomes "Finale (1)", not "Finale". */
  lemma CrossoverRemovesOneSuffix()
    ensures RewritePart("Finale (1) (2)", Some(Crossover)) == "Finale (1)"
  {
    assert IsPrefix(Crossover, Crossover);
    assert OccursAt(Crossover, Crossover, 0);
    ContainsAt(Crossover, Crossover);
  }

  /** The normalised query of a catalog item: `name`, rewritten, cleaned and lower-cased. */
  function QueryTitle(cc: CharClass, name: string, overview: Option<string>): string {
    Normalized(cc, RewritePart(name, overview))
  }
}

=== FILE: runs.dfy ===
/**
 * Season run correction (`getSeasonFromTmdb`, src/api/tmdb.ts and
 * src/tmdb.ts): when the first and last resolved episodes of a season are
 * exactly as far apart in the graph's numbering as in the catalog's, the
 * whole season is renumbered as one consecutive run of the most common
 * graph series.
 */
module Runs {
  import opened Wrappers
  import opened JsNumbers
  import opened Ids

  /**
   * One episode slot of a season: an identifier resolved in this call, a
   * cache hit, or nothing.
   */
  datatype Entry = Tuple(id: ImdbId) | Hit(result: DbResult) | Unresolved

  /** A resolution outcome as a slot. */
  function FromResolution(r: Option<ImdbId>): Entry {
    match r
    case Some(id) => Tuple(id)
    case None => Unresolved
  }

  /** A cache result as a slot. */
  function FromResult(r: Option<DbResult>): Entry {
    match r
    case Some(result) => Hit(result)
    case None => Unresolved
  }

  /** `find(Array.isArray)`: the first resolved slot. */
  function FirstTuple(run: seq<Entry>): (f: Option<nat>)
    ensures f.Some? ==> f.value < |run| && run[f.value].Tuple?
    ensures f.Some? ==> forall j :: 0 <= j < f.value ==> !run[j].Tuple?
    ensures f.None? <==> forall j :: 0 <= j < |run| ==> !run[j].Tuple?
  {
    if |run| == 0 then None
    else if run[0].Tuple? then Some(0)
    else
      match FirstTuple(run[1..])
      case None => None
      case Some(k) => Some(k + 1)
  }

  /** `findLast(Array.isArray)`: the last resolved slot. */
  function LastTuple(run: seq<Entry>): (l: Option<nat>)
    ensures l.Some? ==> l.value < |run| && run[l.value].Tuple?
    ensures l.Some? ==> forall j :: l.value < j < |run| ==> !run[j].Tuple?
    ensures l.None? <==> forall j :: 0 <= j < |run| ==> !run[j].Tuple?
  {
    if |run| == 0 then None
    else if run[|run| - 1].Tuple? then Some(|run| - 1)
    else LastTuple(run[..|run| - 1])
  }

  /** The episode number of a resolved slot, when it is a finite number. */
  function EpisodeNumber(e: Entry): Option<int> {
    if e.Tuple? && e.id.episode.Some? && e.id.episode.value.Finite? then Some(e.id.episode.value.value) else None
  }

  /** The series ids of the resolved slots, in slot order. */
  function SeriesIds(run: seq<Entry>): (ids: seq<string>)
    ensures |ids| <= |run|
    ensures forall j :: 0 <= j < |run| && run[j].Tuple? ==> run[j].id.id in ids
    ensures forall x :: x in ids ==> exists j :: 0 <= j < |run| && run[j].Tuple? && run[j].id.id == x
  {
    if |run| == 0 then []
    else
      var rest := SeriesIds(run[1..]);
      assert forall j :: 1 <= j < |run| ==> run[j] == run[1..][j - 1];
      if run[0].Tuple? then [run[0].id.id] + rest else rest
  }

  /**
   * The position a stable ascending sort by occurrence count moves to the
   * end, among the first `n` ids: the most frequent id, and among equally
   * frequent ones the latest.
   */
  function MostCommonUpTo(ids: seq<string>, n: nat): (k: nat)
    requires 0 < n <= |ids|
    ensures k < n
    ensures forall j :: 0 <= j < n ==> multiset(ids)[ids[j]] <= multiset(ids)[ids[k]]
    ensures forall j :: k < j < n ==> multiset(ids)[ids[j]] < multiset(ids)[ids[k]]
  {
    if n == 1 then 0
    else
      var k' := MostCommonUpTo(ids, n - 1);
      if multiset(ids)[ids[n - 1]] >= multiset(ids)[ids[k']] then n - 1 else k'
  }

  /** `commonSeries`: the most frequent series id of the resolved slots. */
  function CommonSeries(run: seq<Entry>): (cs: Option<string>)
    ensures cs.None? <==> FirstTuple(run).None?
    ensures cs.Some? ==> cs.value in SeriesIds(run)
    ensures cs.Some? ==> forall x :: x in SeriesIds(run) ==> multiset(SeriesIds(run))[x] <= multiset(SeriesIds(run))[cs.value]
  {
    var ids := SeriesIds(run);
    if |ids| == 0 then None
    else
      assert FirstTuple(run).Some? by {
        assert ids[0] in ids;
        var j :| 0 <= j < |run| && run[j].Tuple? && run[j].id.id == ids[0];
      }
      Some(ids[MostCommonUpTo(ids, |ids|)])
  }

  /** The first resolved slot of series `id`. */
  function FirstOfSeries(run: seq<Entry>, id: string): (k: Option<nat>)
    ensures k.Some? ==> k.value < |run| && run[k.value].Tuple? && run[k.value].id.id == id
    ensures k.Some? ==> forall j :: 0 <= j < k.value ==> !(run[j].Tuple? && run[j].id.id == id)
    ensures k.None? <==> forall j :: 0 <= j < |run| ==> !(run[j].Tuple? && run[j].id.id == id)
  {
    if |run| == 0 then None
    else if run[0].Tuple? && run[0].id.id == id then Some(0)
    else
      match FirstOfSeries(run[1..], id)
      case None => None
      case Some(k) => Some(k + 1)
  }

  /**
   * The anchors agree: the first and last resolved slots carry finite
   * episode numbers exactly as far apart as the slots themselves.
   */
  predicate Anchored(run: seq<Entry>) {
    var f := FirstTuple(run);
    var l := LastTuple(run);
    && f.Some? && l.Some?
    && EpisodeNumber(run[f.value]).Some? && EpisodeNumber(run[l.value]).Some?
    && l.value - f.value == EpisodeNumber(run[l.value]).value - EpisodeNumber(run[f.value]).value
  }

  /** The correction applies: anchored, and the common series id is non-empty. */
  predicate Fires(run: seq<Entry>) {
    Anchored(run) && CommonSeries(run).Some? && CommonSeries(run).value != ""
  }

  /** The season number the corrected run carries: that of the first slot of the common series. */
  function CommonSeason(run: seq<Entry>): Option<JsNumber>
    requires Fires(run)
  {
    var cs := CommonSeries(run).value;
    var k := FirstOfSeries(run, cs);
    assert k.Some? by {
      var i :| 0 <= i < |run| && run[i].Tuple? && run[i].id.id == cs;
    }
    run[k.value].id.season
  }

  /** A run of `n` slots of one series and season, numbered consecutively from `start`. */
  function RunOf(id: string, season: Option<JsNumber>, start: int, n: nat): (r: seq<Entry>)
    ensures |r| == n
    ensures forall i :: 0 <= i < n ==> r[i] == Tuple(ImdbId(id, season, Some(Finite(start + i))))
  {
    seq(n, i requires 0 <= i < n => Tuple(ImdbId(id, season, Some(Finite(start + i)))))
  }

  /** The number the first anchor's episode number implies for slot 0. */
  function RunStart(run: seq<Entry>): int
    requires Fires(run)
  {
    var f := FirstTuple(run).value;
    EpisodeNumber(run[f]).value - f
  }

  /**
   * The run correction: every slot, resolved or not, becomes the common
   * series with the common season and the episode number counted from the
   * first anchor; a run the rule does not fire on is returned as it is.
   */
  function CorrectRun(run: seq<Entry>): (r: seq<Entry>)
    ensures |r| == |run|
    ensures !Fires(run) ==> r == run
    ensures Fires(run) ==> r == RunOf(CommonSeries(run).value, CommonSeason(run), RunStart(run), |run|)
  {
    if Fires(run) then RunOf(CommonSeries(run).value, CommonSeason(run), RunStart(run), |run|) else run
  }

  /** A corrected run is one series and season, numbered consecutively. */
  lemma {:induction false} CorrectedRunIsConsecutive(run: seq<Entry>)
    requires Fires(run)
    ensures var r := CorrectRun(run);
            && (forall i :: 0 <= i < |r| ==> r[i].Tuple? && r[i].id.id == CommonSeries(run).value && r[i].id.season == CommonSeason(run))
            && (forall i, j :: 0 <= i <= j < |r| ==>
                  EpisodeNumber(r[i]).Some? && EpisodeNumber(r[j]).Some?
                  && EpisodeNumber(r[j]).value - EpisodeNumber(r[i]).value == j - i)
  {
    var cs, season, start := CommonSeries(run).value, CommonSeason(run), RunStart(run);
    RunOfIsConsecutive(cs, season, start, |run|);
    assert CorrectRun(run) == RunOf(cs, season, start, |run|);
  }

  lemma RunOfIsConsecutive(id: string, season: Option<JsNumber>, start: int, n: nat)
    ensures var r := RunOf(id, season, start, n);
            && (forall i :: 0 <= i < n ==> r[i].Tuple? && r[i].id.id == id && r[i].id.season == season)
            && (forall i, j :: 0 <= i <= j < n ==>
                  EpisodeNumber(r[i]).Some? && EpisodeNumber(r[j]).Some?
                  && EpisodeNumber(r[j]).value - EpisodeNumber(r[i]).value == j - i)
  {
  }

  /** Both anchors keep the episode numbers they were resolved with. */
  lemma {:induction false} CorrectionKeepsAnchors(run: seq<Entry>)
    requires Fires(run)
    ensures var f, l := FirstTuple(run).value, LastTuple(run).value;
            && EpisodeNumber(CorrectRun(run)[f]) == EpisodeNumber(run[f])
            && EpisodeNumber(CorrectRun(run)[l]) == EpisodeNumber(run[l])
  {
    var f, l := FirstTuple(run).value, LastTuple(run).value;
    var start := RunStart(run);
    assert Anchored(run);
    var cs, season := CommonSeries(run).value, CommonSeason(run);
    RunOfNumbers(cs, season, start, |run|, f, EpisodeNumber(run[f]).value);
    RunOfNumbers(cs, season, start, |run|, l, EpisodeNumber(run[l]).value);
  }

  lemma RunOfNumbers(id: string, season: Option<JsNumber>, start: int, n: nat, k: nat, x: int)
    requires k < n && x == start + k
    ensures EpisodeNumber(RunOf(id, season, start, n)[k]) == Some(x)
  {
  }

  lemma RunOfAnchors(id: string, season: Option<JsNumber>, start: int, n: nat)
    requires n > 0
    ensures FirstTuple(RunOf(id, season, start, n)) == Some(0)
    ensures LastTuple(RunOf(id, season, start, n)) == Some(n - 1)
    ensures FirstOfSeries(RunOf(id, season, start, n), id) == Some(0)
  {
  }

  lemma RunOfCommonSeries(id: string, season: Option<JsNumber>, start: int, n: nat)
    requires n > 0
    ensures CommonSeries(RunOf(id, season, start, n)) == Some(id)
  {
    var r := RunOf(id, season, start, n);
    SeriesIdsAllSame(r, id);
    var ids := SeriesIds(r);
    assert ids[MostCommonUpTo(ids, |ids|)] == id;
  }

  /** A non-empty consecutive run of a non-empty series id is left as it is by the correction. */
  lemma CorrectRunOfRun(id: string, season: Option<JsNumber>, start: int, n: nat)
    requires n > 0 && id != ""
    ensures CorrectRun(RunOf(id, season, start, n)) == RunOf(id, season, start, n)
  {
    var r := RunOf(id, season, start, n);
    RunOfAnchors(id, season, start, n);
    RunOfCommonSeries(id, season, start, n);
    assert EpisodeNumber(r[0]) == Some(start);
    assert EpisodeNumber(r[n - 1]) == Some(start + n - 1);
    assert Anchored(r);
    assert Fires(r);
    assert CommonSeason(r) == season;
    assert RunStart(r) == start;
  }

  /** Correcting a corrected run changes nothing. */
  lemma CorrectRunIdempotent(run: seq<Entry>)
    ensures CorrectRun(CorrectRun(run)) == CorrectRun(run)
  {
    if Fires(run) {
      CorrectRunOfRun(CommonSeries(run).value, CommonSeason(run), RunStart(run), |run|);
    }
  }

  lemma {:induction false} SeriesIdsAllSame(run: seq<Entry>, id: string)
    requires forall i :: 0 <= i < |run| ==> run[i].Tuple? && run[i].id.id == id
    ensures SeriesIds(run) == seq(|run|, i => id)
    decreases |run|
  {
    if |run| > 0 {
      SeriesIdsAllSame(run[1..], id);
    }
  }

  /** A season resolved as 10, nothing, 3 of another series, a cache hit, 14. */
  const ExampleRun: seq<Entry> := [
    Tuple(ImdbId("tt1", Some(Finite(1)), Some(Finite(10)))),
    Unresolved,
    Tuple(ImdbId("tt2", Some(Finite(1)), Some(Finite(3)))),
    Hit(DbResult("e:7:1:4", "tt1:1:13")),
    Tuple(ImdbId("tt1", Some(Finite(1)), Some(Finite(14))))]

  lemma ExampleRunCommonSeries()
    ensures CommonSeries(ExampleRun) == Some("tt1")
  {
    var run := ExampleRun;
    assert run[1..][1..][1..][1..][1..] == [];
    assert SeriesIds(run[1..][1..][1..][1..]) == ["tt1"];
    assert SeriesIds(run[1..][1..][1..]) == ["tt1"];
    assert SeriesIds(run[1..][1..]) == ["tt2", "tt1"];
    assert SeriesIds(run[1..]) == ["tt2", "tt1"];
    var ids := SeriesIds(run);
    assert ids == ["tt1", "tt2", "tt1"];
    assert multiset(ids)["tt1"] == 2;
    assert multiset(ids)["tt2"] == 1;
  }

  lemma ExampleRunAnchors()
    ensures FirstTuple(ExampleRun) == Some(0)
    ensures LastTuple(ExampleRun) == Some(4)
    ensures FirstOfSeries(ExampleRun, "tt1") == Some(0)
  {
  }

  /**
   * The anchors 10 and 14 are four slots apart, so the season becomes
   * episodes 10 to 14 of the more frequent series, in its first slot's season.
   */
  lemma CorrectionExample()
    ensures CorrectRun(ExampleRun) == RunOf("tt1", Some(Finite(1)), 10, 5)
  {
    ExampleRunAnchors();
    ExampleRunCommonSeries();
    var run := ExampleRun;
    assert EpisodeNumber(run[0]) == Some(10);
    assert EpisodeNumber(run[4]) == Some(14);
    assert Fires(run);
    assert CommonSeason(run) == Some(Finite(1));
    assert RunStart(run) == 10;
  }

  /** Among equally frequent series the one resolved last wins: tt1, tt2 becomes tt2. */
  lemma TieGoesToLatest()
    ensures var run := [Tuple(ImdbId("tt1", None, Some(Finite(1)))), Tuple(ImdbId("tt2", None, Some(Finite(2))))];
            CommonSeries(run) == Some("tt2")
  {
    var run := [Tuple(ImdbId("tt1", None, Some(Finite(1)))), Tuple(ImdbId("tt2", None, Some(Finite(2))))];
    assert run[1..][1..] == [];
    assert SeriesIds(run) == ["tt1", "tt2"];
    assert multiset(["tt1", "tt2"])["tt1"] == 1;
    assert multiset(["tt1", "tt2"])["tt2"] == 1;
  }
}

=== FILE: scoring.dfy ===
/**
 * The text-search match of `getTitleFromTmdbData` (src/imdb.ts): title
 * variants, the confidence score of each graph candidate, and the choice of
 * the winner (highest score, then most votes, then search order).
 */
module Scoring {
  import opened Wrappers
  import opened Strings
  import opened Ids
  import opened Graph
  import opened Normalize

  /** A `Title` entity of the search results, with the fields the score reads. */
  datatype Candidate = Candidate(
    id: string,
    runtimeSeconds: Option<int>,
    titleText: Option<string>,
    originalTitle: Option<string>,
    akas: seq<string>,
    voteCount: Option<int>,
    series: Option<SeriesLink>)

  /** One search hit: a title, or an entity of another kind (name, company, ...). */
  datatype SearchEntity = TitleEntity(title: Candidate) | OtherEntity

  /**
   * What the catalog knows about the item being matched. `runtime` is in
   * minutes; the catalog sends null for unknown episode runtimes, which
   * arithmetic treats as 0.
   */
  datatype CatalogItem = CatalogItem(name: string, airDate: Option<int>, overview: Option<string>, runtime: Option<int>)

  /** A candidate with a non-empty display title; all others score 0. */
  predicate Titled(c: Candidate) {
    c.titleText.Some? && c.titleText.value != ""
  }

  /** The graph shows the candidate in the "unknown" season. */
  predicate InUnknownSeason(c: Candidate) {
    c.series.Some? && c.series.value.display.season == Unknown
  }

  lemma OccursAtShift(s: string, t: string, j: int)
    requires |s| > 0 && 1 <= j
    ensures OccursAt(s, t, j) <==> OccursAt(s[1..], t, j - 1)
  {
    if j <= |s| - |t| {
      assert s[j..j + |t|] == s[1..][j - 1..j - 1 + |t|];
    }
  }

  /** The first position where `t` occurs in `s`. */
  function FirstOccurrence(s: string, t: string): (r: Option<nat>)
    ensures r.Some? ==> OccursAt(s, t, r.value)
    ensures r.Some? ==> forall j :: 0 <= j < r.value ==> !OccursAt(s, t, j)
    ensures r.None? ==> forall j :: !OccursAt(s, t, j)
    decreases |s|
  {
    if |t| > |s| then None
    else if s[..|t|] == t then Some(0)
    else
      var rest := FirstOccurrence(s[1..], t);
      assert forall j :: 1 <= j ==> (OccursAt(s, t, j) <==> OccursAt(s[1..], t, j - 1)) by {
        forall j | 1 <= j ensures OccursAt(s, t, j) <==> OccursAt(s[1..], t, j - 1) {
          OccursAtShift(s, t, j);
        }
      }
      match rest
      case None => None
      case Some(k) => Some(k + 1)
  }

  const EpisodeSeparator := ": "

  /**
   * `text.split(": ")` without its first piece, joined again with ": ":
   * everything after the first separator, or "" when there is none.
   */
  function AfterSeparator(text: string): (r: string)
    ensures FirstOccurrence(text, EpisodeSeparator).None? ==> r == ""
    ensures FirstOccurrence(text, EpisodeSeparator).Some? ==>
              r == text[FirstOccurrence(text, EpisodeSeparator).value + |EpisodeSeparator|..]
  {
    match FirstOccurrence(text, EpisodeSeparator)
    case None => ""
    case Some(i) => text[i + |EpisodeSeparator|..]
  }

  /** `akas.flatMap(a => a.text || [])`: the alternative titles, empty ones dropped. */
  function NonEmpty(texts: seq<string>): (r: seq<string>)
    ensures forall t :: t in r <==> t in texts && t != ""
    ensures |r| <= |texts|
  {
    if |texts| == 0 then []
    else
      assert forall t :: t in texts <==> t == texts[0] || t in texts[1..];
      (if texts[0] == "" then [] else [texts[0]]) + NonEmpty(texts[1..])
  }

  /**
   * The title set of a candidate: its display title, its original title (or
   * ""), its non-empty alternative titles, and for an episode in the "unknown"
   * season the display title after its first ": ".
   */
  function Variants(c: Candidate): (vs: seq<string>)
    requires Titled(c)
    ensures c.titleText.value in vs
    ensures c.originalTitle.GetOr("") in vs
    ensures forall a :: a in c.akas && a != "" ==> a in vs
    ensures InUnknownSeason(c) ==> AfterSeparator(c.titleText.value) in vs
    ensures forall v :: v in vs ==>
              || v == c.titleText.value
              || v == c.originalTitle.GetOr("")
              || (v in c.akas && v != "")
              || (InUnknownSeason(c) && v == AfterSeparator(c.titleText.value))
  {
    [c.titleText.value, c.originalTitle.GetOr("")]
      + NonEmpty(c.akas)
      + (if InUnknownSeason(c) then [AfterSeparator(c.titleText.value)] else [])
  }

  /** The partial-match test: either cleaned string contains the other. */
  predicate Overlaps(cc: CharClass, variant: string, query: string) {
    var cleaned := Clean(cc, variant);
    Contains(cleaned, query) || Contains(query, cleaned)
  }

  /** Some variant normalises to exactly the query. */
  predicate ExactVariant(cc: CharClass, query: string, variants: seq<string>) {
    exists i :: 0 <= i < |variants| && Normalized(cc, variants[i]) == query
  }

  /** Some normalised variant overlaps the query. */
  predicate OverlapVariant(cc: CharClass, query: string, variants: seq<string>) {
    exists i :: 0 <= i < |variants| && Overlaps(cc, Normalized(cc, variants[i]), query)
  }

  function NormalizedAll(cc: CharClass, variants: seq<string>): (all: seq<string>)
    ensures |all| == |variants|
    ensures forall i :: 0 <= i < |variants| ==> all[i] == Normalized(cc, variants[i])
  {
    seq(|variants|, i requires 0 <= i < |variants| => Normalized(cc, variants[i]))
  }

  /** `all.some(t => overlaps)`, scanned left to right. */
  function AnyOverlap(cc: CharClass, all: seq<string>, query: string): (b: bool)
    ensures b <==> exists i :: 0 <= i < |all| && Overlaps(cc, all[i], query)
  {
    if |all| == 0 then false
    else
      assert forall i :: 1 <= i < |all| ==> all[i] == all[1..][i - 1];
      Overlaps(cc, all[0], query) || AnyOverlap(cc, all[1..], query)
  }

  /** The title part of the score: 10 for an exact match, else 5 for a partial one, else 0. */
  function TitleBonus(cc: CharClass, query: string, variants: seq<string>): (b: nat)
    ensures ExactVariant(cc, query, variants) ==> b == 10
    ensures !ExactVariant(cc, query, variants) && OverlapVariant(cc, query, variants) ==> b == 5
    ensures !ExactVariant(cc, query, variants) && !OverlapVariant(cc, query, variants) ==> b == 0
  {
    var all := NormalizedAll(cc, variants);
    if query in all then 10
    else if AnyOverlap(cc, all, query) then 5
    else 0
  }

  /** `Math.round(seconds / 60)`: whole minutes, halves rounded up. */
  function RoundMinutes(seconds: int): (m: int)
    ensures 60 * m - 30 <= seconds < 60 * m + 30
  {
    (seconds + 30) / 60
  }

  function Abs(x: int): nat {
    if x < 0 then -x else x
  }

  /**
   * The runtime part of the score, from the catalog runtime in minutes and the
   * graph runtime in seconds (missing graph runtimes count as 0): 10 when the
   * rounded minutes are within 1 of the catalog's, 5 within 4, else 0.
   */
  function RuntimeBonus(minutes: Option<int>, seconds: Option<int>): (b: nat)
    ensures var r, s := minutes.GetOr(0), seconds.GetOr(0);
            && (b == 10 <==> 60 * r - 90 <= s < 60 * r + 90)
            && (b == 5 <==> (60 * r - 270 <= s < 60 * r - 90 || 60 * r + 90 <= s < 60 * r + 270))
            && (b == 0 <==> (s < 60 * r - 270 || 60 * r + 270 <= s))
  {
    var difference := Abs(minutes.GetOr(0) - RoundMinutes(seconds.GetOr(0)));
    if difference < 2 then 10
    else if difference < 5 then 5
    else 0
  }

  /** The confidence of one candidate against the item's normalised query title. */
  function Confidence(cc: CharClass, item: CatalogItem, c: Candidate): (score: nat)
    ensures score in {0, 5, 10, 15, 20}
    ensures !Titled(c) ==> score == 0
    ensures Titled(c) ==>
              score == TitleBonus(cc, QueryTitle(cc, item.name, item.overview), Variants(c))
                       + RuntimeBonus(item.runtime, c.runtimeSeconds)
  {
    if !Titled(c) then 0
    else TitleBonus(cc, QueryTitle(cc, item.name, item.overview), Variants(c))
         + RuntimeBonus(item.runtime, c.runtimeSeconds)
  }

  /** The top score 20 is reached exactly by an exact title match with a runtime within a minute. */
  lemma ConfidenceTwenty(cc: CharClass, item: CatalogItem, c: Candidate)
    ensures Confidence(cc, item, c) == 20 <==>
              && Titled(c)
              && ExactVariant(cc, QueryTitle(cc, item.name, item.overview), Variants(c))
              && RuntimeBonus(item.runtime, c.runtimeSeconds) == 10
  {
  }

  /** A partial title match with a runtime off by 5 minutes or more scores 5. */
  lemma PartialTitleFarRuntimeScoresFive(cc: CharClass, item: CatalogItem, c: Candidate)
    requires Titled(c)
    requires !ExactVariant(cc, QueryTitle(cc, item.name, item.overview), Variants(c))
    requires OverlapVariant(cc, QueryTitle(cc, item.name, item.overview), Variants(c))
    requires RuntimeBonus(item.runtime, c.runtimeSeconds) == 0
    ensures Confidence(cc, item, c) == 5
  {
  }

  lemma ContainsEmpty(s: string)
    ensures Contains(s, "")
  {
    assert OccursAt(s, "", 0);
    ContainsAt(s, "");
  }

  /**
   * A titled candidate without an original title carries the variant "",
   * which is contained in every query, so it always earns at least the
   * partial title bonus.
   */
  lemma MissingOriginalTitleEarnsPartialBonus(cc: CharClass, item: CatalogItem, c: Candidate)
    requires Titled(c)
    requires c.originalTitle.None?
    ensures Confidence(cc, item, c) >= 5
  {
    var query := QueryTitle(cc, item.name, item.overview);
    var vs := Variants(c);
    assert vs[1] == "";
    assert Normalized(cc, "") == "";
    ContainsEmpty(query);
    assert Overlaps(cc, Normalized(cc, vs[1]), query);
  }

  /** The `Title` entities among the search hits, in search order. */
  function Titles(hits: seq<SearchEntity>): (ts: seq<Candidate>)
    ensures |ts| <= |hits|
    ensures forall c :: c in ts <==> TitleEntity(c) in hits
  {
    if |hits| == 0 then []
    else
      assert forall e :: e in hits <==> e == hits[0] || e in hits[1..];
      match hits[0]
      case TitleEntity(c) => [c] + Titles(hits[1..])
      case OtherEntity => Titles(hits[1..])
  }

  function Scores(cc: CharClass, item: CatalogItem, ts: seq<Candidate>): (scores: seq<nat>)
    ensures |scores| == |ts|
    ensures forall i :: 0 <= i < |ts| ==> scores[i] == Confidence(cc, item, ts[i])
  {
    seq(|ts|, i requires 0 <= i < |ts| => Confidence(cc, item, ts[i]))
  }

  function Votes(c: Candidate): int {
    c.voteCount.GetOr(0)
  }

  /**
   * The candidate a stable sort by descending votes puts first among the
   * top-scoring ones: top score, the most votes among those, and the earliest
   * in search order among equals.
   */
  predicate IsWinner(ts: seq<Candidate>, scores: seq<nat>, w: int) {
    && |scores| == |ts|
    && 0 <= w < |ts|
    && (forall j :: 0 <= j < |ts| ==> scores[j] <= scores[w])
    && (forall j :: 0 <= j < |ts| && scores[j] == scores[w] ==> Votes(ts[j]) <= Votes(ts[w]))
    && (forall j :: 0 <= j < w && scores[j] == scores[w] ==> Votes(ts[j]) < Votes(ts[w]))
  }

  /** The winner among the first `n` candidates, found in one left-to-right pass. */
  function Leader(ts: seq<Candidate>, scores: seq<nat>, n: nat): (w: nat)
    requires |scores| == |ts|
    requires 0 < n <= |ts|
    ensures IsWinner(ts[..n], scores[..n], w)
  {
    if n == 1 then 0
    else
      var w' := Leader(ts, scores, n - 1);
      assert IsWinner(ts[..n - 1], scores[..n - 1], w');
      var k := n - 1;
      if scores[k] > scores[w'] || (scores[k] == scores[w'] && Votes(ts[k]) > Votes(ts[w'])) then k
      else w'
  }

  /** The winner is well defined: at most one candidate meets the rule. */
  lemma WinnerUnique(ts: seq<Candidate>, scores: seq<nat>, w1: int, w2: int)
    requires IsWinner(ts, scores, w1) && IsWinner(ts, scores, w2)
    ensures w1 == w2
  {
    // Both top the scores, so they tie; then each has at least the other's
    // votes, and the strict rule for earlier positions leaves no room.
    assert scores[w1] == scores[w2];
    assert Votes(ts[w1]) == Votes(ts[w2]);
  }

  /** The winning position, or nothing when there are no candidates or all score 0. */
  function Winner(ts: seq<Candidate>, scores: seq<nat>): (w: Option<nat>)
    requires |scores| == |ts|
    ensures w.None? <==> forall i :: 0 <= i < |ts| ==> scores[i] == 0
    ensures w.Some? ==> IsWinner(ts, scores, w.value) && scores[w.value] > 0
  {
    if |ts| == 0 then None
    else
      var l := Leader(ts, scores, |ts|);
      assert ts[..|ts|] == ts && scores[..|ts|] == scores;
      if scores[l] == 0 then None else Some(l)
  }

  /**
   * `getTitleFromTmdbData` after the search: `hits` is what the search
   * returned (nothing when the query failed). No hits, no titles, or a top
   * score of 0 give nothing; otherwise the winner's identifier is shaped as
   * `getTitleFromId` shapes one.
   */
  function TitleFromSearch(cc: CharClass, item: CatalogItem, hits: Option<seq<SearchEntity>>): (r: Option<ImdbId>)
    ensures hits.None? ==> r.None?
    ensures hits.Some? ==>
              var ts := Titles(hits.value);
              var w := Winner(ts, Scores(cc, item, ts));
              && (w.None? ==> r.None?)
              && (w.Some? ==> r == ShapeMatch(ts[w.value].id, ts[w.value].series))
  {
    match hits
    case None => None
    case Some(hs) =>
      var ts := Titles(hs);
      match Winner(ts, Scores(cc, item, ts))
      case None => None
      case Some(w) => ShapeMatch(ts[w].id, ts[w].series)
  }

  /**
   * When some candidate scores above 0 and is not an episode of an unplaced
   * season, the search resolves to the winner: the bare id of a title, or the
   * series id with the displayed season and episode numbers.
   */
  lemma SearchResolvesPlacedWinner(cc: CharClass, item: CatalogItem, hits: seq<SearchEntity>, w: nat)
    requires IsWinner(Titles(hits), Scores(cc, item, Titles(hits)), w)
    requires Scores(cc, item, Titles(hits))[w] > 0
    requires var c := Titles(hits)[w]; c.series.None? || c.series.value.display.season != Unknown
    ensures var c := Titles(hits)[w];
            TitleFromSearch(cc, item, Some(hits)) == ShapeMatch(c.id, c.series)
  {
    var ts := Titles(hits);
    var scores := Scores(cc, item, ts);
    WinnerUnique(ts, scores, Winner(ts, scores).value, w);
  }
}

=== FILE: seasons.dfy ===
/**
 * `getSeasonFromTmdb` (src/api/tmdb.ts): one season resolved slot by slot,
 * cache first, then run-corrected and, when asked to, written back to the
 * cache.
 */
module Seasons {
  import opened Wrappers
  import opened Ids
  import opened Cache
  import opened Graph
  import opened Catalog
  import opened Episodes
  import opened Runs

  /** The season details: the ones given, or the ones fetched. */
  function SeasonDetails(svc: Services, series: nat, season: nat, given: Option<TmdbSeason>): (d: Option<TmdbSeason>)
    ensures given.Some? ==> d == given
    ensures given.None? ==> d == svc.season(series, season)
  {
    if given.Some? then given else svc.season(series, season)
  }

  /** The cache key of every episode of a season, by its catalog episode number. */
  function EpisodeKeys(series: nat, season: nat, episodes: seq<TmdbEpisode>): (keys: seq<TmdbKey>)
    ensures |keys| == |episodes|
    ensures forall i :: 0 <= i < |episodes| ==> keys[i] == TmdbKey(series, season, episodes[i].number)
  {
    seq(|episodes|, i requires 0 <= i < |episodes| => TmdbKey(series, season, episodes[i].number))
  }

  /** The air dates the season lookup checks staleness against. */
  function AirDates(episodes: seq<TmdbEpisode>): (dates: seq<Option<int>>)
    ensures |dates| == |episodes|
    ensures forall i :: 0 <= i < |episodes| ==> dates[i] == episodes[i].airDate
  {
    seq(|episodes|, i requires 0 <= i < |episodes| => episodes[i].airDate)
  }

  /** A stored identifier string as an identifier with no numbers. */
  function BareId(s: string): (x: ImdbId)
    ensures x.season.None? && x.episode.None?
    ensures RenderImdbId(x) == s
  {
    var x := ImdbId(s, None, None);
    assert ImdbSegments(x)[1..][1..][1..] == [];
    assert Rendered(ImdbSegments(x)[1..]) == [];
    x
  }

  /** The placeholder renders as the empty string. */
  lemma PlaceholderIsEmpty()
    ensures RenderImdbId(Placeholder) == ""
  {
    assert RenderImdbId(Placeholder) == RenderImdbId(BareId(""));
  }

  /**
   * What a slot is written back as: a resolved identifier as it is, a cache
   * hit as the identifier it already holds, nothing as the placeholder.
   */
  function StoredIdentifier(e: Entry): (x: ImdbId)
    ensures e.Tuple? ==> x == e.id
    ensures e.Hit? ==> RenderImdbId(x) == e.result.imdb
    ensures e.Unresolved? ==> RenderImdbId(x) == ""
  {
    match e
    case Tuple(id) => id
    case Hit(result) => BareId(result.imdb)
    case Unresolved => PlaceholderIsEmpty(); Placeholder
  }

  /**
   * The write-back rule as the source states it: every slot that is not a
   * resolved identifier, cache hits included, is written as the placeholder.
   */
  function StoredIdentifierAsWritten(e: Entry): (x: ImdbId)
    ensures e.Tuple? ==> x == e.id
    ensures !e.Tuple? ==> RenderImdbId(x) == ""
  {
    PlaceholderIsEmpty();
    if e.Tuple? then e.id else Placeholder
  }

  /** The two rules differ exactly on cache hits that hold a non-empty identifier. */
  lemma StoredIdentifierRulesDiffer(e: Entry)
    ensures RenderImdbId(StoredIdentifier(e)) != RenderImdbId(StoredIdentifierAsWritten(e))
        <==> e.Hit? && e.result.imdb != ""
  {
  }

  /** `dbMatch[idx] || getEpisodeFromTmdb(...)`: the cached result, else the resolver's. */
  function SeasonSlots(how: Extraction, svc: Services, now: int, series: nat, season: nat, episodes: seq<TmdbEpisode>,
                       hits: seq<Option<DbResult>>, details: Option<TmdbSeries>, graph: Option<ImdbSeries>): (slots: seq<Entry>)
    requires |hits| == |episodes|
    ensures |slots| == |episodes|
    ensures forall i :: 0 <= i < |episodes| ==> (slots[i].Hit? <==> hits[i].Some?)
    ensures forall i :: 0 <= i < |episodes| && hits[i].Some? ==> slots[i] == Hit(hits[i].value)
    ensures forall i :: 0 <= i < |episodes| && hits[i].None? ==>
              slots[i] == FromResolution(ResolveEpisode(how, svc, now, series, season, episodes[i].number, details, graph))
  {
    seq(|episodes|, i requires 0 <= i < |episodes| =>
      if hits[i].Some? then Hit(hits[i].value)
      else FromResolution(ResolveEpisode(how, svc, now, series, season, episodes[i].number, details, graph)))
  }

  /** The cached results of a season's episodes, stale ones read as misses. */
  function SeasonHits(store: Store, series: nat, season: nat, episodes: seq<TmdbEpisode>): (hits: seq<Option<DbResult>>)
    ensures |hits| == |episodes|
    ensures forall i :: 0 <= i < |episodes| ==>
              hits[i] == LookupAt(store, Episode, TmdbKey(series, season, episodes[i].number), episodes[i].airDate)
  {
    LookupMany(store, Episode, EpisodeKeys(series, season, episodes), AirDates(episodes))
  }

  /** The slots of a season before any write: looked up, resolved, run-corrected. */
  function ResolvedSeason(how: Extraction, svc: Services, now: int, store: Store, series: nat, season: nat, episodes: seq<TmdbEpisode>,
                          details: Option<TmdbSeries>, graph: Option<ImdbSeries>): (slots: seq<Entry>)
    ensures |slots| == |episodes|
  {
    var ctx := MatchContext(svc, series, details, graph);
    CorrectRun(SeasonSlots(how, svc, now, series, season, episodes, SeasonHits(store, series, season, episodes), ctx.0, ctx.1))
  }

  /** A season whose every episode is cached and fresh comes back as its cached results. */
  lemma {:induction false} CachedSeasonIsHits(how: Extraction, svc: Services, now: int, store: Store, series: nat, season: nat, episodes: seq<TmdbEpisode>,
                           details: Option<TmdbSeries>, graph: Option<ImdbSeries>)
    requires forall i :: 0 <= i < |episodes| ==>
               LookupAt(store, Episode, TmdbKey(series, season, episodes[i].number), episodes[i].airDate).Some?
    ensures forall i :: 0 <= i < |episodes| ==>
              ResolvedSeason(how, svc, now, store, series, season, episodes, details, graph)[i]
              == Hit(LookupAt(store, Episode, TmdbKey(series, season, episodes[i].number), episodes[i].airDate).value)
  {
    var ctx := MatchContext(svc, series, details, graph);
    var slots := SeasonSlots(how, svc, now, series, season, episodes, SeasonHits(store, series, season, episodes), ctx.0, ctx.1);
    assert FirstTuple(slots).None?;
  }

  /** One write per slot, keyed like the lookup, each holding what `stored` makes of the slot. */
  function SeasonUpserts(stored: Entry -> ImdbId, keys: seq<TmdbKey>, slots: seq<Entry>): (data: seq<Upsert>)
    requires |keys| == |slots|
    ensures |data| == |keys|
    ensures forall i :: 0 <= i < |keys| ==> data[i] == Upsert(keys[i], stored(slots[i]))
  {
    seq(|keys|, i requires 0 <= i < |keys| => Upsert(keys[i], stored(slots[i])))
  }

  /** Resolved slots replaced by what the write reports for them; the others kept. */
  function Substitute(slots: seq<Entry>, written: seq<Option<DbResult>>): (r: seq<Entry>)
    requires |written| == |slots|
    ensures |r| == |slots|
    ensures forall i :: 0 <= i < |slots| && !slots[i].Tuple? ==> r[i] == slots[i]
    ensures forall i :: 0 <= i < |slots| && slots[i].Tuple? ==> r[i] == FromResult(written[i])
  {
    seq(|slots|, i requires 0 <= i < |slots| => if slots[i].Tuple? then FromResult(written[i]) else slots[i])
  }

  /** The last slot whose key is the key of slot `i`. */
  function LastIndex(keys: seq<TmdbKey>, i: nat): (j: nat)
    requires i < |keys|
    ensures i <= j < |keys| && keys[j] == keys[i]
    ensures forall k :: j < k < |keys| ==> keys[k] != keys[i]
  {
    if keys[|keys| - 1] == keys[i] then |keys| - 1 else LastIndex(keys[..|keys| - 1], i)
  }

  /** The record the key of slot `i` holds after a season write: that of the last slot with the same key. */
  function WrittenRecord(stored: Entry -> ImdbId, keys: seq<TmdbKey>, slots: seq<Entry>, now: int, i: nat): Record
    requires |keys| == |slots| && i < |keys|
  {
    NewRecord(Episode, Upsert(keys[i], stored(slots[LastIndex(keys, i)])), now)
  }

  /** Every key of a season holds the record of its last write at `now`. */
  predicate Landed(stored: Entry -> ImdbId, after: Store, keys: seq<TmdbKey>, slots: seq<Entry>, now: int)
    requires |keys| == |slots|
  {
    forall i :: 0 <= i < |keys| ==> Get(after, DocumentId(Episode, keys[i])) == Some(WrittenRecord(stored, keys, slots, now, i))
  }

  /** The record a season write leaves under one of its keys: that of the last write to the key. */
  lemma SeasonWriteLands(stored: Entry -> ImdbId, store: Store, keys: seq<TmdbKey>, slots: seq<Entry>, now: int, i: nat)
    requires |keys| == |slots| && i < |keys|
    ensures Get(UpsertMany(store, Episode, SeasonUpserts(stored, keys, slots), now).store, DocumentId(Episode, keys[i]))
         == Some(WrittenRecord(stored, keys, slots, now, i))
  {
    var data := SeasonUpserts(stored, keys, slots);
    var id := DocumentId(Episode, keys[i]);
    assert DocumentId(Episode, data[i].key) == id;
    var j := LastWrite(Episode, data, id).value;
    DocumentIdInjective(Episode, keys[j], Episode, keys[i]);
    assert j == LastIndex(keys, i);
  }

  /** A season write touches no document outside the season's keys. */
  lemma SeasonWriteConfined(stored: Entry -> ImdbId, store: Store, keys: seq<TmdbKey>, slots: seq<Entry>, now: int, id: string)
    requires |keys| == |slots|
    requires id !in DocumentIds(Episode, keys)
    ensures Get(UpsertMany(store, Episode, SeasonUpserts(stored, keys, slots), now).store, id) == Get(store, id)
  {
    var data := SeasonUpserts(stored, keys, slots);
    assert forall k :: 0 <= k < |data| ==> DocumentId(Episode, data[k].key) != id;
    assert LastWrite(Episode, data, id).None?;
  }

  /**
   * The write-back of a season: every slot is written under its key at
   * `now`, and every resolved slot is replaced by the cache result now under
   * its key. Each key ends up holding the record of its last write; other
   * documents are untouched.
   */
  function WriteBack(stored: Entry -> ImdbId, store: Store, keys: seq<TmdbKey>, slots: seq<Entry>, now: int): (w: Written<seq<Entry>>)
    requires |keys| == |slots|
    ensures |w.result| == |slots|
    ensures forall i :: 0 <= i < |slots| && !slots[i].Tuple? ==> w.result[i] == slots[i]
    ensures forall i :: 0 <= i < |slots| && slots[i].Tuple? ==>
              w.result[i] == FromResult(LookupOne(w.store, Episode, keys[i])) && w.result[i].Hit?
    ensures forall id :: id !in DocumentIds(Episode, keys) ==> Get(w.store, id) == Get(store, id)
    ensures Landed(stored, w.store, keys, slots, now)
  {
    var data := SeasonUpserts(stored, keys, slots);
    var w := UpsertMany(store, Episode, data, now);
    forall i | 0 <= i < |keys|
      ensures Get(w.store, DocumentId(Episode, keys[i])) == Some(WrittenRecord(stored, keys, slots, now, i))
    {
      SeasonWriteLands(stored, store, keys, slots, now, i);
    }
    forall id | id !in DocumentIds(Episode, keys)
      ensures Get(w.store, id) == Get(store, id)
    {
      SeasonWriteConfined(stored, store, keys, slots, now, id);
    }
    Written(Substitute(slots, w.result), w.store)
  }

  /** The end of the season operation: the slots as they are, or written back. */
  function Assemble(stored: Entry -> ImdbId, store: Store, keys: seq<TmdbKey>, slots: seq<Entry>, now: int, addToDb: bool): (w: Written<seq<Entry>>)
    requires |keys| == |slots|
    ensures |w.result| == |slots|
    ensures !addToDb ==> w.store == store && w.result == slots
    ensures addToDb ==> w == WriteBack(stored, store, keys, slots, now)
  {
    if addToDb then WriteBack(stored, store, keys, slots, now) else Written(slots, store)
  }

  /**
   * What a season write leaves behind: every episode of the season cached
   * and written at `now`, no document outside the season changed, and no
   * slot of the result left as a bare identifier.
   */
  ghost predicate SeasonCached(before: Store, after: Store, series: nat, season: nat, episodes: seq<TmdbEpisode>,
                         result: seq<Entry>, now: int) {
    && (forall i :: 0 <= i < |episodes| ==>
          var id := DocumentId(Episode, TmdbKey(series, season, episodes[i].number));
          id in after && after[id].updatedAt == now)
    && (forall id :: id !in DocumentIds(Episode, EpisodeKeys(series, season, episodes)) ==> Get(after, id) == Get(before, id))
    && (forall i :: 0 <= i < |result| ==> !result[i].Tuple?)
  }

  /** A season write caches every episode at `now` and leaves no bare identifier in the result. */
  lemma WriteBackCaches(stored: Entry -> ImdbId, store: Store, series: nat, season: nat,
                        episodes: seq<TmdbEpisode>, slots: seq<Entry>, now: int)
    requires |slots| == |episodes|
    ensures var w := WriteBack(stored, store, EpisodeKeys(series, season, episodes), slots, now);
            SeasonCached(store, w.store, series, season, episodes, w.result, now)
  {
    var keys := EpisodeKeys(series, season, episodes);
    var w := WriteBack(stored, store, keys, slots, now);
    forall i | 0 <= i < |episodes|
      ensures DocumentId(Episode, keys[i]) in w.store && w.store[DocumentId(Episode, keys[i])].updatedAt == now
    {
      assert Get(w.store, DocumentId(Episode, keys[i])) == Some(WrittenRecord(stored, keys, slots, now, i));
    }
  }

  /**
   * The season operation with the write-back rule `stored` and the
   * extraction `how`: `SeasonFromTmdb` and its as-written form differ only
   * in these two rules.
   */
  function SeasonWith(stored: Entry -> ImdbId, how: Extraction, svc: Services, now: int, store: Store, series: nat, season: nat,
                      addToDb: bool, details: Option<TmdbSeries>, graph: Option<ImdbSeries>,
                      given: Option<TmdbSeason>): (w: Written<Option<seq<Entry>>>)
    ensures SeasonDetails(svc, series, season, given).None? ==> w.result.None? && w.store == store
    ensures SeasonDetails(svc, series, season, given).Some? ==>
              w.result.Some? && |w.result.value| == |SeasonDetails(svc, series, season, given).value.episodes|
    ensures !addToDb ==> w.store == store
    ensures addToDb && w.result.Some? ==>
              var episodes := SeasonDetails(svc, series, season, given).value.episodes;
              && SeasonCached(store, w.store, series, season, episodes, w.result.value, now)
              && Landed(stored, w.store, EpisodeKeys(series, season, episodes),
                        ResolvedSeason(how, svc, now, store, series, season, episodes, details, graph), now)
  {
    match SeasonDetails(svc, series, season, given)
    case None => Written(None, store)
    case Some(s) =>
      var slots := ResolvedSeason(how, svc, now, store, series, season, s.episodes, details, graph);
      WriteBackCaches(stored, store, series, season, s.episodes, slots, now);
      var f := Assemble(stored, store, EpisodeKeys(series, season, s.episodes), slots, now, addToDb);
      Written(Some(f.result), f.store)
  }

  /**
   * `getSeasonFromTmdb`, with hits written back as the identifiers they hold.
   * A season that cannot be had yields nothing and changes nothing; without
   * `addToDb` the cache is untouched; with it, every episode of the season is
   * cached afterwards, written at `now`, no other document changes, and no
   * slot is left as a bare identifier.
   */
  function SeasonFromTmdb(svc: Services, now: int, store: Store, series: nat, season: nat,
                          addToDb: bool, details: Option<TmdbSeries>, graph: Option<ImdbSeries>,
                          given: Option<TmdbSeason>): (w: Written<Option<seq<Entry>>>)
    ensures SeasonDetails(svc, series, season, given).None? ==> w.result.None? && w.store == store
    ensures SeasonDetails(svc, series, season, given).Some? ==>
              w.result.Some? && |w.result.value| == |SeasonDetails(svc, series, season, given).value.episodes|
    ensures !addToDb ==> w.store == store
    ensures addToDb && w.result.Some? ==>
              SeasonCached(store, w.store, series, season, SeasonDetails(svc, series, season, given).value.episodes, w.result.value, now)
  {
    SeasonWith(StoredIdentifier, AgainstList, svc, now, store, series, season, addToDb, details, graph, given)
  }

  /**
   * `getSeasonFromTmdb` as the source has it: positional matches are
   * extracted against the episodes wrapper, and cache hits are written back
   * as the placeholder. The promises of the corrected form hold of it too.
   */
  function SeasonFromTmdbAsWritten(svc: Services, now: int, store: Store, series: nat, season: nat,
                                   addToDb: bool, details: Option<TmdbSeries>, graph: Option<ImdbSeries>,
                                   given: Option<TmdbSeason>): (w: Written<Option<seq<Entry>>>)
    ensures SeasonDetails(svc, series, season, given).None? ==> w.result.None? && w.store == store
    ensures SeasonDetails(svc, series, season, given).Some? ==>
              w.result.Some? && |w.result.value| == |SeasonDetails(svc, series, season, given).value.episodes|
    ensures !addToDb ==> w.store == store
    ensures addToDb && w.result.Some? ==>
              SeasonCached(store, w.store, series, season, SeasonDetails(svc, series, season, given).value.episodes, w.result.value, now)
  {
    SeasonWith(StoredIdentifierAsWritten, AgainstWrapper, svc, now, store, series, season, addToDb, details, graph, given)
  }

  /** The two extractions give the same season slots unless the series lists a node in the "unknown" season. */
  lemma {:induction false} ResolvedSeasonExtractionsAgree(svc: Services, now: int, store: Store, series: nat, season: nat, episodes: seq<TmdbEpisode>,
                                       details: Option<TmdbSeries>, graph: Option<ImdbSeries>)
    requires NoUnplacedNodes(MatchContext(svc, series, details, graph).1)
    ensures ResolvedSeason(AgainstWrapper, svc, now, store, series, season, episodes, details, graph)
         == ResolvedSeason(AgainstList, svc, now, store, series, season, episodes, details, graph)
  {
    var ctx := MatchContext(svc, series, details, graph);
    var hits := SeasonHits(store, series, season, episodes);
    var asWritten := SeasonSlots(AgainstWrapper, svc, now, series, season, episodes, hits, ctx.0, ctx.1);
    var corrected := SeasonSlots(AgainstList, svc, now, series, season, episodes, hits, ctx.0, ctx.1);
    forall i | 0 <= i < |episodes|
      ensures asWritten[i] == corrected[i]
    {
      SlotExtractionsAgree(svc, now, series, season, episodes, hits, ctx.0, ctx.1, i);
    }
    assert asWritten == corrected;
  }

  /** One slot of `ResolvedSeasonExtractionsAgree`. */
  lemma SlotExtractionsAgree(svc: Services, now: int, series: nat, season: nat, episodes: seq<TmdbEpisode>,
                             hits: seq<Option<DbResult>>, details: Option<TmdbSeries>, graph: Option<ImdbSeries>, i: nat)
    requires |hits| == |episodes| && i < |episodes|
    requires NoUnplacedNodes(MatchContext(svc, series, details, graph).1)
    ensures SeasonSlots(AgainstWrapper, svc, now, series, season, episodes, hits, details, graph)[i]
         == SeasonSlots(AgainstList, svc, now, series, season, episodes, hits, details, graph)[i]
  {
    ExtractionsAgreeWithoutUnplaced(svc, now, series, season, episodes[i].number, details, graph);
  }

  /**
   * Without a write, and unless the series lists a node in the "unknown"
   * season, the source's season operation is the corrected one.
   */
  lemma {:induction false} SeasonAsWrittenAgreesWithoutWrite(svc: Services, now: int, store: Store, series: nat, season: nat,
                                                              details: Option<TmdbSeries>, graph: Option<ImdbSeries>,
                                                              given: Option<TmdbSeason>)
    requires NoUnplacedNodes(MatchContext(svc, series, details, graph).1)
    ensures SeasonFromTmdbAsWritten(svc, now, store, series, season, false, details, graph, given)
         == SeasonFromTmdb(svc, now, store, series, season, false, details, graph, given)
  {
    if SeasonDetails(svc, series, season, given).Some? {
      var episodes := SeasonDetails(svc, series, season, given).value.episodes;
      ResolvedSeasonExtractionsAgree(svc, now, store, series, season, episodes, details, graph);
    }
  }

  /**
   * Cache first: where the run correction does not fire, a slot is the
   * cached result exactly when the key is cached and fresh, and otherwise
   * what the episode resolver makes of the episode.
   */
  lemma SeasonCachePolicy(how: Extraction, svc: Services, now: int, store: Store, series: nat, season: nat, episodes: seq<TmdbEpisode>,
                          details: Option<TmdbSeries>, graph: Option<ImdbSeries>, i: nat)
    requires i < |episodes|
    requires var ctx := MatchContext(svc, series, details, graph);
             !Fires(SeasonSlots(how, svc, now, series, season, episodes, SeasonHits(store, series, season, episodes), ctx.0, ctx.1))
    ensures var slot := ResolvedSeason(how, svc, now, store, series, season, episodes, details, graph)[i];
            var hit := LookupAt(store, Episode, TmdbKey(series, season, episodes[i].number), episodes[i].airDate);
            var ctx := MatchContext(svc, series, details, graph);
            && (slot.Hit? <==> hit.Some?)
            && (hit.Some? ==> slot == Hit(hit.value))
            && (hit.None? ==> slot == FromResolution(ResolveEpisode(how, svc, now, series, season, episodes[i].number, ctx.0, ctx.1)))
  {
  }

  /** The episodes all aired before `now`, or carry no usable air date. */
  predicate AiredBefore(episodes: seq<TmdbEpisode>, now: int) {
    forall i :: 0 <= i < |episodes| ==> episodes[i].airDate.None? || episodes[i].airDate.value < now
  }

  /** After a season write at `now` of episodes aired before it, every key of the season reads as a fresh hit. */
  lemma WrittenSeasonIsCached(stored: Entry -> ImdbId, store: Store, series: nat, season: nat,
                              episodes: seq<TmdbEpisode>, slots: seq<Entry>, now: int)
    requires |slots| == |episodes|
    requires AiredBefore(episodes, now)
    requires Landed(stored, store, EpisodeKeys(series, season, episodes), slots, now)
    ensures forall i :: 0 <= i < |episodes| ==>
              LookupAt(store, Episode, TmdbKey(series, season, episodes[i].number), episodes[i].airDate)
              == Some(RecordToResult(WrittenRecord(stored, EpisodeKeys(series, season, episodes), slots, now, i)))
  {
    var keys := EpisodeKeys(series, season, episodes);
    forall i | 0 <= i < |episodes|
      ensures LookupAt(store, Episode, keys[i], episodes[i].airDate) == Some(RecordToResult(WrittenRecord(stored, keys, slots, now, i)))
    {
      assert Get(store, DocumentId(Episode, keys[i])) == Some(WrittenRecord(stored, keys, slots, now, i));
    }
  }

  /** A second pass over a season written at `now1` finds every slot as the hit of its written record. */
  lemma SecondPassIsHits(stored: Entry -> ImdbId, how: Extraction, svc: Services, now1: int, now2: int, store: Store, series: nat, season: nat,
                         episodes: seq<TmdbEpisode>, slots1: seq<Entry>, details: Option<TmdbSeries>, graph: Option<ImdbSeries>)
    requires |slots1| == |episodes|
    requires AiredBefore(episodes, now1)
    requires Landed(stored, store, EpisodeKeys(series, season, episodes), slots1, now1)
    ensures forall k :: 0 <= k < |episodes| ==>
              ResolvedSeason(how, svc, now2, store, series, season, episodes, details, graph)[k]
              == Hit(RecordToResult(WrittenRecord(stored, EpisodeKeys(series, season, episodes), slots1, now1, k)))
  {
    WrittenSeasonIsCached(stored, store, series, season, episodes, slots1, now1);
    CachedSeasonIsHits(how, svc, now2, store, series, season, episodes, details, graph);
  }

  /** Rewriting the hits of a written season with the corrected rule keeps every identifier. */
  lemma RewriteKeepsIdentifier(first: Store, second: Store, keys: seq<TmdbKey>, slots1: seq<Entry>, slots2: seq<Entry>,
                               now1: int, now2: int, i: nat)
    requires |slots1| == |keys| && |slots2| == |keys| && i < |keys|
    requires Landed(StoredIdentifier, first, keys, slots1, now1)
    requires Landed(StoredIdentifier, second, keys, slots2, now2)
    requires forall k :: 0 <= k < |keys| ==> slots2[k] == Hit(RecordToResult(WrittenRecord(StoredIdentifier, keys, slots1, now1, k)))
    ensures var id := DocumentId(Episode, keys[i]);
            id in first && id in second && second[id].imdb == first[id].imdb
  {
    var id := DocumentId(Episode, keys[i]);
    var last := LastIndex(keys, i);
    assert Get(first, id) == Some(WrittenRecord(StoredIdentifier, keys, slots1, now1, i));
    assert Get(second, id) == Some(WrittenRecord(StoredIdentifier, keys, slots2, now2, i));
    assert Get(first, id) == Some(WrittenRecord(StoredIdentifier, keys, slots1, now1, last));
  }

  /** The store-level form of the second request: the same documents, with the same identifiers. */
  lemma RewriteKeepsStore(first: Store, second: Store, keys: seq<TmdbKey>, slots1: seq<Entry>, slots2: seq<Entry>,
                          now1: int, now2: int)
    requires |slots1| == |keys| && |slots2| == |keys|
    requires Landed(StoredIdentifier, first, keys, slots1, now1)
    requires Landed(StoredIdentifier, second, keys, slots2, now2)
    requires forall k :: 0 <= k < |keys| ==> slots2[k] == Hit(RecordToResult(WrittenRecord(StoredIdentifier, keys, slots1, now1, k)))
    requires forall id :: id !in DocumentIds(Episode, keys) ==> Get(second, id) == Get(first, id)
    ensures forall id :: (id in second <==> id in first) && (id in first ==> second[id].imdb == first[id].imdb)
  {
    forall id
      ensures (id in second <==> id in first)
      ensures id in first ==> second[id].imdb == first[id].imdb
    {
      if id in DocumentIds(Episode, keys) {
        var i :| 0 <= i < |keys| && DocumentIds(Episode, keys)[i] == id;
        RewriteKeepsIdentifier(first, second, keys, slots1, slots2, now1, now2, i);
      } else {
        assert Get(second, id) == Get(first, id);
      }
    }
  }

  /**
   * Requesting a season a second time keeps what the cache holds: once its
   * episodes have aired, the second call finds every episode cached and
   * writes each identifier back unchanged.
   */
  lemma {:induction false} SecondRequestKeepsIdentifiers(svc: Services, now1: int, now2: int, store: Store, series: nat, season: nat,
                                      details: Option<TmdbSeries>, graph: Option<ImdbSeries>, given: Option<TmdbSeason>)
    requires SeasonDetails(svc, series, season, given).Some?
    requires AiredBefore(SeasonDetails(svc, series, season, given).value.episodes, now1)
    ensures var first := SeasonFromTmdb(svc, now1, store, series, season, true, details, graph, given);
            var second := SeasonFromTmdb(svc, now2, first.store, series, season, true, details, graph, given);
            forall id :: (id in second.store <==> id in first.store)
                         && (id in first.store ==> second.store[id].imdb == first.store[id].imdb)
  {
    var episodes := SeasonDetails(svc, series, season, given).value.episodes;
    var keys := EpisodeKeys(series, season, episodes);
    var first := SeasonWith(StoredIdentifier, AgainstList, svc, now1, store, series, season, true, details, graph, given);
    var second := SeasonWith(StoredIdentifier, AgainstList, svc, now2, first.store, series, season, true, details, graph, given);
    var slots1 := ResolvedSeason(AgainstList, svc, now1, store, series, season, episodes, details, graph);
    var slots2 := ResolvedSeason(AgainstList, svc, now2, first.store, series, season, episodes, details, graph);
    SecondPassIsHits(StoredIdentifier, AgainstList, svc, now1, now2, first.store, series, season, episodes, slots1, details, graph);
    RewriteKeepsStore(first.store, second.store, keys, slots1, slots2, now1, now2);
  }

  /**
   * As written, the second request of a season whose episodes have aired
   * finds every episode cached and overwrites each of them with the empty
   * placeholder: the season's identifiers are lost.
   */
  lemma {:induction false} SecondRequestBlanksSeasonAsWritten(svc: Services, now1: int, now2: int, store: Store, series: nat, season: nat,
                                           details: Option<TmdbSeries>, graph: Option<ImdbSeries>, given: Option<TmdbSeason>)
    requires SeasonDetails(svc, series, season, given).Some?
    requires AiredBefore(SeasonDetails(svc, series, season, given).value.episodes, now1)
    ensures var episodes := SeasonDetails(svc, series, season, given).value.episodes;
            var first := SeasonFromTmdbAsWritten(svc, now1, store, series, season, true, details, graph, given);
            var second := SeasonFromTmdbAsWritten(svc, now2, first.store, series, season, true, details, graph, given);
            forall i :: 0 <= i < |episodes| ==>
              var id := DocumentId(Episode, TmdbKey(series, season, episodes[i].number));
              id in second.store && second.store[id].imdb == ""
  {
    var episodes := SeasonDetails(svc, series, season, given).value.episodes;
    var keys := EpisodeKeys(series, season, episodes);
    var first := SeasonWith(StoredIdentifierAsWritten, AgainstWrapper, svc, now1, store, series, season, true, details, graph, given);
    var second := SeasonWith(StoredIdentifierAsWritten, AgainstWrapper, svc, now2, first.store, series, season, true, details, graph, given);
    var slots1 := ResolvedSeason(AgainstWrapper, svc, now1, store, series, season, episodes, details, graph);
    var slots2 := ResolvedSeason(AgainstWrapper, svc, now2, first.store, series, season, episodes, details, graph);
    SecondPassIsHits(StoredIdentifierAsWritten, AgainstWrapper, svc, now1, now2, first.store, series, season, episodes, slots1, details, graph);
    RewriteBlanksStoreAsWritten(second.store, keys, slots2, now2);
  }

  /** Rewriting a season of cache hits with the source's rule leaves every episode blank. */
  lemma RewriteBlanksStoreAsWritten(second: Store, keys: seq<TmdbKey>, slots2: seq<Entry>, now2: int)
    requires |slots2| == |keys|
    requires Landed(StoredIdentifierAsWritten, second, keys, slots2, now2)
    requires forall k :: 0 <= k < |keys| ==> slots2[k].Hit?
    ensures forall i :: 0 <= i < |keys| ==> DocumentId(Episode, keys[i]) in second && second[DocumentId(Episode, keys[i])].imdb == ""
  {
    forall i | 0 <= i < |keys|
      ensures DocumentId(Episode, keys[i]) in second && second[DocumentId(Episode, keys[i])].imdb == ""
    {
      assert Get(second, DocumentId(Episode, keys[i])) == Some(WrittenRecord(StoredIdentifierAsWritten, keys, slots2, now2, i));
      assert slots2[LastIndex(keys, i)].Hit?;
    }
  }
}

=== FILE: series.dfy ===
/**
 * `getSeriesFromTmdb` (src/api/tmdb.ts): every season of a series, looked up
 * in one batch, with the seasons not fully cached resolved through the
 * season operation, and one write of everything resolved.
 */
module Series {
  import opened Wrappers
  import opened Ids
  import opened Batching
  import opened Cache
  import opened Graph
  import opened Catalog
  import opened Episodes
  import opened Runs
  import opened Seasons

  /** The key of the episode at position `k` of a season: its episode number is taken to be `k + 1`. */
  function PositionKey(series: nat, season: nat, k: nat): TmdbKey {
    TmdbKey(series, season, k + 1)
  }

  /** The keys of `n` episodes of one season, by position. */
  function RowKeys(series: nat, season: nat, n: nat): (keys: seq<TmdbKey>)
    ensures |keys| == n
    ensures forall k :: 0 <= k < n ==> keys[k] == PositionKey(series, season, k)
  {
    seq(n, k requires 0 <= k < n => PositionKey(series, season, k))
  }

  /** The keys of every season, season by season: `allEpisodeIds` before flattening. */
  function KeyRows(series: nat, seasons: seq<SeasonSummary>): (rows: seq<seq<TmdbKey>>)
    ensures |rows| == |seasons|
    ensures forall i :: 0 <= i < |seasons| ==> rows[i] == RowKeys(series, seasons[i].number, seasons[i].episodeCount)
  {
    seq(|seasons|, i requires 0 <= i < |seasons| => RowKeys(series, seasons[i].number, seasons[i].episodeCount))
  }

  function GridCell(rows: seq<seq<TmdbKey>>, found: seq<Option<DbResult>>, i: nat, k: nat): Entry
    requires |found| == |Concat(rows)|
    requires i < |rows| && k < |rows[i]|
  {
    ConcatIndex(rows, i, k);
    FromResult(found[Offset(rows, i) + k])
  }

  /** The batch results laid back out season by season, as `episodeToSeasonMap` places them. */
  function Grid(rows: seq<seq<TmdbKey>>, found: seq<Option<DbResult>>): (grid: seq<seq<Entry>>)
    requires |found| == |Concat(rows)|
    ensures |grid| == |rows|
    ensures forall i :: 0 <= i < |rows| ==> |grid[i]| == |rows[i]|
    ensures forall i, k :: 0 <= i < |rows| && 0 <= k < |rows[i]| ==> grid[i][k] == GridCell(rows, found, i, k)
  {
    seq(|rows|, i requires 0 <= i < |rows| =>
      seq(|rows[i]|, k requires 0 <= k < |rows[i]| => GridCell(rows, found, i, k)))
  }

  /** The series-wide lookup: one batch over every key, without air dates, laid out by season. */
  function SeriesGrid(store: Store, series: nat, seasons: seq<SeasonSummary>): (grid: seq<seq<Entry>>)
    ensures |grid| == |seasons|
    ensures forall i :: 0 <= i < |seasons| ==> |grid[i]| == seasons[i].episodeCount
  {
    var rows := KeyRows(series, seasons);
    Grid(rows, LookupMany(store, Episode, Concat(rows), []))
  }

  /** The flattened batch lookup puts every episode's own cache result in its place. */
  lemma {:induction false} SeriesGridIsLookup(store: Store, series: nat, seasons: seq<SeasonSummary>)
    ensures forall i, k :: 0 <= i < |seasons| && 0 <= k < seasons[i].episodeCount ==>
              SeriesGrid(store, series, seasons)[i][k] == FromResult(LookupOne(store, Episode, PositionKey(series, seasons[i].number, k)))
  {
    forall i, k | 0 <= i < |seasons| && 0 <= k < seasons[i].episodeCount
      ensures SeriesGrid(store, series, seasons)[i][k] == FromResult(LookupOne(store, Episode, PositionKey(series, seasons[i].number, k)))
    {
      GridCellIsLookup(store, series, seasons, i, k);
    }
  }

  lemma GridCellIsLookup(store: Store, series: nat, seasons: seq<SeasonSummary>, i: nat, k: nat)
    requires i < |seasons| && k < seasons[i].episodeCount
    ensures SeriesGrid(store, series, seasons)[i][k] == FromResult(LookupOne(store, Episode, PositionKey(series, seasons[i].number, k)))
  {
    var rows := KeyRows(series, seasons);
    var keys := Concat(rows);
    var found := LookupMany(store, Episode, keys, []);
    ConcatIndex(rows, i, k);
    var n := Offset(rows, i) + k;
    assert keys[n] == PositionKey(series, seasons[i].number, k);
    LookupManyWithoutDates(store, Episode, keys);
    assert found[n] == LookupOne(store, Episode, keys[n]);
    assert SeriesGrid(store, series, seasons)[i][k] == GridCell(rows, found, i, k);
  }

  /** Every episode of the season has a cached result. */
  predicate Covered(row: seq<Entry>) {
    forall k :: 0 <= k < |row| ==> row[k].Hit?
  }

  /** `tmdbSeasons?.[i]`. */
  function GivenSeason(given: Option<seq<TmdbSeason>>, i: nat): Option<TmdbSeason> {
    if given.Some? && i < |given.value| then Some(given.value[i]) else None
  }

  /**
   * `seasonCalls`: nothing for a fully cached season; otherwise the season
   * resolved against the original cache without writing, or nothing when
   * it cannot be had. The season operation runs with the series operation's
   * rules; as it does not write, only the extraction `how` shapes its result.
   */
  function SeasonCalls(stored: Entry -> ImdbId, how: Extraction, svc: Services, now: int, store: Store, series: nat, details: TmdbSeries, graph: Option<ImdbSeries>,
                       given: Option<seq<TmdbSeason>>): (calls: seq<Option<seq<Entry>>>)
    ensures |calls| == |details.seasons|
    ensures forall i :: 0 <= i < |details.seasons| && Covered(SeriesGrid(store, series, details.seasons)[i]) ==> calls[i].None?
  {
    var grid := SeriesGrid(store, series, details.seasons);
    seq(|details.seasons|, i requires 0 <= i < |details.seasons| =>
      if Covered(grid[i]) then None
      else SeasonWith(stored, how, svc, now, store, series, details.seasons[i].number, false, Some(details), graph, GivenSeason(given, i)).result)
  }

  /** The rows before the write: a season's own result where there is one, the batch lookup elsewhere. */
  function Rows(grid: seq<seq<Entry>>, calls: seq<Option<seq<Entry>>>): (rows: seq<seq<Entry>>)
    requires |calls| == |grid|
    ensures |rows| == |grid|
    ensures forall i :: 0 <= i < |grid| ==> rows[i] == if calls[i].Some? then calls[i].value else grid[i]
  {
    seq(|grid|, i requires 0 <= i < |grid| => if calls[i].Some? then calls[i].value else grid[i])
  }

  /** `newEntries`, season by season: every slot of every season with a result, keyed by position. */
  function WriteRows(stored: Entry -> ImdbId, series: nat, seasons: seq<SeasonSummary>, calls: seq<Option<seq<Entry>>>): (writes: seq<seq<Upsert>>)
    requires |calls| == |seasons|
    ensures |writes| == |seasons|
    ensures forall i :: 0 <= i < |seasons| && calls[i].None? ==> writes[i] == []
    ensures forall i :: 0 <= i < |seasons| && calls[i].Some? ==>
              writes[i] == SeasonUpserts(stored, RowKeys(series, seasons[i].number, |calls[i].value|), calls[i].value)
  {
    seq(|seasons|, i requires 0 <= i < |seasons| =>
      if calls[i].Some? then SeasonUpserts(stored, RowKeys(series, seasons[i].number, |calls[i].value|), calls[i].value) else [])
  }

  function SubstitutedCell(rows: seq<seq<Entry>>, writes: seq<seq<Upsert>>, written: seq<Option<DbResult>>, i: nat, e: nat): Entry
    requires |writes| == |rows| && |written| == |Concat(writes)|
    requires i < |rows| && e < |rows[i]|
  {
    if rows[i][e].Tuple? && e < |writes[i]| then
      ConcatIndex(writes, i, e);
      FromResult(written[Offset(writes, i) + e])
    else rows[i][e]
  }

  /** The final pass: every resolved slot that was written is replaced by the write's result. */
  function Substituted(rows: seq<seq<Entry>>, writes: seq<seq<Upsert>>, written: seq<Option<DbResult>>): (r: seq<seq<Entry>>)
    requires |writes| == |rows| && |written| == |Concat(writes)|
    ensures |r| == |rows|
    ensures forall i :: 0 <= i < |rows| ==> |r[i]| == |rows[i]|
    ensures forall i, e :: 0 <= i < |rows| && 0 <= e < |rows[i]| ==> r[i][e] == SubstitutedCell(rows, writes, written, i, e)
  {
    seq(|rows|, i requires 0 <= i < |rows| =>
      seq(|rows[i]|, e requires 0 <= e < |rows[i]| => SubstitutedCell(rows, writes, written, i, e)))
  }

  lemma SubstitutedAt(rows: seq<seq<Entry>>, writes: seq<seq<Upsert>>, written: seq<Option<DbResult>>, i: nat, e: nat)
    requires |writes| == |rows| && |written| == |Concat(writes)|
    requires i < |rows| && e < |rows[i]|
    ensures e < |Substituted(rows, writes, written)[i]|
    ensures Substituted(rows, writes, written)[i][e] == SubstitutedCell(rows, writes, written, i, e)
  {
  }

  /**
   * Everything after the season calls: the rows laid out from the batch
   * lookup and the season results, one write of every resolved season, and
   * the written identifiers substituted back.
   */
  function SeriesRows(stored: Entry -> ImdbId, now: int, store: Store, series: nat, seasons: seq<SeasonSummary>,
                      calls: seq<Option<seq<Entry>>>): (w: Written<seq<seq<Entry>>>)
    requires |calls| == |seasons|
    ensures |w.result| == |seasons|
  {
    var grid := SeriesGrid(store, series, seasons);
    var writes := WriteRows(stored, series, seasons, calls);
    var written := UpsertMany(store, Episode, Concat(writes), now);
    Written(Substituted(Rows(grid, calls), writes, written.result), written.store)
  }

  /** The series operation with the write-back rule `stored` and the extraction `how`. */
  function SeriesWith(stored: Entry -> ImdbId, how: Extraction, svc: Services, now: int, store: Store, series: nat,
                      given: Option<TmdbSeries>, seasonsGiven: Option<seq<TmdbSeason>>): (w: Written<Option<seq<seq<Entry>>>>)
  {
    var title := SeriesTitle(svc, series, given);
    match title.0
    case None => Written(None, store)
    case Some(details) =>
      var rows := SeriesRows(stored, now, store, series, details.seasons,
                             SeasonCalls(stored, how, svc, now, store, series, details, title.1, seasonsGiven));
      Written(Some(rows.result), rows.store)
  }

  /** No slot of the assembled series is left as a bare identifier. */
  lemma SubstitutedHasNoBareIdentifiers(stored: Entry -> ImdbId, series: nat, seasons: seq<SeasonSummary>,
                                        grid: seq<seq<Entry>>, calls: seq<Option<seq<Entry>>>, written: seq<Option<DbResult>>)
    requires |grid| == |seasons| && |calls| == |seasons|
    requires forall i, k :: 0 <= i < |grid| && 0 <= k < |grid[i]| ==> !grid[i][k].Tuple?
    requires |written| == |Concat(WriteRows(stored, series, seasons, calls))|
    ensures var r := Substituted(Rows(grid, calls), WriteRows(stored, series, seasons, calls), written);
            forall i, e :: 0 <= i < |r| && 0 <= e < |r[i]| ==> !r[i][e].Tuple?
  {
  }

  /** The batch lookup yields only hits and misses. */
  lemma SeriesGridHasNoBareIdentifiers(store: Store, series: nat, seasons: seq<SeasonSummary>)
    ensures var grid := SeriesGrid(store, series, seasons);
            forall i, k :: 0 <= i < |grid| && 0 <= k < |grid[i]| ==> !grid[i][k].Tuple?
  {
  }

  /** The facts `SeriesFromTmdb` promises, for any write-back rule and extraction. */
  lemma SeriesWithShape(stored: Entry -> ImdbId, how: Extraction, svc: Services, now: int, store: Store, series: nat,
                        given: Option<TmdbSeries>, seasonsGiven: Option<seq<TmdbSeason>>)
    ensures var w := SeriesWith(stored, how, svc, now, store, series, given, seasonsGiven);
            && (SeriesTitle(svc, series, given).0.None? ==> w.result.None? && w.store == store)
            && (SeriesTitle(svc, series, given).0.Some? ==>
                  && w.result.Some?
                  && |w.result.value| == |SeriesTitle(svc, series, given).0.value.seasons|
                  && (forall i, e :: 0 <= i < |w.result.value| && 0 <= e < |w.result.value[i]| ==> !w.result.value[i][e].Tuple?))
            && (forall id :: Get(w.store, id) != Get(store, id) ==> exists season, episode :: id == DocumentId(Episode, TmdbKey(series, season, episode)))
  {
    var title := SeriesTitle(svc, series, given);
    if title.0.Some? {
      var details := title.0.value;
      var grid := SeriesGrid(store, series, details.seasons);
      var calls := SeasonCalls(stored, how, svc, now, store, series, details, title.1, seasonsGiven);
      var writes := WriteRows(stored, series, details.seasons, calls);
      SeriesGridHasNoBareIdentifiers(store, series, details.seasons);
      SubstitutedHasNoBareIdentifiers(stored, series, details.seasons, grid, calls,
                                      UpsertMany(store, Episode, Concat(writes), now).result);
      SeriesWritesStayInSeries(stored, store, series, details.seasons, calls, now);
    }
  }

  /**
   * `getSeriesFromTmdb`, with hits written back as the identifiers they
   * hold. Without series details there is nothing and the cache is
   * untouched; otherwise there is one row per season, no slot is left as a
   * bare identifier, and the only documents that change are episode
   * documents of this series.
   */
  function SeriesFromTmdb(svc: Services, now: int, store: Store, series: nat,
                          given: Option<TmdbSeries>, seasonsGiven: Option<seq<TmdbSeason>>): (w: Written<Option<seq<seq<Entry>>>>)
    ensures SeriesTitle(svc, series, given).0.None? ==> w.result.None? && w.store == store
    ensures SeriesTitle(svc, series, given).0.Some? ==>
              && w.result.Some?
              && |w.result.value| == |SeriesTitle(svc, series, given).0.value.seasons|
              && (forall i, e :: 0 <= i < |w.result.value| && 0 <= e < |w.result.value[i]| ==> !w.result.value[i][e].Tuple?)
    ensures forall id :: Get(w.store, id) != Get(store, id) ==> exists season, episode :: id == DocumentId(Episode, TmdbKey(series, season, episode))
  {
    SeriesWithShape(StoredIdentifier, AgainstList, svc, now, store, series, given, seasonsGiven);
    SeriesWith(StoredIdentifier, AgainstList, svc, now, store, series, given, seasonsGiven)
  }

  /** Every write of a series targets an episode document of that series. */
  lemma SeriesWritesStayInSeries(stored: Entry -> ImdbId, store: Store, series: nat, seasons: seq<SeasonSummary>,
                                 calls: seq<Option<seq<Entry>>>, now: int)
    requires |calls| == |seasons|
    ensures var data := Concat(WriteRows(stored, series, seasons, calls));
            var after := UpsertMany(store, Episode, data, now).store;
            forall id :: Get(after, id) != Get(store, id) ==> exists season, episode :: id == DocumentId(Episode, TmdbKey(series, season, episode))
  {
    var data := Concat(WriteRows(stored, series, seasons, calls));
    var after := UpsertMany(store, Episode, data, now).store;
    forall id | Get(after, id) != Get(store, id)
      ensures exists season, episode :: id == DocumentId(Episode, TmdbKey(series, season, episode))
    {
      var m := LastWrite(Episode, data, id).value;
      WriteKeyInSeries(stored, series, seasons, calls, m);
      var key := data[m].key;
      assert id == DocumentId(Episode, TmdbKey(series, key.season, key.episode));
    }
  }

  /** Each single write of a series is keyed by that series. */
  lemma WriteKeyInSeries(stored: Entry -> ImdbId, series: nat, seasons: seq<SeasonSummary>,
                         calls: seq<Option<seq<Entry>>>, m: nat)
    requires |calls| == |seasons|
    requires m < |Concat(WriteRows(stored, series, seasons, calls))|
    ensures Concat(WriteRows(stored, series, seasons, calls))[m].key.title == series
  {
    var i, l := LocateWrite(stored, series, seasons, calls, m);
  }

  /** Write `m` of a series is slot `l` of resolved season `j`, keyed by its position. */
  lemma LocateWrite(stored: Entry -> ImdbId, series: nat, seasons: seq<SeasonSummary>,
                    calls: seq<Option<seq<Entry>>>, m: nat) returns (j: nat, l: nat)
    requires |calls| == |seasons|
    requires m < |Concat(WriteRows(stored, series, seasons, calls))|
    ensures j < |seasons| && calls[j].Some? && l < |calls[j].value|
    ensures m == Offset(WriteRows(stored, series, seasons, calls), j) + l
    ensures Concat(WriteRows(stored, series, seasons, calls))[m].key == PositionKey(series, seasons[j].number, l)
  {
    var writes := WriteRows(stored, series, seasons, calls);
    ConcatLocate(writes, m);
    j, l :| At(writes, m, j, l);
    ConcatIndex(writes, j, l);
    assert Concat(writes)[m] == writes[j][l];
  }

  /** Season numbers are distinct, as the catalog gives them. */
  predicate DistinctSeasons(seasons: seq<SeasonSummary>) {
    forall a, b :: 0 <= a < b < |seasons| ==> seasons[a].number != seasons[b].number
  }

  /** With distinct season numbers, slot `e` of season `i` is the only write to its key. */
  lemma SeriesWriteKeyUnique(stored: Entry -> ImdbId, series: nat, seasons: seq<SeasonSummary>,
                             calls: seq<Option<seq<Entry>>>, i: nat, e: nat)
    requires |calls| == |seasons| && DistinctSeasons(seasons)
    requires i < |seasons| && calls[i].Some? && e < |calls[i].value|
    ensures var writes := WriteRows(stored, series, seasons, calls);
            var data := Concat(writes);
            var n := Offset(writes, i) + e;
            && n < |data|
            && data[n] == Upsert(PositionKey(series, seasons[i].number, e), stored(calls[i].value[e]))
            && forall m :: 0 <= m < |data| && m != n ==> data[m].key != data[n].key
  {
    var writes := WriteRows(stored, series, seasons, calls);
    var data := Concat(writes);
    var n := Offset(writes, i) + e;
    ConcatIndex(writes, i, e);
    forall m | 0 <= m < |data| && m != n
      ensures data[m].key != data[n].key
    {
      var j, l := LocateWrite(stored, series, seasons, calls, m);
      if j != i {
        assert seasons[j].number != seasons[i].number by {
          if j < i {} else {}
        }
      }
    }
  }

  /** The record the series write leaves for slot `e` of a resolved season `i`. */
  lemma {:induction false} SeriesSlotLands(stored: Entry -> ImdbId, store: Store, series: nat, seasons: seq<SeasonSummary>,
                        calls: seq<Option<seq<Entry>>>, now: int, i: nat, e: nat)
    requires |calls| == |seasons| && DistinctSeasons(seasons)
    requires i < |seasons| && calls[i].Some? && e < |calls[i].value|
    ensures var after := UpsertMany(store, Episode, Concat(WriteRows(stored, series, seasons, calls)), now).store;
            var key := PositionKey(series, seasons[i].number, e);
            Get(after, DocumentId(Episode, key)) == Some(NewRecord(Episode, Upsert(key, stored(calls[i].value[e])), now))
  {
    var writes := WriteRows(stored, series, seasons, calls);
    var data := Concat(writes);
    var n := Offset(writes, i) + e;
    SeriesWriteKeyUnique(stored, series, seasons, calls, i, e);
    assert data[n] == Upsert(PositionKey(series, seasons[i].number, e), stored(calls[i].value[e]));
    UniqueWriteLands(store, Episode, data, now, n);
  }

  /**
   * `getSeriesFromTmdb` as the source has it: the season calls extract
   * positional matches against the episodes wrapper, and cache hits are
   * written back as the placeholder. The promises of the corrected form hold
   * of it too.
   */
  function SeriesFromTmdbAsWritten(svc: Services, now: int, store: Store, series: nat,
                                   given: Option<TmdbSeries>, seasonsGiven: Option<seq<TmdbSeason>>): (w: Written<Option<seq<seq<Entry>>>>)
    ensures SeriesTitle(svc, series, given).0.None? ==> w.result.None? && w.store == store
    ensures SeriesTitle(svc, series, given).0.Some? ==>
              && w.result.Some?
              && |w.result.value| == |SeriesTitle(svc, series, given).0.value.seasons|
              && (forall i, e :: 0 <= i < |w.result.value| && 0 <= e < |w.result.value[i]| ==> !w.result.value[i][e].Tuple?)
    ensures forall id :: Get(w.store, id) != Get(store, id) ==> exists season, episode :: id == DocumentId(Episode, TmdbKey(series, season, episode))
  {
    SeriesWithShape(StoredIdentifierAsWritten, AgainstWrapper, svc, now, store, series, given, seasonsGiven);
    SeriesWith(StoredIdentifierAsWritten, AgainstWrapper, svc, now, store, series, given, seasonsGiven)
  }

  /**
   * A season refetched by the series operation keeps the identifiers of its
   * cache hits: each is written back as the string it held.
   */
  lemma {:induction false} SeriesRefetchKeepsHits(svc: Services, now: int, store: Store, series: nat,
                               given: Option<TmdbSeries>, seasonsGiven: Option<seq<TmdbSeason>>, i: nat, e: nat)
    requires SeriesTitle(svc, series, given).0.Some?
    requires DistinctSeasons(SeriesTitle(svc, series, given).0.value.seasons)
    requires var title := SeriesTitle(svc, series, given);
             var calls := SeasonCalls(StoredIdentifier, AgainstList, svc, now, store, series, title.0.value, title.1, seasonsGiven);
             i < |calls| && calls[i].Some? && e < |calls[i].value| && calls[i].value[e].Hit?
    ensures var title := SeriesTitle(svc, series, given);
            var hit := SeasonCalls(StoredIdentifier, AgainstList, svc, now, store, series, title.0.value, title.1, seasonsGiven)[i].value[e];
            var id := DocumentId(Episode, PositionKey(series, title.0.value.seasons[i].number, e));
            var after := SeriesFromTmdb(svc, now, store, series, given, seasonsGiven).store;
            id in after && after[id].imdb == hit.result.imdb
  {
    var title := SeriesTitle(svc, series, given);
    var calls := SeasonCalls(StoredIdentifier, AgainstList, svc, now, store, series, title.0.value, title.1, seasonsGiven);
    SeriesSlotLands(StoredIdentifier, store, series, title.0.value.seasons, calls, now, i, e);
  }

  /**
   * As written, a season the series operation refetches loses the
   * identifiers of its cache hits: each is overwritten with the empty
   * placeholder.
   */
  lemma {:induction false} SeriesRefetchBlanksHitsAsWritten(svc: Services, now: int, store: Store, series: nat,
                                         given: Option<TmdbSeries>, seasonsGiven: Option<seq<TmdbSeason>>, i: nat, e: nat)
    requires SeriesTitle(svc, series, given).0.Some?
    requires DistinctSeasons(SeriesTitle(svc, series, given).0.value.seasons)
    requires var title := SeriesTitle(svc, series, given);
             var calls := SeasonCalls(StoredIdentifierAsWritten, AgainstWrapper, svc, now, store, series, title.0.value, title.1, seasonsGiven);
             i < |calls| && calls[i].Some? && e < |calls[i].value| && calls[i].value[e].Hit?
    ensures var title := SeriesTitle(svc, series, given);
            var id := DocumentId(Episode, PositionKey(series, title.0.value.seasons[i].number, e));
            var after := SeriesFromTmdbAsWritten(svc, now, store, series, given, seasonsGiven).store;
            id in after && after[id].imdb == ""
  {
    var title := SeriesTitle(svc, series, given);
    var calls := SeasonCalls(StoredIdentifierAsWritten, AgainstWrapper, svc, now, store, series, title.0.value, title.1, seasonsGiven);
    SeriesSlotLands(StoredIdentifierAsWritten, store, series, title.0.value.seasons, calls, now, i, e);
  }

  /**
   * A season whose every episode is cached is not fetched: its row is the
   * cached results, as the batch lookup found them.
   */
  lemma {:induction false} CoveredSeasonIsCached(svc: Services, now: int, store: Store, series: nat,
                              given: Option<TmdbSeries>, seasonsGiven: Option<seq<TmdbSeason>>, i: nat)
    requires SeriesTitle(svc, series, given).0.Some?
    requires var seasons := SeriesTitle(svc, series, given).0.value.seasons;
             && i < |seasons|
             && forall k :: 0 <= k < seasons[i].episodeCount ==> LookupOne(store, Episode, PositionKey(series, seasons[i].number, k)).Some?
    ensures var seasons := SeriesTitle(svc, series, given).0.value.seasons;
            var row := SeriesFromTmdb(svc, now, store, series, given, seasonsGiven).result.value[i];
            && |row| == seasons[i].episodeCount
            && forall k :: 0 <= k < |row| ==> row[k] == Hit(LookupOne(store, Episode, PositionKey(series, seasons[i].number, k)).value)
  {
    var title := SeriesTitle(svc, series, given);
    var details := title.0.value;
    var grid := SeriesGrid(store, series, details.seasons);
    SeriesGridIsLookup(store, series, details.seasons);
    var calls := SeasonCalls(StoredIdentifier, AgainstList, svc, now, store, series, details, title.1, seasonsGiven);
    assert Covered(grid[i]);
    assert calls[i].None?;
    var writes := WriteRows(StoredIdentifier, series, details.seasons, calls);
    assert writes[i] == [];
  }

  /**
   * One slot of a resolved season after the series write, for any read-back
   * that reports, for each write, what the cache holds for its key.
   */
  lemma SubstitutedSlot(stored: Entry -> ImdbId, after: Store, series: nat, seasons: seq<SeasonSummary>,
                        grid: seq<seq<Entry>>, calls: seq<Option<seq<Entry>>>, written: seq<Option<DbResult>>, i: nat, e: nat)
    requires |grid| == |seasons| && |calls| == |seasons|
    requires i < |seasons| && calls[i].Some? && e < |calls[i].value|
    requires var data := Concat(WriteRows(stored, series, seasons, calls));
             |written| == |data| && forall n :: 0 <= n < |data| ==> written[n] == LookupOne(after, Episode, data[n].key)
    ensures var r := Substituted(Rows(grid, calls), WriteRows(stored, series, seasons, calls), written);
            var slot := calls[i].value[e];
            && e < |r[i]|
            && r[i][e] == (if slot.Tuple? then FromResult(LookupOne(after, Episode, PositionKey(series, seasons[i].number, e))) else slot)
  {
    var writes := WriteRows(stored, series, seasons, calls);
    var rows := Rows(grid, calls);
    WriteOfSlot(stored, series, seasons, calls, i, e);
    var n := Offset(writes, i) + e;
    assert written[n] == LookupOne(after, Episode, PositionKey(series, seasons[i].number, e));
    assert rows[i] == calls[i].value;
    SubstitutedWritten(rows, writes, written, i, e);
  }

  /** Slot `e` of resolved season `i` is written once, at its season's offset plus `e`, under its position key. */
  lemma WriteOfSlot(stored: Entry -> ImdbId, series: nat, seasons: seq<SeasonSummary>,
                    calls: seq<Option<seq<Entry>>>, i: nat, e: nat)
    requires |calls| == |seasons|
    requires i < |seasons| && calls[i].Some? && e < |calls[i].value|
    ensures var writes := WriteRows(stored, series, seasons, calls);
            && e < |writes[i]|
            && Offset(writes, i) + e < |Concat(writes)|
            && Concat(writes)[Offset(writes, i) + e] == Upsert(PositionKey(series, seasons[i].number, e), stored(calls[i].value[e]))
  {
    var writes := WriteRows(stored, series, seasons, calls);
    ConcatIndex(writes, i, e);
  }

  /** A slot after substitution, whatever the write reported. */
  lemma SubstitutedWritten(rows: seq<seq<Entry>>, writes: seq<seq<Upsert>>, written: seq<Option<DbResult>>, i: nat, e: nat)
    requires |writes| == |rows| && |written| == |Concat(writes)|
    requires i < |rows| && e < |rows[i]| && e < |writes[i]|
    ensures Offset(writes, i) + e < |written|
    ensures e < |Substituted(rows, writes, written)[i]|
    ensures Substituted(rows, writes, written)[i][e]
         == (if rows[i][e].Tuple? then FromResult(written[Offset(writes, i) + e]) else rows[i][e])
  {
    ConcatIndex(writes, i, e);
    SubstitutedAt(rows, writes, written, i, e);
  }

  /**
   * A season the series operation resolves comes back slot for slot as the
   * season operation gave it, except that every resolved identifier is
   * replaced by what the cache holds for its key after the write.
   */
  lemma {:induction false} FetchedSeasonAgreesWithCache(svc: Services, now: int, store: Store, series: nat,
                                     given: Option<TmdbSeries>, seasonsGiven: Option<seq<TmdbSeason>>, i: nat)
    requires SeriesTitle(svc, series, given).0.Some?
    requires var title := SeriesTitle(svc, series, given);
             var calls := SeasonCalls(StoredIdentifier, AgainstList, svc, now, store, series, title.0.value, title.1, seasonsGiven);
             i < |calls| && calls[i].Some?
    ensures var title := SeriesTitle(svc, series, given);
            var slots := SeasonCalls(StoredIdentifier, AgainstList, svc, now, store, series, title.0.value, title.1, seasonsGiven)[i].value;
            var w := SeriesFromTmdb(svc, now, store, series, given, seasonsGiven);
            var row := w.result.value[i];
            && |row| == |slots|
            && forall e :: 0 <= e < |slots| ==>
                 row[e] == (if slots[e].Tuple?
                            then FromResult(LookupOne(w.store, Episode, PositionKey(series, title.0.value.seasons[i].number, e)))
                            else slots[e])
  {
    var title := SeriesTitle(svc, series, given);
    var details := title.0.value;
    var grid := SeriesGrid(store, series, details.seasons);
    var calls := SeasonCalls(StoredIdentifier, AgainstList, svc, now, store, series, details, title.1, seasonsGiven);
    forall e | 0 <= e < |calls[i].value|
      ensures var writes := WriteRows(StoredIdentifier, series, details.seasons, calls);
              var w := UpsertMany(store, Episode, Concat(writes), now);
              var r := Substituted(Rows(grid, calls), writes, w.result);
              var slot := calls[i].value[e];
              r[i][e] == (if slot.Tuple? then FromResult(LookupOne(w.store, Episode, PositionKey(series, details.seasons[i].number, e))) else slot)
    {
      var writes := WriteRows(StoredIdentifier, series, details.seasons, calls);
      var w := UpsertMany(store, Episode, Concat(writes), now);
      SubstitutedSlot(StoredIdentifier, w.store, series, details.seasons, grid, calls, w.result, i, e);
    }
  }
}

=== FILE: strings.dfy ===
/** Text helpers shared by the identifier codecs and the title matcher. */
module Strings {

  predicate IsDigit(c: char) {
    '0' <= c <= '9'
  }

  predicate AllDigits(s: string) {
    forall i :: 0 <= i < |s| ==> IsDigit(s[i])
  }

  function DigitChar(d: nat): (c: char)
    requires d < 10
    ensures IsDigit(c)
  {
    (48 + d) as char
  }

  function DigitValue(c: char): (d: nat)
    requires IsDigit(c)
    ensures d < 10 && DigitChar(d) == c
  {
    c as int - 48
  }

  /** `s.startsWith(p)`. */
  predicate IsPrefix(p: string, s: string) {
    |p| <= |s| && s[..|p|] == p
  }

  /** `s.includes(t)`: `t` occurs in `s` as a contiguous block. */
  predicate Contains(s: string, t: string)
    decreases |s|
  {
    IsPrefix(t, s) || (|s| > 0 && Contains(s[1..], t))
  }

  /** `t` occurs in `s` starting at position `i`. */
  predicate OccursAt(s: string, t: string, i: int) {
    0 <= i <= |s| - |t| && s[i..i + |t|] == t
  }

  /** `Contains` agrees with the positional reading of `includes`. */
  lemma {:induction false} ContainsAt(s: string, t: string)
    ensures Contains(s, t) <==> exists i :: OccursAt(s, t, i)
    decreases |s|
  {
    if |s| > 0 {
      ContainsAt(s[1..], t);
      if IsPrefix(t, s) {
        assert OccursAt(s, t, 0);
      }
      if Contains(s[1..], t) {
        var i :| OccursAt(s[1..], t, i);
        assert OccursAt(s, t, i + 1);
      }
      if exists i :: OccursAt(s, t, i) {
        var i :| OccursAt(s, t, i);
        if i > 0 {
          assert OccursAt(s[1..], t, i - 1);
        }
      }
    } else {
      if exists i :: OccursAt(s, t, i) {
        var i :| OccursAt(s, t, i);
        assert i == 0 && t == s[0..0];
        assert IsPrefix(t, s);
      }
      if Contains(s, t) {
        assert OccursAt(s, t, 0);
      }
    }
  }

  /** Decimal rendering of a natural number, as `${n}` and `n.toString()` print it. */
  function NatToString(n: nat): (s: string)
    ensures |s| > 0 && AllDigits(s)
    decreases n
  {
    if n < 10 then [DigitChar(n)] else NatToString(n / 10) + [DigitChar(n % 10)]
  }

  /** The value of a run of decimal digits (most significant first). */
  function DigitsValue(s: string): nat
    requires AllDigits(s)
  {
    if |s| == 0 then 0 else DigitsValue(s[..|s| - 1]) * 10 + DigitValue(s[|s| - 1])
  }

  lemma {:induction false} DigitsValueOfNatToString(n: nat)
    ensures DigitsValue(NatToString(n)) == n
    decreases n
  {
    if n >= 10 {
      DigitsValueOfNatToString(n / 10);
      var s := NatToString(n / 10);
      assert (s + [DigitChar(n % 10)])[..|s|] == s;
    }
  }

  /** Distinct numbers print differently. */
  lemma NatToStringInjective(a: nat, b: nat)
    requires NatToString(a) == NatToString(b)
    ensures a == b
  {
    DigitsValueOfNatToString(a);
    DigitsValueOfNatToString(b);
  }

  /** `parts.join(sep)` for a one-character separator. */
  function Join(parts: seq<string>, sep: char): string
    decreases |parts|
  {
    if |parts| == 0 then ""
    else if |parts| == 1 then parts[0]
    else parts[0] + [sep] + Join(parts[1..], sep)
  }

  /** `s.split(sep)` for a one-character separator. */
  function Split(s: string, sep: char): (parts: seq<string>)
    ensures |parts| > 0
    decreases |s|
  {
    if |s| == 0 then [""]
    else
      var rest := Split(s[1..], sep);
      if s[0] == sep then [""] + rest else [[s[0]] + rest[0]] + rest[1..]
  }

  lemma {:induction false} SplitPlain(p: string, sep: char)
    requires sep !in p
    ensures Split(p, sep) == [p]
    decreases |p|
  {
    if |p| > 0 {
      SplitPlain(p[1..], sep);
      assert [p[0]] + p[1..] == p;
    }
  }

  lemma {:induction false} SplitAtSeparator(p: string, sep: char, rest: string)
    requires sep !in p
    ensures Split(p + [sep] + rest, sep) == [p] + Split(rest, sep)
    decreases |p|
  {
    var s := p + [sep] + rest;
    if |p| == 0 {
      assert s[1..] == rest;
    } else {
      assert s[1..] == p[1..] + [sep] + rest;
      SplitAtSeparator(p[1..], sep, rest);
      assert [p[0]] + p[1..] == p;
    }
  }

  /** Splitting a join recovers the parts when no part contains the separator. */
  lemma {:induction false} SplitJoin(parts: seq<string>, sep: char)
    requires |parts| > 0
    requires forall i :: 0 <= i < |parts| ==> sep !in parts[i]
    ensures Split(Join(parts, sep), sep) == parts
    decreases |parts|
  {
    if |parts| == 1 {
      SplitPlain(parts[0], sep);
    } else {
      SplitJoin(parts[1..], sep);
      SplitAtSeparator(parts[0], sep, Join(parts[1..], sep));
      assert [parts[0]] + parts[1..] == parts;
    }
  }
}

=== FILE: wrappers.dfy ===
/** Absence as a first-class value: the model's stand-in for `undefined`. */
module Wrappers {

  datatype Option<+T> = None | Some(value: T) {

    /** The value if present, otherwise `default` (the source's `x || default`). */
    function GetOr(default: T): T {
      match this
      case Some(v) => v
      case None => default
    }

    /** The first of two optional values that is present (`a || b` on results). */
    function OrElse(other: Option<T>): Option<T> {
      match this
      case Some(_) => this
      case None => other
    }
  }
}
